=== FILE: README.md ===
# reapsaw report conversion, modelled in Dafny

reapsaw runs static analysers (Checkmarx for source code, Snyk for
dependencies) and turns their findings into one canonical issue format.
This project models the part that does the turning and the reporting:

- the canonical issue record and the shared helpers of every report
  (`BaseReport`), and the severity, priority and defect-type tables;
- the Snyk report: reading one vulnerability into a canonical issue,
  dropping paths that cannot be fixed, grouping vulnerabilities of one
  top-level dependency, and choosing the upgrade to recommend
  (`SnykReport`, with `Semver` for version comparison);
- the Checkmarx report: the bug-bar lookup that decides which queries are
  issues, masking of secrets, categories, the per-result issue and the
  caches of recommendations and descriptions (`CheckmarxReport`), together
  with the exclusion filters and the HTML-list-to-Jira-markup conversion
  (`CxUtils`);
- the converter that aggregates issues into dashboard test items: the
  aggregation key, the choice of defect type, severity and priority, the
  accumulated recommendations, instances and info panels, the item's log
  messages and tags, and the JUnit view (`Converter`);
- the dashboard test item and message (`TestItems`, `TestMessages`) and the
  dashboard writer, modelled as the sequence of calls it makes on the
  service (`RpWriter`);
- the two command-line entry points: sending the test items to the
  dashboard and choosing the outputs (`GenerateReports`), and creating one
  Jira ticket per JSON record (`JsonToJira`).

Python dictionaries are association lists with distinct keys (`Assoc`),
Python sets are sequences without repeats in first-seen order, strings are
`seq<char>` with the handful of `str` methods the code uses (`Strings`), and
`sorted()` is insertion sort under code-point order (`Sorting`). Every
exception the code can raise on the modelled paths is a `Failure` of a
`Result` (`Wrappers`). The environment, the bug-bar loader and the remote
services are parameters.

## Model

| member | source | states |
|---|---|---|
| BaseReport.DefaultIssue | sast_controller/converters/BaseReport.py:38-58 | a fresh canonical record has every text field blank, no attachments and no tags, the repository it is given, is grouped, and has no defect type, comment or top-level module |
| BaseReport.GetGitPath | sast_controller/converters/BaseReport.py:80-87 | the link is empty exactly when the repository or the branch is unknown; otherwise it starts with `repo/blob/branch/file`, and when a line is given it ends with `#L` and the line, its length being exactly that of the prefix plus two plus the line |
| BaseReport.ReportFormat | sast_controller/converters/BaseReport.py:65 | a report is read as XML exactly when its path contains "xml" anywhere, not only as the extension |
| BaseReport.FormatExamples | sast_controller/converters/BaseReport.py:65 | a JSON file inside a directory named `xml_out` is read as XML |
| BaseReport.BugBar | sast_controller/converters/BaseReport.py:74-78 | a non-empty cached table is returned as is; otherwise the loader's answer is returned and becomes the cache |
| BaseReport.BugBarLoadedOnce | sast_controller/converters/BaseReport.py:74-78 | once a non-empty table is cached, every later access returns it whatever the loader would answer |
| Tables.SeverityOrder | sast_controller/converters/__init__.py:15-23 | Critical outranks High, which outranks Medium and Moderate (equal), which outrank Low, which outranks Information; Information and Info rank zero |
| Tables.DefectTypeFollowsRank | sast_controller/converters/__init__.py:15-33 | the rank table and the defect-type table know the same severities, and a severity is a Product Bug exactly when its rank is at least 3 |
| Tables.PriorityMappingCoverage | sast_controller/converters/__init__.py:35-42 | every severity of positive rank has a ticket priority and every priority belongs to a ranked severity; "Info" has none; Medium and Moderate are both Major |
| Tables.DefectTypePrecedence | sast_controller/converters/__init__.py:55-60 | Product Bug wins over System Issue, which wins over To Investigate, which wins over No Defect; every defect type a severity maps to has a precedence |
| Semver.Parse | sast_controller/converters/SnykReport.py:108-109 | a parsed version text is three dot-separated parts; every failure is a ValueError |
| Semver.ParseFormat | sast_controller/converters/SnykReport.py:108-109 | printing a version and parsing the text gives the version back |
| Semver.Compare | sast_controller/converters/SnykReport.py:108-109 | the comparison answers -1, 0 or 1; 0 exactly for equal versions, -1 exactly when the first is below the second in the lexicographic order of (major, minor, patch) compared as numbers, and 1 exactly when it is above |
| Semver.LtByComponents | sast_controller/converters/SnykReport.py:108-109 | the lexicographic order is: a smaller major, or an equal major and a smaller minor, or equal major and minor and a smaller patch |
| Semver.CompareAntisymmetric | sast_controller/converters/SnykReport.py:108-109 | swapping the operands negates the answer |
| Semver.CompareTransitive | sast_controller/converters/SnykReport.py:108-109 | the order on versions is transitive, strictly so when either step is strict |
| Semver.CompareTotal | sast_controller/converters/SnykReport.py:108-109 | any two versions are ordered one way or the other |
| Semver.CompareStrings | sast_controller/converters/SnykReport.py:108-109 | comparing two version texts succeeds exactly when both parse, and then orders the parsed versions |
| Semver.CompareExamples | sast_controller/converters/SnykReport.py:108-109 | components compare as numbers, so 4.17.4 is below 4.17.11 |
| SnykReport.PartsWith | sast_controller/converters/SnykReport.py:171-174 | the kept parts of the description are exactly the parts that mention the word |
| SnykReport.Sections | sast_controller/converters/SnykReport.py:196-199 | without a Remediation part the recommendation says that the top-level package contains known vulnerabilities and there are no references; otherwise, taking the segment between the first and second "Remediation", it fails with IndexError exactly when that segment has no "References", and on success the recommendation is the segment's text before its first "References" with every '#' removed and stripped, and the references are the text between its first and second "References" |
| Strings.Before | sast_controller/converters/SnykReport.py:197-199 | the text before the first occurrence of the separator, or the whole text without one: a prefix of the text that does not contain the separator |
| Strings.After | sast_controller/converters/SnykReport.py:197-199 | the text after the first occurrence of the separator, so that the text before it, the separator and this text rebuild the input |
| Strings.SplitParts | sast_controller/converters/SnykReport.py:197-199 | `s.split(sep)[0]` is the text before the first separator; a second part exists exactly when the separator occurs, and it is the text between the first and second occurrences |
| SnykReport.InstancesText | sast_controller/converters/SnykReport.py:216-220 | the instance text starts with the top-level module, is exactly the module when no branch is set, and is exactly the module, a newline, "Branch: " and the branch otherwise |
| SnykReport.Convert | sast_controller/converters/SnykReport.py:159-223 | the record is named title.module after the top-level module of the second path entry, carries the standard tags, its instances and its one joined path, and keeps the upgrade path and language |
| SnykReport.GetItem | sast_controller/converters/SnykReport.py:142-223 | an unreadable policy table raises TypeError and a path of fewer than two entries raises IndexError; a description without Remediation never fails; a converted record is named title.module with the standard tags |
| SnykReport.TopLevelModuleOfDependency | sast_controller/converters/SnykReport.py:204-205 | the top-level module of `name@version` is `name` |
| SnykReport.Skipped | sast_controller/converters/SnykReport.py:79-85 | without upgrades a vulnerability is dropped unless it is dotnet; an upgrade that keeps the top-level dependency drops it unless it is js; a one-entry upgrade path raises IndexError |
| SnykReport.MaxSeverity | sast_controller/converters/SnykReport.py:31-35 | defined exactly when both severities are known (else TypeError), it is one of the two, at least as high as both, and the second on a tie |
| SnykReport.Open | sast_controller/converters/SnykReport.py:86-88 | a new key is appended with the vulnerability as its group and the defect type of its severity; an unknown severity raises KeyError; other groups are untouched |
| SnykReport.JoinGroup | sast_controller/converters/SnykReport.py:89-93 | a known key's group gets the union of the paths and the higher severity; an unknown severity raises TypeError; other groups are untouched |
| SnykReport.Merge | sast_controller/converters/SnykReport.py:86-93 | the group keys stay, a new key is appended at the end, and every group of another key is left as it was |
| SnykReport.GroupItems | sast_controller/converters/SnykReport.py:76-94 | the groups are keyed by the distinct (module, recommendation) keys of the kept vulnerabilities, in first-seen order |
| SnykReport.Group | sast_controller/converters/SnykReport.py:71-94 | the groups of the converted vulnerabilities have distinct keys, the distinct keys of the kept ones in first-seen order |
| SnykReport.GroupCovers | sast_controller/converters/SnykReport.py:71-94 | after a successful grouping every vulnerability converted and passed the skip test, and every kept one's paths are in its key's group, whose severity is at least its own |
| SnykReport.MergeGrows | sast_controller/converters/SnykReport.py:86-93 | a merge never drops a path from a group nor lowers its severity |
| SnykReport.MergeHolds | sast_controller/converters/SnykReport.py:86-93 | after a merge the vulnerability's group holds its paths at a severity at least its own |
| SnykReport.MergeSource | sast_controller/converters/SnykReport.py:86-93 | after a merge every path of the vulnerability's group is one of its own or was in the group before, and the group's severity is the vulnerability's or the old one |
| SnykReport.MergeKeepsCover | sast_controller/converters/SnykReport.py:86-93 | a merge keeps every vulnerability its groups already covered covered |
| SnykReport.GroupSound | sast_controller/converters/SnykReport.py:71-94 | every path of a group comes from a kept vulnerability of that key, and so does its severity |
| SnykReport.VersionText | sast_controller/converters/SnykReport.py:108 | the version of an upgrade entry is the text after its last '@'; a missing entry raises AttributeError |
| SnykReport.RecordUpgrade | sast_controller/converters/SnykReport.py:99-113 | a vulnerability without upgrades leaves the table as it is, and one with upgrades is recorded only when its upgrade path names a top-level upgrade |
| SnykReport.RecordAllOk | sast_controller/converters/SnykReport.py:98-113 | after the first loop every top-level dependency's recorded upgrade is the highest version offered for it |
| SnykReport.RecommendationFor | sast_controller/converters/SnykReport.py:114-125 | dotnet gets the latest-compatible text; a dependency without a recorded upgrade raises KeyError; otherwise the upgrade text with the recorded version when the current version is below it, and the reinstall text when not |
| SnykReport.Rewrite | sast_controller/converters/SnykReport.py:114-125 | every vulnerability gets the recommendation computed for it and nothing else changes |
| SnykReport.UpdateRecommendations | sast_controller/converters/SnykReport.py:96-125 | the update keeps every vulnerability, in order, and changes only recommendations |
| SnykReport.UpdateChoosesMaximum | sast_controller/converters/SnykReport.py:96-125 | each non-dotnet vulnerability is told to upgrade to the highest version offered for its top-level dependency when its current version is below that, and to reinstall otherwise |
| SnykReport.PinnedDeps | sast_controller/converters/SnykReport.py:49-53 | `name@version` for exactly the dependencies whose version has none of `^ ~ > <` |
| SnykReport.ExactTopDeps | sast_controller/converters/SnykReport.py:37-53 | no manifest gives no pinned dependencies; otherwise exactly the pinned ones |
| SnykReport.KeepPaths | sast_controller/converters/SnykReport.py:62-66 | a path is dropped exactly when it runs through a pinned dependency below the top level and the recommendation asks for a reinstall |
| SnykReport.FilterEach | sast_controller/converters/SnykReport.py:60-68 | no vulnerability is added and none is left without paths |
| SnykReport.FilterEachSingle | sast_controller/converters/SnykReport.py:61-68 | one vulnerability comes back with the paths it kept, or is dropped exactly when it kept none |
| SnykReport.FilterEachAppend | sast_controller/converters/SnykReport.py:60-69 | each vulnerability is filtered on its own: filtering a concatenation concatenates the filtered parts, in order |
| SnykReport.FilterEachSource | sast_controller/converters/SnykReport.py:60-68 | every survivor is an input vulnerability carrying only the paths it kept |
| SnykReport.FilterEachKeepsAll | sast_controller/converters/SnykReport.py:60-68 | when every vulnerability has paths and no recommendation asks for a reinstall, the filter returns its input unchanged |
| SnykReport.UpdateKeepsAll | sast_controller/converters/SnykReport.py:114-125 | after a successful update of vulnerabilities that all have paths, the path filter returns the updated list unchanged |
| SnykReport.FilterVulnerablePaths | sast_controller/converters/SnykReport.py:55-69 | without pinned dependencies the input comes back unchanged; otherwise the per-vulnerability filter applies |
| SnykReport.UpdateNeverReinstall | sast_controller/converters/SnykReport.py:114-125 | no updated recommendation contains the text the path filter looks for, so the filter drops nothing after an update |
| SnykReport.Finish | sast_controller/converters/SnykReport.py:137-139 | the finished record is the group's record with its paths joined by blank lines and its top-level module kept |
| SnykReport.Canonify | sast_controller/converters/SnykReport.py:127-140 | a report exists only when grouping succeeded and the update succeeded; it holds at most one record per distinct (module, recommendation) key, and its i-th record is the i-th filtered vulnerability with its paths joined by blank lines |
| SnykReport.CanonifyRecords | sast_controller/converters/SnykReport.py:127-140 | with module names free of a capital R, record i is group i (groups keyed by the distinct keys in first-seen order) finished with its rewritten recommendation, and each group carries the defect type of its severity |
| SnykReport.GroupMax | sast_controller/converters/SnykReport.py:71-94 | each group's severity is that of one of its kept vulnerabilities, and none of them ranks higher |
| SnykReport.CanonifySeverity | sast_controller/converters/SnykReport.py:127-140 | with module names free of a capital R, each record's severity is the highest among the kept vulnerabilities of its key |
| SnykReport.ConcatAppend | sast_controller/converters/SnykReport.py:128-132 | the project lists are laid end to end in order |
| SnykReport.ConcatSingle | sast_controller/converters/SnykReport.py:128-132 | a single project's list comes through unchanged |
| SnykReport.CanonifyKeepsEveryGroup | sast_controller/converters/SnykReport.py:127-140 | with module names free of a capital R there is exactly one record per distinct key |
| CheckmarxReport.DefectTypeOf | sast_controller/converters/CheckmarxReport.py:107 | a result state maps to one of the four dashboard defect types exactly when it is listed; any other raises KeyError |
| CheckmarxReport.DefectTypeTable | sast_controller/converters/CheckmarxReport.py:31-37 | state 0 is To Investigate, 1 No Defect, 2 and 3 Product Bug, 4 System Issue, and 5 is unknown |
| CheckmarxReport.HiddenCount | sast_controller/converters/CheckmarxReport.py:58-59 | the hidden count is the larger of the percentage share and the excess over the longest visible token |
| CheckmarxReport.MaskAsWrittenShape | sast_controller/converters/CheckmarxReport.py:58-61 | as written, for a hidden count h with 0 < h <= n the mask keeps the first n - h characters and appends n - h stars, twice the visible length; h = 0 gives n stars and h > n gives nothing |
| CheckmarxReport.MaskCounterexample | sast_controller/converters/CheckmarxReport.py:52-61 | "abcd" with a 0.75 share and a token limit of 10 is masked to "a*" as written, and to "a***" by the corrected mask |
| CheckmarxReport.Mask | sast_controller/converters/CheckmarxReport.py:52-61 | the masked text has the text's length, keeps a character exactly when it lies before the percentage share and within the token limit, and stars every other |
| CheckmarxReport.MatchStep | sast_controller/converters/CheckmarxReport.py:193-207 | an entry that does not list the current name changes nothing; one that does renames it to the entry's key and records the old name; grouping is only ever switched off |
| CheckmarxReport.FromPolicy | sast_controller/converters/CheckmarxReport.py:189-208 | the matched names only grow, nothing changes when nothing matches, and grouping is only ever switched off |
| CheckmarxReport.FromPolicyNoMatch | sast_controller/converters/CheckmarxReport.py:189-208 | a name no entry lists goes through unchanged |
| CheckmarxReport.PolicyDecides | sast_controller/converters/CheckmarxReport.py:189-208 | the one entry that lists the name renames it; a non-issue entry leaves no priority and the scanner's severity; an issue entry gives its priority, severity, grouping flag and the description and recommendation for the language |
| CheckmarxReport.LastMatchWins | sast_controller/converters/CheckmarxReport.py:192-207 | a later entry that lists the renamed name renames it again and decides priority and severity |
| CheckmarxReport.EventsOpenQueries | sast_controller/converters/CheckmarxReport.py:90-100 | the queries opened by the walk are exactly the queries of the report |
| CheckmarxReport.CategoryOf | sast_controller/converters/CheckmarxReport.py:96-98 | the category shown is a suffix of the category text |
| CheckmarxReport.CategoryOfCases | sast_controller/converters/CheckmarxReport.py:96-98 | text without ';', and text whose only ';' is its first character, come back unchanged; any other text gives the ';'-free text after its last ';' |
| CheckmarxReport.CategoryOfJoin | sast_controller/converters/CheckmarxReport.py:96-98 | the category of "m;v" with non-empty m and no ';' in v is v |
| CheckmarxReport.Snippet | sast_controller/converters/CheckmarxReport.py:156-163 | a path without nodes raises IndexError and a node with neither code nor name AttributeError; otherwise the stripped code, masked for the sensitive-information rule by the corrected mask (same length), or the stripped node name |
| CheckmarxReport.Cached | sast_controller/converters/CheckmarxReport.py:133-145 | the key ends up cached with the returned text and no other key changes; a cached key keeps its text and the cache is unchanged; a new key gets the lookup's answer, or the fallback when the lookup fails |
| CheckmarxReport.BuildIssue | sast_controller/converters/CheckmarxReport.py:120-172 | the record is named name.file exactly when grouped, the ticket name is the policy name, and it carries the policy's priority and severity, the result's defect type and remark, and the standard tags; its confidence is Certain, its CWE the CWE link, its references the line, file and deep link, its error string the name, CWE id and file, its instances the git permalink (or the file name when repository or branch is unknown) with the Checkmarx project, its description the given head wrapped with group, category and snippet, and its extras the deep link with the snippet |
| CheckmarxReport.Step | sast_controller/converters/CheckmarxReport.py:95-184 | an unknown result state raises KeyError and a missing policy TypeError; a query start records its name; a finding records its matched names and appends a record exactly when its key is new, and the appended record is the one the finding builds (names, grouping, policy priority, severity and recommendation, defect type, remark, tags, the texts of BuildIssue) with its recommendation the cached one for its query id when the policy has none and its description the cached overview when the policy has none; cached keys never change, and a query id enters the recommendation cache exactly at its first kept finding without a policy recommendation, with the upstream text or the fallback naming that finding's line and file |
| CheckmarxReport.Report | sast_controller/converters/CheckmarxReport.py:120-184 | a kept finding leaves the names untouched, keeps every cached recommendation and overview, fills the recommendation cache for its query id (upstream text, else the fallback naming its line and file) when the policy has no recommendation and the id is not cached yet, and appends one record with its key exactly when the key is not yet reported, built with the finding's names, grouping, priority, severity, defect type, remark, tags, policy or cached recommendation, the texts of BuildIssue and the policy or cached description |
| CheckmarxReport.StepFinding | sast_controller/converters/CheckmarxReport.py:105-184 | a finding of a known state under a policy records its matched names, appends the record it builds exactly when it is kept and its key is new, keeps every cached key, and fills the recommendation cache as Step states |
| CheckmarxReport.BuiltFromKept | sast_controller/converters/CheckmarxReport.py:133-172 | a record's ties to the recommendation and overview caches survive every later state that keeps the cached keys |
| CheckmarxReport.RunKeys | sast_controller/converters/CheckmarxReport.py:179-184 | the report holds one record per distinct file, line and name key of the kept findings, keys in first-seen order |
| CheckmarxReport.KeptKeysMember | sast_controller/converters/CheckmarxReport.py:118-119 | a key is among the kept keys exactly when some kept finding has it |
| CheckmarxReport.FirstKeptAtMeans | sast_controller/converters/CheckmarxReport.py:179-183 | a finding is the first of its key exactly when it is kept and no earlier kept finding shares its key |
| CheckmarxReport.RecordedExtend | sast_controller/converters/CheckmarxReport.py:95-184 | a record traced to the first finding of its key stays so traced when more events follow |
| CheckmarxReport.RecordedLast | sast_controller/converters/CheckmarxReport.py:179-184 | a last kept finding whose key is not yet reported is the first of its key, and its record is traced to it |
| CheckmarxReport.RunRecords | sast_controller/converters/CheckmarxReport.py:95-184 | after any prefix, every record was built from the first kept finding with the record's key, with all of that finding's fields and texts and its cache ties read in the final caches, so a later duplicate never replaces it |
| CheckmarxReport.FirstKeptUnique | sast_controller/converters/CheckmarxReport.py:179-183 | two findings that are each the first kept finding of the same key are the same event |
| CheckmarxReport.RunRecordOf | sast_controller/converters/CheckmarxReport.py:95-184 | record j is the record built from the first kept finding with its key, so that finding determines every field and text of it |
| CheckmarxReport.FirstFiller | sast_controller/converters/CheckmarxReport.py:133-136 | when some kept finding of a query has no policy recommendation, a first such finding exists at or before it |
| CheckmarxReport.RunRecCache | sast_controller/converters/CheckmarxReport.py:133-145 | after any prefix, a query id is in the recommendation cache exactly when some kept finding of that query had no policy recommendation, and it holds the upstream text or the fallback naming the line and file of the first such finding |
| CheckmarxReport.RunSameQueryRecommendation | sast_controller/converters/CheckmarxReport.py:133-145 | two records of one query id, both without a policy recommendation, carry the same recommendation: the one taken at the first kept finding of that query without a policy recommendation, whatever line or file the later record names |
| CheckmarxReport.RunSeen | sast_controller/converters/CheckmarxReport.py:115-116 | the names recorded as matched are exactly those policy matching recorded for some finding |
| CheckmarxReport.RunQueryNames | sast_controller/converters/CheckmarxReport.py:95 | the query names recorded are exactly the names of the queries opened |
| CheckmarxReport.RecommendationCacheStable | sast_controller/converters/CheckmarxReport.py:133-145 | once a recommendation is cached for a query, later findings never change it, so a fallback keeps the first finding's line |
| CheckmarxReport.Without | sast_controller/converters/CheckmarxReport.py:186 | the difference holds exactly the names of the first list that are not in the second |
| CheckmarxReport.NewItemMember | sast_controller/converters/CheckmarxReport.py:186 | a name is a new item exactly when some query has it and no finding's policy matching recorded it |
| CheckmarxReport.CanonifyFacts | sast_controller/converters/CheckmarxReport.py:77-187 | the report has one record per distinct key of a kept finding, the j-th built (all fields, texts and cache ties) from the first kept finding with the j-th key, and the new items are the query names that no policy entry matched |
| CheckmarxReport.NotAnIssueDropped | sast_controller/converters/CheckmarxReport.py:115-119 | a finding whose rule a non-issue entry lists is dropped, yet its name counts as matched |
| CheckmarxReport.UnlistedDropped | sast_controller/converters/CheckmarxReport.py:115-119 | a finding whose rule no entry lists is kept exactly when send_without_bb is set, matches nothing, and is keyed by file, line and query name |
| CxUtils.IsNotExcludedType | sast_controller/drivers/cx/utils.py:37-43 | a file is kept exactly when there is no exclusion list or no excluded type is a suffix of its name, ignoring case |
| CxUtils.IsNotExcludedPath | sast_controller/drivers/cx/utils.py:57-63 | a path is kept exactly when there is no exclusion list or no stripped exclusion occurs in it, ignoring case |
| CxUtils.ExclusionEdges | sast_controller/drivers/cx/utils.py:37-63 | an empty exclusion list excludes nothing, and a blank path exclusion excludes every path |
| CxUtils.JiraTag | sast_controller/drivers/cx/utils.py:170-184 | an ordered list becomes '#', an unordered list '*', and anything else nothing |
| CxUtils.ElementItems | sast_controller/drivers/cx/utils.py:187-207 | one rendered line per list item below the element, each marked with a marker that extends the inherited one |
| CxUtils.ElementItemsAreTreeItems | sast_controller/drivers/cx/utils.py:187-207 | an element's items are the reference walk of its children under the inherited marker extended by the element's own tag |
| CxUtils.ChildItems | sast_controller/drivers/cx/utils.py:192-206 | one rendered line per list item among the children, each marked with a marker that extends the list's |
| CxUtils.ChildItemsAreTreeItems | sast_controller/drivers/cx/utils.py:187-207 | the items are those of a walk of the whole tree in document order: one per list item, marked with the tags of the lists that enclose it, with its own first text (or "None") when it holds a nested list and all its stripped text otherwise |
| CxUtils.ChildItemsMarkers | sast_controller/drivers/cx/utils.py:187-207 | the markers of the items are, in order, one per list item, made of the tags of the enclosing lists |
| CxUtils.TreeMarkers | sast_controller/drivers/cx/utils.py:190-206 | the markers of the reference walk's items are the markers of the marker-only walk |
| CxUtils.LeafItem | sast_controller/drivers/cx/utils.py:202-204 | a list item holding only text renders as one line of that text |
| CxUtils.BulletedChild | sast_controller/drivers/cx/utils.py:187-207 | an item of an unordered list is marked with a '*' added to the inherited marker |
| CxUtils.ItemWithNestedList | sast_controller/drivers/cx/utils.py:198-201 | an item holding a nested list renders its own text and then the nested items with the longer marker |
| CxUtils.NestedListExample | sast_controller/drivers/cx/utils.py:187-207 | an ordered list of a and b, where b holds an unordered list of c, renders as "# a", "# b", "#* c" |
| TestMessages.EqualsIsIdentity | sast_controller/drivers/rp/TestMessage.py:29-33 | a message equals another message exactly when text and status agree, and never a value of another class |
| TestMessages.EqualsIsEquivalence | sast_controller/drivers/rp/TestMessage.py:29-33 | message equality is reflexive, symmetric and transitive |
| TestMessages.Count | sast_controller/drivers/rp/TestItem.py:51 | the count is zero exactly when no equal message is present, and never exceeds the list's length |
| TestItems.NewItem | sast_controller/drivers/rp/TestItem.py:19-43 | a new item has the tags Tool, Severity, Confidence and Priority in that order with the given values, the tool as its only parameter, and no messages |
| TestItems.AddMessage | sast_controller/drivers/rp/TestItem.py:46-52 | a message is appended exactly when absent, so messages never repeat |
| TestItems.AddTag | sast_controller/drivers/rp/TestItem.py:54-60 | the tag is set, every other tag and every other field is unchanged |
| TestItems.AddParam | sast_controller/drivers/rp/TestItem.py:62-68 | the parameter is set, every other parameter and every other field is unchanged |
| TestItems.GetTags | sast_controller/drivers/rp/TestItem.py:70-77 | one "key: value" text per tag, in the tags' order |
| TestItems.GetParams | sast_controller/drivers/rp/TestItem.py:79-89 | every stored parameter, Severity and Confidence from the item when not stored, and nothing else |
| TestItems.EqualsReflexiveSymmetric | sast_controller/drivers/rp/TestItem.py:91-100 | item equality is reflexive and symmetric |
| TestItems.EqualsNotTransitive | sast_controller/drivers/rp/TestItem.py:91-100 | item equality is not transitive: "ab" equals "abc" and "abc" equals "bc", but "ab" does not equal "bc" |
| RpWriter.NewWriter | sast_controller/drivers/rp/report_portal_writer.py:40-66 | a new writer has no service, has sent nothing, and keeps its endpoint, token and project |
| RpWriter.StartTest | sast_controller/drivers/rp/report_portal_writer.py:68-80 | starting opens the service and sends one launch start with the launch settings, changing nothing else |
| RpWriter.FinishTest | sast_controller/drivers/rp/report_portal_writer.py:82-88 | finishing without a service raises AttributeError; otherwise it sends the launch finish and closes the service |
| RpWriter.StartTestItem | sast_controller/drivers/rp/report_portal_writer.py:98-111 | an item start fails exactly without a service, and otherwise sends one call |
| RpWriter.Truncate | sast_controller/drivers/rp/report_portal_writer.py:120 | the sent text is a prefix of the message, of its length up to 30000 characters |
| RpWriter.TruncateFits | sast_controller/drivers/rp/report_portal_writer.py:113-121 | a message that fits is sent whole, a longer one is cut at 30000, and truncating twice is truncating once |
| RpWriter.TestItemMessage | sast_controller/drivers/rp/report_portal_writer.py:113-121 | a log call fails exactly without a service, and otherwise sends the truncated text |
| RpWriter.DefectCode | sast_controller/drivers/rp/report_portal_writer.py:128-133 | exactly the four dashboard defect types have a code |
| RpWriter.DefectCodeInjective | sast_controller/drivers/rp/report_portal_writer.py:128-133 | different defect types have different codes |
| RpWriter.DefectIssue | sast_controller/drivers/rp/report_portal_writer.py:134-137 | a classification is sent exactly for a known defect type, with its code and comment |
| RpWriter.FinishTestItem | sast_controller/drivers/rp/report_portal_writer.py:123-140 | finishing fails exactly without a service, and otherwise finishes the item as FAILED with its classification |
| RpWriter.Lifecycle | sast_controller/drivers/rp/report_portal_writer.py:68-96 | the started flag is set by the launch start, kept by the item calls and cleared by the launch finish, after which finishing again fails |
| Converter.Aggregate | sast_controller/converters/Converter.py:45-57 | the aggregates are keyed by the distinct aggregation keys of the report in first-seen order, each holding exactly the records of its key, in order |
| Converter.AggregateCoversReport | sast_controller/converters/Converter.py:45-57 | every record lands in the aggregate of its own key |
| Converter.DefectStep | sast_controller/converters/Converter.py:139-148 | a member of the running type changes nothing, and the result is either the running info or the member's |
| Converter.DefectInfoIsFirstLowest | sast_controller/converters/Converter.py:134-152 | with every type known, the aggregate takes the type of lowest precedence number and the comment of the first member that has it |
| Converter.SameTypeNoLookup | sast_controller/converters/Converter.py:134-152 | members sharing one type keep the first member's type and comment, even a type outside the precedence table |
| Converter.UnknownTypeRaises | sast_controller/converters/Converter.py:140-148 | a member of an unknown type after one of a known type raises KeyError |
| Converter.PriorityFor | sast_controller/converters/Converter.py:105-108 | a member's own priority wins; without one, its severity's priority, and KeyError for a severity without one |
| Converter.EscalateStep | sast_controller/converters/Converter.py:102-108 | the rank never decreases, and severity and priority change only to a member of strictly higher rank |
| Converter.EscalationIsFirstHighest | sast_controller/converters/Converter.py:81-108 | with every severity known, the aggregate takes the highest-ranked severity and the priority of the first member that reaches it |
| Converter.TieKeepsFirst | sast_controller/converters/Converter.py:102-108 | a later member of equal rank changes neither severity nor priority |
| Converter.AddRecommendation | sast_controller/converters/Converter.py:86-87 | the text only grows, ends up containing every non-empty recommendation, is unchanged for an empty or already contained one, and otherwise gains exactly a newline and the recommendation |
| Converter.RecommendationsKept | sast_controller/converters/Converter.py:85-87 | every member's recommendation is contained in the text, which is empty exactly when no member has one |
| Converter.SameRecommendationOnce | sast_controller/converters/Converter.py:85-87 | members repeating one recommendation contribute it once |
| Converter.Collect | sast_controller/converters/Converter.py:96-101 | the collected values are exactly the distinct non-empty values |
| Converter.AddInstance | sast_controller/converters/Converter.py:92-95 | instances stay distinct and are kept; the member's instance is added and its repository becomes mentioned; nothing else is added |
| Converter.InstancesCover | sast_controller/converters/Converter.py:85-95 | every member's instance is kept, every repository is mentioned, and every line is an instance or a "Repo" line of some member |
| Converter.PanelTitle | sast_controller/converters/Converter.py:240-243 | the title is a prefix of the name without any '.', and the whole name when it has none |
| Converter.PanelTitleSplit | sast_controller/converters/Converter.py:240-243 | the title is the text before the first '.', and a dotted name starts with the title followed by '.' |
| Converter.Panel | sast_controller/converters/Converter.py:243-250 | the panel opens with its title and closes with `{panel}` |
| Converter.InfoMsg | sast_controller/converters/Converter.py:251-254 | the panel is dropped exactly when a collected message already contains it |
| Converter.InfoMsgsCover | sast_controller/converters/Converter.py:113 | every member's panel is contained in some collected message |
| Converter.InfoMsgsArePanels | sast_controller/converters/Converter.py:113 | every non-empty collected message is the panel of some member |
| Converter.PathsOrderIrrelevant | sast_controller/converters/Converter.py:247-249 | the order of the path chunks does not change the panel's path list |
| Converter.Overview | sast_controller/converters/Converter.py:208-212 | the Overview section is present exactly when some message is non-empty, and is then its heading followed by the non-empty messages of the sorted list joined by newlines, with a final newline |
| Converter.LinesAreJoined | sast_controller/converters/Converter.py:210-212 | appending each non-empty message and a newline gives the non-empty messages joined by newlines, plus a final newline, and nothing when there are none |
| Converter.OverviewLines | sast_controller/converters/Converter.py:208-212 | the Overview lines are sorted, and are exactly the non-empty messages |
| Converter.InfoHead | sast_controller/converters/Converter.py:193-201 | the sections before Overview are empty exactly when there are no instances, recommendations or steps; they start with the Instances section (the sorted instances, one per line) when there are instances, contain the Recommendations section when there are recommendations, and end with the Steps to Reproduce section (the sorted steps) when there are steps |
| Converter.InfoHeadSections | sast_controller/converters/Converter.py:193-201 | the head is the Instances, Recommendations and Steps to Reproduce sections in that order, each present exactly when it has content |
| Converter.InfoLog | sast_controller/converters/Converter.py:190-212 | the log is the Instances section, then Recommendations, then Steps to Reproduce, then Overview, each present exactly when it has content; it is empty exactly when every part is, starts with Instances when there are any, contains the Recommendations section when there are recommendations, and contains every non-empty message on its own line |
| Converter.InfoLogShape | sast_controller/converters/Converter.py:190-212 | the log is the three head sections in their fixed order followed by the Overview |
| Converter.IssueDescription | sast_controller/converters/Converter.py:196-206 | the description is empty exactly when there are no recommendations, paths or references |
| Converter.InfoLogOrderIrrelevant | sast_controller/converters/Converter.py:190-212 | the order in which instances, steps and messages were collected does not change the log |
| Converter.DescriptionOrderIrrelevant | sast_controller/converters/Converter.py:196-206 | the order in which paths and references were collected does not change the description |
| Converter.AddTags | sast_controller/converters/Converter.py:217-222 | each key ends with the last value assigned to it, unassigned keys keep theirs, and nothing but the tags changes |
| Converter.AddMessagesAppends | sast_controller/converters/Converter.py:223-226 | new, pairwise different messages are all appended in order |
| Converter.LastTool | sast_controller/converters/Converter.py:217-218 | tagging the tools one by one leaves the last tool as the Tool tag and touches no other key |
| Converter.TaggedItem | sast_controller/converters/Converter.py:214-222 | the item has the aggregate's name, severity, confidence, priority and defect info, the first tool as parameter, the record's Tool tag or else the last tool, and the record's tags over the initial ones |
| Converter.ToolTags | sast_controller/converters/Converter.py:214-218 | after the constructor's tool, the remaining tools leave the last one as the Tool tag and every other tag as constructed |
| Converter.CreateTi | sast_controller/converters/Converter.py:185-230 | the item's messages are one ERROR per distinct error string and then the INFO log; its parameters are the first tool and the ticket name; its tags follow the record's over the tools' over the initial ones |
| Converter.LogMessages | sast_controller/converters/Converter.py:223-226 | on an item without messages, one ERROR message per distinct error, in order, then one INFO message |
| Converter.FirstInfo | sast_controller/converters/Converter.py:128-131 | the answer is the text of some INFO message, and there is none exactly when no message is INFO |
| Converter.FirstInfoAfterErrors | sast_controller/converters/Converter.py:127-132 | ERROR messages before the log do not hide it from the ticket description |
| Converter.JiraDescriptionIsLog | sast_controller/converters/Converter.py:127-132 | a created item's ticket description is its INFO log |
| Converter.AggregateName | sast_controller/converters/Converter.py:62-65 | a Snyk aggregate is renamed with the "Vulnerable Software Version." prefix, and any other keeps the name of its first record |
| Converter.SnykRename | sast_controller/converters/Converter.py:62-65 | a Snyk record named title.module, with no '.' in the title, names its aggregate "Vulnerable Software Version." followed by the module |
| Converter.Fields | sast_controller/converters/Converter.py:88-101 | the collected field values are exactly the distinct non-empty values of the members |
| Converter.RenderAggregate | sast_controller/converters/Converter.py:58-122 | an aggregate without a name yields no item; a defect-type failure comes first and an escalation failure next; otherwise the item is exactly `create_ti` of the members' summary (aggregate name, tools, escalated severity and priority, steps, paths, references, recommendations, error and INFO messages, instances, attachments, ticket name, resolved defect info) and its record is the last member with that summary's INFO log as ticket description |
| Converter.RenderAll | sast_controller/converters/Converter.py:58-125 | one item per named aggregate, each named, each record the last member of some aggregate with the item's ticket description, and each item with its record exactly what some aggregate renders to |
| Converter.LastsInReport | sast_controller/converters/Converter.py:45-57 | every aggregate is non-empty and its last member is a record of the report |
| Converter.GetRpItems | sast_controller/converters/Converter.py:37-125 | one item per named aggregate, at most one per distinct key, each named and paired with a record of the report carrying the item's ticket description, and each exactly what some aggregate of the report renders to |
| Converter.RenderAllCons | sast_controller/converters/Converter.py:58-125 | a successful rendering renders the first aggregate without error and puts its item, if any, before the items of the rest |
| Converter.RenderAllEach | sast_controller/converters/Converter.py:58-125 | a successful rendering renders every aggregate without error, the j-th to its j-th outcome |
| Converter.RenderAllPresent | sast_controller/converters/Converter.py:58-125 | the items are exactly the present outcomes of the aggregates, in aggregate order, so item k comes from the k-th named aggregate |
| Converter.GetRpItemsAt | sast_controller/converters/Converter.py:37-125 | the aggregates are keyed in first-seen order, each renders to its outcome, and the items are the present outcomes in that order |
| Converter.GetRpItemsFrom | sast_controller/converters/Converter.py:37-125 | item k is exactly what the aggregate with k named aggregates before it renders to: `create_ti` of its summary, with the last member's record carrying the summary's INFO log |
| Converter.PresentAt | sast_controller/converters/Converter.py:58-125 | a present outcome at position j is the item at the position given by the number of present outcomes before j |
| Converter.PresentOrder | sast_controller/converters/Converter.py:58-125 | items keep the relative order of the aggregates they come from |
| Converter.PresentFrom | sast_controller/converters/Converter.py:58-125 | every item is the outcome of some aggregate with exactly k present outcomes before it |
| Converter.NamedAtMost | sast_controller/converters/Converter.py:58-80 | there are never more named aggregates than aggregates |
| Converter.JunitMessageContains | sast_controller/converters/Converter.py:167-170 | the JUnit error text contains every message of the item, each followed by a blank line |
| Converter.JunitMessageAppend | sast_controller/converters/Converter.py:167-169 | the error text of a run of messages is the texts of its parts in order, and one message gives its text followed by a blank line |
| Converter.GetJunitItems | sast_controller/converters/Converter.py:154-173 | nothing to report raises ValueError; otherwise one case per item, in order, named after it, classed by its confidence, typed by its severity, and with the item's messages as error text, each followed by a blank line |
| JsonToJira.LabelsAreTagValues | sast_controller/bin/json_to_jira.py:22-24 | every value of every tag is a label, and every label is the value of some tag |
| JsonToJira.LabelsCount | sast_controller/bin/json_to_jira.py:22-24 | there is one label per tag entry |
| JsonToJira.LabelsAppend | sast_controller/bin/json_to_jira.py:22-24 | the labels come tag after tag: those of two runs of tags are the first run's followed by the second's, and one tag gives its values in its own order |
| JsonToJira.Field | sast_controller/bin/json_to_jira.py:25-33 | a field is read exactly when present, and a missing one raises KeyError |
| JsonToJira.Summary | sast_controller/bin/json_to_jira.py:27 | the summary needs an issue name even when a ticket name is present, and prefers the ticket name |
| JsonToJira.TicketPriority | sast_controller/bin/json_to_jira.py:31 | both severity and priority must be present; the table's priority for a known severity wins over the record's own |
| JsonToJira.IssueDataOf | sast_controller/bin/json_to_jira.py:21-33 | a ticket is made exactly when the record has tags, a summary, a description and a priority; missing tags raise KeyError("Tags") first |
| JsonToJira.CreateAll | sast_controller/bin/json_to_jira.py:21-34 | tickets are created in record order until the first record that fails, whose error ends the loop |
| JsonToJira.SendToJira | sast_controller/bin/json_to_jira.py:20-34 | nothing is created unless the project exists |
| JsonToJira.OneTicketPerItem | sast_controller/bin/json_to_jira.py:20-34 | well-formed records give one ticket each, in order, with the project, assignee and type passed through |
| GenerateReports.Str2Bool | sast_controller/bin/generate_reports.py:39-51 | true exactly for a yes word and false exactly for a no word, ignoring case; anything else raises "Boolean value expected." |
| GenerateReports.WordsDisjoint | sast_controller/bin/generate_reports.py:46-49 | no word is both a yes and a no |
| GenerateReports.Str2BoolIgnoresCase | sast_controller/bin/generate_reports.py:39-51 | the answer depends only on the lower-cased text: "YES" is true, "False" false, "maybe" raises |
| GenerateReports.Setting | sast_controller/bin/generate_reports.py:99-106 | an argument wins when given, then the environment variable, then the default |
| GenerateReports.ResolveSettings | sast_controller/bin/generate_reports.py:99-106 | the dashboard address, project (falling back to PROJECT), launch name (default "SAST scan") and token each come from the argument, else the environment |
| GenerateReports.FullMatchProject | sast_controller/bin/generate_reports.py:114 | a project name is accepted exactly when it is a non-empty run of letters, digits, '_' and '-' |
| GenerateReports.CheckSettings | sast_controller/bin/generate_reports.py:111-116 | the check passes exactly when address, project and token are set and the project name is accepted; a missing setting and a bad name raise their own messages |
| GenerateReports.ProjectNameExamples | sast_controller/bin/generate_reports.py:114-116 | "my project", "a.b" and the empty name are refused, "sast-scan_01" is accepted |
| GenerateReports.AttachmentLogs | sast_controller/bin/generate_reports.py:135-137 | one INFO log call per attachment, named after it and carrying it |
| GenerateReports.LogErrors | sast_controller/bin/generate_reports.py:130-134 | on a started writer, one ERROR log call per ERROR message in order, the other texts kept for the merged message |
| GenerateReports.LogAttachments | sast_controller/bin/generate_reports.py:135-137 | on a started writer, one log call per attachment |
| GenerateReports.SendItem | sast_controller/bin/generate_reports.py:126-139 | on a started writer an item is sent as its start, its errors, its attachments, its merged message and its finish; without a service it fails |
| GenerateReports.SendAll | sast_controller/bin/generate_reports.py:126-139 | the items are sent one after another, in order |
| GenerateReports.SendItemsToRp | sast_controller/bin/generate_reports.py:88-141 | sending succeeds exactly when the settings pass the check, and then makes one launch start, every item's calls in order and one launch finish, leaving no service open |
| GenerateReports.StripGit | sast_controller/bin/generate_reports.py:167-168 | a trailing ".git" is removed, and a repository without it is unchanged |
| GenerateReports.StripGitOnce | sast_controller/bin/generate_reports.py:167-168 | exactly one ".git" is removed |
| GenerateReports.Generate | sast_controller/bin/generate_reports.py:158-187 | a conversion failure fails the run; without items nothing is sent or written; with items and the dashboard enabled, invalid settings fail the run before any file is written; otherwise the dashboard gets one launch with every item in order exactly when enabled, the JUnit cases of the items are written exactly when their directory exists, and the records exactly when theirs exists |
| GenerateReports.Emit | sast_controller/bin/generate_reports.py:172-185 | with at least one item: with the dashboard enabled the run fails exactly when the settings are invalid, else the launch holds the start, every item's calls in order and the finish; the JUnit cases and the records are written exactly when their directories exist |

## Left out

- Reading and writing files and the XML, JSON and HTML parsers: reports arrive already parsed as datatypes, and outputs are returned as values.
- The network: the dashboard service, the connectivity check, project creation and the Jira client are modelled by the calls they are handed; whether the Jira project exists is a boolean parameter.
- Environment variables are a parameter (a map or explicit values); time stamps and logging are not modelled.
- Python set iteration order is arbitrary; sets are modelled in first-seen order, `tools.pop()` takes the first tool seen, and the merged INFO message of an item joins its texts in that order.
- The regular expressions that strip emoticons and code blocks from the Snyk description are not modelled; the description text is taken as given.
- The unused description set of the converter, and the `is None` branches of the defect-type choice, which the defaults make unreachable, are not modelled.
- The Checkmarx repository lookup from the project settings, the query-description download and the CWE overview download are not modelled; their answers are parameters, and `None` stands for a lookup that raised.
- JUnit XML serialisation is not modelled; the model stops at the test cases.
- The `.git` suffix is stripped only from the repository passed to the converter, while the records read their repository from the environment; the model follows the code and leaves the records' repository unstripped.
- Strings are compared and lower-cased as code points; only ASCII letters are case-folded.
- Semver.Parse: only strict MAJOR.MINOR.PATCH versions are modelled, and the contract states the shape of a parsed text and the error, not the full set of accepted texts; the loose parsing of pre-release and build suffixes is not modelled.
- SnykReport.UpdateNeverReinstall: assumes no top-level module name contains a capital R, because the path filter looks for the text "Re-install" anywhere in the recommendation, which names the module.
- SnykReport.CanonifyKeepsEveryGroup: exactly one record per group is proved under the same assumption, as are SnykReport.CanonifyRecords and SnykReport.CanonifySeverity; without it SnykReport.Canonify states only "at most one per key" and that each record is a finished filtered vulnerability.
- SnykReport.CanonifyRecords: record-by-record correspondence with the groups, in first-seen key order, is proved only for module names free of a capital R, for the same reason.
- SnykReport.CanonifySeverity: "each record has the highest severity of its key" is proved only for module names free of a capital R, for the same reason.
- SnykReport.RecordUpgrade: the step's contract states only when the table is left alone; the "highest version wins" promise is stated over the whole loop by SnykReport.RecordAllOk.
- Converter.DefectStep: the step states only that the result is the running or the member's info; the precedence choice is stated over the whole loop by Converter.DefectInfoIsFirstLowest.
- Converter.IssueDescription: states when the description is empty, and that it is order-independent (Converter.DescriptionOrderIrrelevant), not its exact layout.
- Converter.Panel: states the panel's opening and closing, not the field layout between them.
- CheckmarxReport.HiddenCount: the mask percentage is an exact rational number, not a binary floating-point value, so a product that Python rounds below an integer (100 characters at 0.29 gives 28 in Python) gives the exact integer (29) here.
- CheckmarxReport.Snippet: the snippet is masked with the corrected CheckmarxReport.Mask (see Findings); the program as written masks with the as-written mask, CheckmarxReport.MaskAsWritten, so the "same length" promise holds only for the corrected mask ("abcd" at 0.75 becomes "a*" as written).
- Absent XML attributes: every attribute of a query or result that the source reads with `attrib.get` is modelled as a present string; a missing attribute, which Python reads as `None`, is not modelled.
- Converter.RenderAggregate: the program writes the ticket description into the last member's own dictionary, so the JSON record and the report entry are one object; the model returns a copy of the member with its description, and does not model the report entry being changed in place.
- GenerateReports.Emit: the launch description and tags are passed as `None` by the program; the model sends them as the empty text and the empty tag list.
- CheckmarxReport.FromPolicy: the loop's contract states monotonicity; which entry decides is stated by CheckmarxReport.PolicyDecides and CheckmarxReport.LastMatchWins.

## Findings

| source | as written | input that shows it | evidently intended | confidence | as-written member | corrected member |
|---|---|---|---|---|---|---|
| sast_controller/converters/CheckmarxReport.py:58-61 | keeps `text[:-hidden]` and appends one star per visible character, so the hidden part is not replaced but the visible part is starred | "abcd" with a mask percentage of 0.75 and a longest token of 10 gives "a*" | keep the visible prefix and replace each hidden character by a star, giving "a***" of the same length | not executed | CheckmarxReport.MaskAsWritten | CheckmarxReport.Mask |

=== FILE: assoc.dfy ===
/** Python's insertion-ordered `dict`, as a sequence of key/value pairs whose
    keys are pairwise distinct. */
module Assoc {
  import opened Wrappers

  predicate Distinct<T(==)>(s: seq<T>) {
    forall i, j :: 0 <= i < j < |s| ==> s[i] != s[j]
  }

  /** The keys in insertion order (iterating over a dict). */
  function Keys<K, V>(a: seq<(K, V)>): (ks: seq<K>)
    ensures |ks| == |a|
    ensures forall i :: 0 <= i < |a| ==> ks[i] == a[i].0
  {
    if |a| == 0 then [] else [a[0].0] + Keys(a[1..])
  }

  /** The values in insertion order (`dict.values()`). */
  function Values<K, V>(a: seq<(K, V)>): (vs: seq<V>)
    ensures |vs| == |a|
    ensures forall i :: 0 <= i < |a| ==> vs[i] == a[i].1
  {
    seq(|a|, i requires 0 <= i < |a| => a[i].1)
  }

  /** `d.get(k)`: the value stored under `k`, if any. */
  function Get<K(==), V>(a: seq<(K, V)>, k: K): (r: Option<V>)
    ensures r.None? <==> k !in Keys(a)
    ensures r.Some? ==> (k, r.value) in a
  {
    if |a| == 0 then None
    else if a[0].0 == k then Some(a[0].1)
    else
      Get(a[1..], k)
  }

  /** `d[k] = v`: an existing key keeps its position and takes the new
      value; a new key goes last. */
  function Put<K(==,!new), V>(a: seq<(K, V)>, k: K, v: V): (r: seq<(K, V)>)
    ensures Get(r, k) == Some(v)
    ensures forall k' :: k' != k ==> Get(r, k') == Get(a, k')
    ensures Keys(r) == if k in Keys(a) then Keys(a) else Keys(a) + [k]
  {
    PutGet(a, k, v);
    PutOthers(a, k, v);
    PutKeys(a, k, v);
    Store(a, k, v)
  }

  /** The entry-by-entry update behind `Put`. */
  function Store<K(==), V>(a: seq<(K, V)>, k: K, v: V): seq<(K, V)> {
    if |a| == 0 then [(k, v)]
    else if a[0].0 == k then [(k, v)] + a[1..]
    else [a[0]] + Store(a[1..], k, v)
  }

  lemma {:induction false} PutGet<K, V>(a: seq<(K, V)>, k: K, v: V)
    ensures Get(Store(a, k, v), k) == Some(v)
  {
    if |a| > 0 && a[0].0 != k {
      PutGet(a[1..], k, v);
      GetCons(a[0], Store(a[1..], k, v));
    } else {
      GetCons((k, v), if |a| == 0 then a else a[1..]);
    }
  }

  lemma {:induction false} PutOthers<K(!new), V>(a: seq<(K, V)>, k: K, v: V)
    ensures forall k' :: k' != k ==> Get(Store(a, k, v), k') == Get(a, k')
  {
    if |a| == 0 {
      GetCons((k, v), a);
    } else {
      GetCons(a[0], a[1..]);
      assert [a[0]] + a[1..] == a;
      if a[0].0 == k {
        GetCons((k, v), a[1..]);
      } else {
        PutOthers(a[1..], k, v);
        GetCons(a[0], Store(a[1..], k, v));
      }
    }
  }

  lemma {:induction false} PutKeys<K, V>(a: seq<(K, V)>, k: K, v: V)
    ensures Keys(Store(a, k, v)) == if k in Keys(a) then Keys(a) else Keys(a) + [k]
  {
    if |a| > 0 && a[0].0 != k {
      var tail := Store(a[1..], k, v);
      PutKeys(a[1..], k, v);
      assert ([a[0]] + tail)[1..] == tail;
      assert Keys(Store(a, k, v)) == [a[0].0] + Keys(tail);
      assert Keys(a) == [a[0].0] + Keys(a[1..]);
      assert k in Keys(a) <==> k in Keys(a[1..]);
    } else if |a| > 0 {
      assert ([(k, v)] + a[1..])[1..] == a[1..];
      assert Keys(Store(a, k, v)) == [k] + Keys(a[1..]) == Keys(a);
    }
  }

  /** Looking up in a table with one more entry in front. */
  lemma {:induction false} GetCons<K, V>(x: (K, V), rest: seq<(K, V)>)
    ensures forall k :: Get([x] + rest, k) == if x.0 == k then Some(x.1) else Get(rest, k)
  {
    assert ([x] + rest)[1..] == rest;
  }

  /** The entries after the first of a table with distinct keys have
      distinct keys, none of them the first. */
  lemma {:induction false} DistinctTail<K(!new), V>(a: seq<(K, V)>)
    requires |a| > 0 && Distinct(Keys(a))
    ensures Distinct(Keys(a[1..])) && a[0].0 !in Keys(a[1..])
  {
    var ks := Keys(a);
    var rest := Keys(a[1..]);
    assert ks == [a[0].0] + rest;
    assert Distinct(rest) by {
      forall p, q | 0 <= p < q < |rest|
        ensures rest[p] != rest[q]
      {
        assert rest[p] == ks[p + 1] && rest[q] == ks[q + 1];
      }
    }
    assert a[0].0 !in rest by {
      forall p | 0 <= p < |rest|
        ensures rest[p] != ks[0]
      {
        assert rest[p] == ks[p + 1];
      }
    }
  }

  /** `Get` on an index of a table with distinct keys finds that entry. */
  lemma {:induction false} GetAt<K(!new), V>(a: seq<(K, V)>, j: nat)
    requires j < |a| && Distinct(Keys(a))
    ensures Get(a, a[j].0) == Some(a[j].1)
  {
    if j > 0 {
      var ks := Keys(a);
      var rest := Keys(a[1..]);
      assert ks == [a[0].0] + rest;
      assert Distinct(rest) by {
        forall p, q | 0 <= p < q < |rest|
          ensures rest[p] != rest[q]
        {
          assert rest[p] == ks[p + 1] && rest[q] == ks[q + 1];
        }
      }
      assert a[j].0 != a[0].0 by {
        assert ks[0] != ks[j];
      }
      GetAt(a[1..], j - 1);
      assert a[1..][j - 1] == a[j];
    }
  }

  lemma {:induction false} PutKeepsDistinct<K(!new), V>(a: seq<(K, V)>, k: K, v: V)
    requires Distinct(Keys(a))
    ensures Distinct(Keys(Put(a, k, v)))
  {
  }

  /** A non-empty sequence is its front followed by its last element. */
  lemma {:induction false} SplitLast<T>(s: seq<T>)
    requires |s| > 0
    ensures s[..|s| - 1] + [s[|s| - 1]] == s
  {
  }

  /** Some element of `s` satisfies `p` exactly when one of its front does
      or its last one does. */
  lemma {:induction false} ExistsSnoc<T>(s: seq<T>, front: seq<T>, p: T -> bool)
    requires |s| > 0 && front == s[..|s| - 1]
    ensures (exists i :: 0 <= i < |s| && p(s[i])) <==> (exists i :: 0 <= i < |front| && p(front[i])) || p(s[|s| - 1])
  {
    if exists i :: 0 <= i < |front| && p(front[i]) {
      var i :| 0 <= i < |front| && p(front[i]);
      assert s[i] == front[i];
    }
  }

  /** The distinct elements of `s` in first-seen order (building a Python
      set, or dict keys, from `s`). */
  function Dedup<T(==,!new)>(s: seq<T>): (r: seq<T>)
    ensures Distinct(r)
    ensures forall x :: x in r <==> x in s
  {
    if |s| == 0 then []
    else
      var d := Dedup(s[..|s| - 1]);
      assert s == s[..|s| - 1] + [s[|s| - 1]];
      if s[|s| - 1] in d then d else d + [s[|s| - 1]]
  }

  /** `a.union(b)` on sets kept in first-seen order: `a` followed by the
      elements of `b` not seen before. */
  function AddAll<T(==,!new)>(a: seq<T>, b: seq<T>): (r: seq<T>)
    ensures forall x :: x in r <==> x in a || x in b
    ensures |r| >= |a| && r[..|a|] == a
    ensures Distinct(a) ==> Distinct(r)
  {
    if |b| == 0 then a
    else
      var d := AddAll(a, b[..|b| - 1]);
      var x := b[|b| - 1];
      assert b == b[..|b| - 1] + [x];
      if x in d then d
      else
        assert (d + [x])[..|a|] == d[..|a|];
        d + [x]
  }

  /** `key` applied to every element. */
  function Project<T, K>(xs: seq<T>, key: T -> K): (ks: seq<K>)
    ensures |ks| == |xs|
    ensures forall i :: 0 <= i < |xs| ==> ks[i] == key(xs[i])
  {
    seq(|xs|, i requires 0 <= i < |xs| => key(xs[i]))
  }

  /** The elements whose key is `k`, in order. */
  function Members<T, K(==)>(xs: seq<T>, key: T -> K, k: K): (ms: seq<T>)
    ensures |ms| <= |xs|
  {
    if |xs| == 0 then []
    else
      var x := xs[|xs| - 1];
      Members(xs[..|xs| - 1], key, k) + (if key(x) == k then [x] else [])
  }

  /** Exactly the elements with key `k` are members. */
  lemma {:induction false} MembersExact<T, K>(xs: seq<T>, key: T -> K, k: K, x: T)
    ensures x in Members(xs, key, k) <==> x in xs && key(x) == k
    decreases |xs|
  {
    if |xs| > 0 {
      var prefix := xs[..|xs| - 1];
      assert xs == prefix + [xs[|xs| - 1]];
      MembersExact(prefix, key, k, x);
    }
  }

  lemma {:induction false} MembersOfAbsentKey<T, K>(xs: seq<T>, key: T -> K, k: K)
    requires k !in Project(xs, key)
    ensures Members(xs, key, k) == []
    decreases |xs|
  {
    if |xs| > 0 {
      var prefix := xs[..|xs| - 1];
      assert Project(xs, key)[..|xs| - 1] == Project(prefix, key);
      assert Project(xs, key)[|xs| - 1] == key(xs[|xs| - 1]);
      MembersOfAbsentKey(prefix, key, k);
    }
  }

  lemma {:induction false} MembersOfPresentKey<T, K>(xs: seq<T>, key: T -> K, k: K)
    requires k in Project(xs, key)
    ensures |Members(xs, key, k)| > 0
  {
    var i :| 0 <= i < |xs| && Project(xs, key)[i] == k;
    MembersExact(xs, key, k, xs[i]);
  }

  /** Grouping in first-seen key order: an element with a known key joins
      its group, one with a new key opens a group at the end. */
  function GroupBy<T, K(==,!new)>(xs: seq<T>, key: T -> K): (groups: seq<(K, seq<T>)>)
    ensures |groups| <= |xs|
  {
    if |xs| == 0 then []
    else
      var x := xs[|xs| - 1];
      var groups := GroupBy(xs[..|xs| - 1], key);
      var k := key(x);
      Put(groups, k, Get(groups, k).GetOr([]) + [x])
  }

  lemma {:induction false} GroupByKeys<T, K(!new)>(xs: seq<T>, key: T -> K)
    ensures Keys(GroupBy(xs, key)) == Dedup(Project(xs, key))
    decreases |xs|
  {
    if |xs| > 0 {
      var prefix := xs[..|xs| - 1];
      var x := xs[|xs| - 1];
      var groups := GroupBy(prefix, key);
      GroupByKeys(prefix, key);
      var ks := Project(xs, key);
      assert ks[..|ks| - 1] == Project(prefix, key);
      assert ks[|ks| - 1] == key(x);
      assert Dedup(ks) == if key(x) in Dedup(Project(prefix, key)) then Dedup(Project(prefix, key))
                          else Dedup(Project(prefix, key)) + [key(x)];
      assert GroupBy(xs, key) == Put(groups, key(x), Get(groups, key(x)).GetOr([]) + [x]);
    }
  }

  lemma {:induction false} GroupByMembers<T, K(!new)>(xs: seq<T>, key: T -> K)
    ensures forall k :: k in Keys(GroupBy(xs, key)) ==> Get(GroupBy(xs, key), k) == Some(Members(xs, key, k))
    decreases |xs|
  {
    if |xs| > 0 {
      var prefix := xs[..|xs| - 1];
      var x := xs[|xs| - 1];
      assert xs == prefix + [x];
      GroupByKeys(prefix, key);
      GroupByMembers(prefix, key);
      GroupByMembersAll(prefix, x, key);
    }
  }

  lemma {:induction false} GroupByMembersAll<T, K(!new)>(prefix: seq<T>, x: T, key: T -> K)
    requires Keys(GroupBy(prefix, key)) == Dedup(Project(prefix, key))
    requires forall k :: k in Keys(GroupBy(prefix, key)) ==> Get(GroupBy(prefix, key), k) == Some(Members(prefix, key, k))
    ensures forall k :: k in Keys(GroupBy(prefix + [x], key)) ==> Get(GroupBy(prefix + [x], key), k) == Some(Members(prefix + [x], key, k))
  {
    forall k | k in Keys(GroupBy(prefix + [x], key))
      ensures Get(GroupBy(prefix + [x], key), k) == Some(Members(prefix + [x], key, k))
    {
      GroupByMembersStep(prefix, x, key, k);
    }
  }

  lemma {:induction false} GroupByMembersStep<T, K(!new)>(prefix: seq<T>, x: T, key: T -> K, k: K)
    requires Keys(GroupBy(prefix, key)) == Dedup(Project(prefix, key))
    requires forall k :: k in Keys(GroupBy(prefix, key)) ==> Get(GroupBy(prefix, key), k) == Some(Members(prefix, key, k))
    ensures Get(GroupBy(prefix + [x], key), k) == Some(Members(prefix + [x], key, k)) || k !in Keys(GroupBy(prefix + [x], key))
  {
    var xs := prefix + [x];
    assert xs[..|xs| - 1] == prefix;
    var groups := GroupBy(prefix, key);
    var kx := key(x);
    var v := Get(groups, kx).GetOr([]) + [x];
    assert GroupBy(xs, key) == Put(groups, kx, v);
    if k == kx {
      assert Members(xs, key, k) == Members(prefix, key, k) + [x];
      if kx !in Keys(groups) {
        MembersOfAbsentKey(prefix, key, kx);
        assert Get(groups, kx) == None;
        assert v == Members(prefix, key, k) + [x];
      } else {
        assert Get(groups, kx) == Some(Members(prefix, key, kx));
        assert v == Members(prefix, key, k) + [x];
      }
      assert Get(GroupBy(xs, key), k) == Some(v);
    } else if k in Keys(groups) {
      var before := Members(prefix, key, k);
      assert Members(xs, key, k) == before + [];
      assert before + [] == before;
      assert Get(groups, k) == Some(before);
      assert Get(GroupBy(xs, key), k) == Get(groups, k);
    } else {
      assert k !in Keys(GroupBy(xs, key));
    }
  }

  /** Every group is non-empty and holds exactly the members of its key. */
  lemma {:induction false} GroupByEntries<T, K(!new)>(xs: seq<T>, key: T -> K)
    ensures Keys(GroupBy(xs, key)) == Dedup(Project(xs, key))
    ensures forall j :: 0 <= j < |GroupBy(xs, key)| ==>
      GroupBy(xs, key)[j].1 == Members(xs, key, GroupBy(xs, key)[j].0) && |GroupBy(xs, key)[j].1| > 0
  {
    var groups := GroupBy(xs, key);
    GroupByKeys(xs, key);
    GroupByMembers(xs, key);
    forall j | 0 <= j < |groups|
      ensures groups[j].1 == Members(xs, key, groups[j].0) && |groups[j].1| > 0
    {
      GetAt(groups, j);
      assert groups[j].0 in Keys(groups);
      MembersOfPresentKey(xs, key, groups[j].0);
    }
  }

  /** Every element lands in the group of its own key. */
  lemma {:induction false} GroupByCovers<T, K(!new)>(xs: seq<T>, key: T -> K, x: T)
    requires x in xs
    ensures exists j :: 0 <= j < |GroupBy(xs, key)| && GroupBy(xs, key)[j].0 == key(x) && x in GroupBy(xs, key)[j].1
  {
    var groups := GroupBy(xs, key);
    var i :| 0 <= i < |xs| && xs[i] == x;
    GroupByEntries(xs, key);
    assert Project(xs, key)[i] == key(x);
    assert key(x) in Keys(groups);
    var j :| 0 <= j < |groups| && Keys(groups)[j] == key(x);
    MembersExact(xs, key, key(x), x);
  }
}

=== FILE: base_report.dfy ===
/** The canonical issue record every canonicaliser produces, the policy table
    ("bug bar") it reads, and the helpers the report base class offers
    (sast_controller/converters/BaseReport.py). */
module BaseReport {
  import opened Wrappers
  import opened Strings

  const Provider: string := "Reapsaw"
  const TestType: string := "sast"

  /** One single-key entry of the record's `Tags` list. */
  datatype Tag = Tag(key: string, value: string)

  datatype Attachment = Attachment(name: string)

  /** The fields only one of the two canonicalisers adds. */
  datatype Extras =
    | Plain
    | SnykFields(securityTool: string, topLevelModule: string, upgrades: seq<Option<string>>, language: string)
    | CxFields(links: string, snippet: string)

  /** The canonical issue record. `grouped` stands for the optional
      `Grouped` key (absent means true); `defectType` and `defectComment`
      for the optional `RP Defect Type` and `RP Comment` keys. */
  datatype Issue = Issue(
    name: string,
    tool: string,
    steps: string,
    priority: string,
    severity: string,
    confidence: string,
    cwe: string,
    cve: string,
    overview: string,
    recommendations: string,
    references: string,
    paths: string,
    errorString: string,
    description: string,
    instances: string,
    attachments: seq<Attachment>,
    tags: seq<Tag>,
    jiraName: string,
    repo: string,
    grouped: bool,
    defectType: Option<string>,
    defectComment: Option<string>,
    extras: Extras)

  /** `item.get('top_level_module')`. */
  function TopLevelModule(i: Issue): Option<string> {
    if i.extras.SnykFields? then Some(i.extras.topLevelModule) else None
  }

  /** The free-text fields of a record. */
  function TextFields(i: Issue): seq<string> {
    [i.name, i.tool, i.steps, i.priority, i.severity, i.confidence, i.cwe, i.cve, i.overview,
     i.recommendations, i.references, i.paths, i.errorString, i.description, i.instances, i.jiraName]
  }

  /** The record template every canonicaliser copies: blank text, no
      attachments, no tags, and the repository taken from the environment. */
  function DefaultIssue(repo: string): (r: Issue)
    ensures forall f :: f in TextFields(r) ==> f == ""
    ensures r.attachments == [] && r.tags == []
    ensures r.repo == repo && r.grouped
    ensures r.defectType.None? && r.defectComment.None? && TopLevelModule(r).None?
  {
    Issue("", "", "", "", "", "", "", "", "", "", "", "", "", "", "", [], [], "", repo, true, None, None, Plain)
  }

  /** The three tags every canonical record carries, in this order. */
  function StandardTags(tool: string): (tags: seq<Tag>)
    ensures |tags| == 3 && tags[2] == Tag("Tool", tool)
    ensures tags[0].key == "TestType" && tags[1].key == "Provider"
  {
    [Tag("TestType", TestType), Tag("Provider", Provider), Tag("Tool", tool)]
  }

  /** Permalink to a file (and line) in the source repository; empty when
      the repository or the branch is unknown. */
  function GetGitPath(repo: string, branch: string, file: string, line: string): (r: string)
    ensures r == "" <==> repo == "" || branch == ""
    ensures repo != "" && branch != "" ==>
      IsPrefix(repo + "/blob/" + branch + "/" + file, r)
      && (line == "" <==> |r| == |repo + "/blob/" + branch + "/" + file|)
    ensures repo != "" && branch != "" && line != "" ==>
      IsSuffix("#L" + line, r) && |r| == |repo + "/blob/" + branch + "/" + file| + 2 + |line|
  {
    if repo == "" || branch == "" then ""
    else
      var path := repo + "/blob/" + branch + "/" + file;
      if line != "" then path + "#L" + line else path
  }

  datatype Format = JsonFormat | XmlFormat

  /** How the raw report is parsed: as XML when the path contains "xml"
      anywhere, as JSON otherwise. */
  function ReportFormat(path: string): (f: Format)
    ensures f == XmlFormat <==> Contains(path, "xml")
  {
    if Contains(path, "xml") then XmlFormat else JsonFormat
  }

  lemma {:induction false} FormatExamples()
    ensures ReportFormat("checkmarx_report.xml") == XmlFormat
    ensures ReportFormat("/xml_out/snyk.json") == XmlFormat
  {
    assert IsPrefix("xml", "checkmarx_report.xml"[17..]);
    assert IsPrefix("xml", "/xml_out/snyk.json"[1..]);
  }

  /** One entry of the policy table ("bug bar"), keyed by canonical name. */
  datatype PolicyEntry = PolicyEntry(
    isIssue: string,
    riskRating: string,
    jiraPriority: string,
    grouped: string,
    cxsast: string,
    description: map<string, string>,
    recommendation: map<string, string>)

  /** The policy table in file order. */
  type PolicyTable = seq<(string, PolicyEntry)>

  /** Python truthiness of the cached table: None and {} are both false. */
  predicate Loaded(t: Option<PolicyTable>) {
    t.Some? && |t.value| > 0
  }

  /** The lazy `bug_bar` property: it returns the cached table while that is
      truthy, and otherwise takes what the loader gives (None when the file
      is missing or malformed) and caches it. Result: (value, new cache). */
  function BugBar(cache: Option<PolicyTable>, load: Option<PolicyTable>): (r: (Option<PolicyTable>, Option<PolicyTable>))
    ensures r.0 == r.1
    ensures Loaded(cache) ==> r.0 == cache
    ensures !Loaded(cache) ==> r.0 == load
  {
    if Loaded(cache) then (cache, cache) else (load, load)
  }

  /** The values seen by successive accesses, each with the loader's answer
      at that moment. */
  function BugBarAccesses(cache: Option<PolicyTable>, loads: seq<Option<PolicyTable>>): (seen: seq<Option<PolicyTable>>)
    ensures |seen| == |loads|
    decreases |loads|
  {
    if |loads| == 0 then []
    else
      var r := BugBar(cache, loads[0]);
      [r.0] + BugBarAccesses(r.1, loads[1..])
  }

  /** Once a non-empty table has been loaded, every later access returns that
      table, whatever the file would now give. */
  lemma {:induction false} BugBarLoadedOnce(cache: Option<PolicyTable>, loads: seq<Option<PolicyTable>>)
    requires Loaded(cache)
    ensures forall i :: 0 <= i < |loads| ==> BugBarAccesses(cache, loads)[i] == cache
    decreases |loads|
  {
    if |loads| > 0 {
      BugBarLoadedOnce(cache, loads[1..]);
      var seen := BugBarAccesses(cache, loads);
      assert seen == [cache] + BugBarAccesses(cache, loads[1..]);
    }
  }
}

=== FILE: checkmarx_report.dfy ===
/** The static-scanner canonicaliser (sast_controller/converters/CheckmarxReport.py):
    policy matching, the secret mask, and the fold over the scanner's XML tree
    that filters, names, caches and deduplicates findings. The XML tree is a
    list of queries, each holding results, each holding paths; the two
    upstream page lookups are oracle functions that may fail (None). */
module CheckmarxReport {
  import opened Wrappers
  import opened Strings
  import opened Assoc
  import opened BaseReport

  const ToolName: string := "Checkmarx"
  const CweLink: string := "https://cwe.mitre.org/data/definitions/"
  const SensitiveName: string := "Sensitive Information Disclosure"

  /** Result state to dashboard defect type. */
  const RpDefectTypes: map<string, string> := map[
    "0" := "To Investigate",
    "1" := "No Defect",
    "2" := "Product Bug",
    "3" := "Product Bug",
    "4" := "System Issue"
  ]

  /** `RP_DEFECT_TYPES[state]`: an unknown state raises KeyError. */
  function DefectTypeOf(state: string): (r: Result<string>)
    ensures r.Success? <==> state in RpDefectTypes
    ensures r.Failure? ==> r.error == KeyError(state)
    ensures r.Success? ==> r.value in {"To Investigate", "No Defect", "Product Bug", "System Issue"}
  {
    if state in RpDefectTypes then Success(RpDefectTypes[state]) else Failure(KeyError(state))
  }

  /** The five states and what they map to. */
  lemma {:induction false} DefectTypeTable()
    ensures DefectTypeOf("0") == Success("To Investigate")
    ensures DefectTypeOf("1") == Success("No Defect")
    ensures DefectTypeOf("2") == DefectTypeOf("3") == Success("Product Bug")
    ensures DefectTypeOf("4") == Success("System Issue")
    ensures DefectTypeOf("5").Failure?
  {
  }

  // ---------------------------------------------------------------------
  // The secret mask

  /** Python's `int(x)` on a float: truncation toward zero. */
  function Trunc(x: real): (r: int)
    ensures 0.0 <= x ==> 0 <= r && r as real <= x < r as real + 1.0
    ensures x < 0.0 ==> r <= 0 && r as real - 1.0 < x <= r as real
  {
    if x >= 0.0 then x.Floor else -((-x).Floor)
  }

  /** The number of characters to hide: the percentage share, or whatever
      exceeds the longest visible token, whichever is larger. */
  function HiddenCount(n: nat, percent: real, maxTokenLen: int): (h: int)
    ensures h >= Trunc(n as real * percent) && h >= n - maxTokenLen
    ensures h == Trunc(n as real * percent) || h == n - maxTokenLen
  {
    var share := Trunc(n as real * percent);
    if share >= n - maxTokenLen then share else n - maxTokenLen
  }

  /** Python's `s[:k]` for any integer `k`: a negative bound counts from the end. */
  function SliceTo(s: string, k: int): (r: string)
    ensures IsPrefix(r, s)
    ensures 0 <= k <= |s| ==> r == s[..k]
    ensures k < 0 && -k <= |s| ==> r == s[..|s| + k]
    ensures k < 0 && -k > |s| ==> r == ""
  {
    if k >= 0 then (if k <= |s| then s[..k] else s)
    else if |s| + k >= 0 then s[..|s| + k]
    else ""
  }

  /** `mask` as written: `text[:-h]` followed by `n - h` asterisks. */
  function MaskAsWritten(text: string, percent: real, maxTokenLen: int): string {
    var n := |text|;
    var h := HiddenCount(n, percent, maxTokenLen);
    SliceTo(text, -h) + Repeat('*', if n - h >= 0 then n - h else 0)
  }

  /** What the written mask produces: for `0 < h <= n` the first `n - h`
      characters followed by as many asterisks, so the result is `2(n - h)`
      long; for `h = 0` only asterisks; for `h > n` nothing at all. */
  lemma {:induction false} MaskAsWrittenShape(text: string, percent: real, maxTokenLen: int)
    ensures var n := |text|;
      var h := HiddenCount(n, percent, maxTokenLen);
      var r := MaskAsWritten(text, percent, maxTokenLen);
      (0 < h <= n ==> r == text[..n - h] + Repeat('*', n - h) && |r| == 2 * (n - h))
      && (h == 0 ==> r == Repeat('*', n))
      && (h > n ==> r == "")
  {
  }

  /** A four-character secret with a 75% share and a generous token limit:
      the written mask returns two characters, the intended one four. */
  lemma {:induction false} MaskCounterexample()
    ensures MaskAsWritten("abcd", 0.75, 10) == "a*"
    ensures Mask("abcd", 0.75, 10) == "a***"
  {
    assert Trunc(4 as real * 0.75) == 3;
    assert Repeat('*', 1) == "*";
    assert Repeat('*', 3) == "***";
  }

  /** The mask as intended: keep the first characters, replace the hidden
      count (clamped to the text) by asterisks. */
  function Mask(text: string, percent: real, maxTokenLen: int): (r: string)
    ensures |r| == |text|
    ensures forall i :: 0 <= i < |r| ==>
      r[i] == (if i < |text| - Trunc(|text| as real * percent) && i < maxTokenLen then text[i] else '*')
  {
    var n := |text|;
    var h := HiddenCount(n, percent, maxTokenLen);
    var hidden := if h < 0 then 0 else if h > n then n else h;
    text[..n - hidden] + Repeat('*', hidden)
  }

  // ---------------------------------------------------------------------
  // Policy matching

  /** The lower-cased `;`-separated scanner names an entry stands for. */
  function Aliases(e: PolicyEntry): (r: seq<string>)
    ensures |r| == |Split(e.cxsast, ";")|
  {
    var parts := Split(e.cxsast, ";");
    seq(|parts|, i requires 0 <= i < |parts| => Lower(parts[i]))
  }

  predicate Matches(e: PolicyEntry, name: string) {
    Lower(name) in Aliases(e)
  }

  /** What policy matching yields: the (possibly renamed) name, priority,
      severity, description, recommendation, the grouping flag, and the
      names that matched an entry, in order. */
  datatype Match = Match(
    name: string,
    priority: string,
    severity: string,
    desc: string,
    rec: string,
    grouped: bool,
    matched: seq<string>)

  function Start(name: string, severity: string): Match {
    Match(name, "", severity, "", "", true, [])
  }

  /** One policy entry. A match records the current name and renames it to
      the entry's key; an entry that is not an issue stops there; otherwise
      severity and priority come from the entry, description and
      recommendation from its language tables, and "FALSE" clears grouping. */
  function MatchStep(m: Match, key: string, e: PolicyEntry, lang: string): (r: Match)
    ensures !Matches(e, m.name) ==> r == m
    ensures Matches(e, m.name) ==> r.name == key && r.matched == m.matched + [m.name]
    ensures r.grouped ==> m.grouped
  {
    if !Matches(e, m.name) then m
    else
      var renamed := m.(name := key, matched := m.matched + [m.name]);
      if e.isIssue == "FALSE" then renamed
      else
        var l := Lower(lang);
        renamed.(
          severity := e.riskRating,
          priority := e.jiraPriority,
          desc := if l in e.description then e.description[l] else m.desc,
          rec := if l in e.recommendation then e.recommendation[l] else m.rec,
          grouped := if e.grouped == "FALSE" then false else m.grouped)
  }

  /** `__get_from_bugbar`: every entry in table order, each seeing the name
      the earlier ones produced. */
  function FromPolicy(t: PolicyTable, m: Match, lang: string): (r: Match)
    ensures |r.matched| >= |m.matched| && r.matched[..|m.matched|] == m.matched
    ensures |r.matched| == |m.matched| ==> r == m
    ensures r.grouped ==> m.grouped
    decreases |t|
  {
    if |t| == 0 then m
    else FromPolicy(t[1..], MatchStep(m, t[0].0, t[0].1, lang), lang)
  }

  lemma {:induction false} FromPolicyAppend(a: PolicyTable, b: PolicyTable, m: Match, lang: string)
    ensures FromPolicy(a + b, m, lang) == FromPolicy(b, FromPolicy(a, m, lang), lang)
    decreases |a|
  {
    if |a| == 0 {
      assert a + b == b;
    } else {
      assert (a + b)[0] == a[0];
      assert (a + b)[1..] == a[1..] + b;
      FromPolicyAppend(a[1..], b, MatchStep(m, a[0].0, a[0].1, lang), lang);
    }
  }

  /** A name no entry lists goes through unchanged. */
  lemma {:induction false} FromPolicyNoMatch(t: PolicyTable, m: Match, lang: string)
    requires forall i :: 0 <= i < |t| ==> !Matches(t[i].1, m.name)
    ensures FromPolicy(t, m, lang) == m
    decreases |t|
  {
    if |t| > 0 {
      FromPolicyNoMatch(t[1..], m, lang);
    }
  }

  /** The entry that lists the scanner's name decides the outcome when no
      later entry lists that entry's key. */
  lemma {:induction false} PolicyDecides(a: PolicyTable, key: string, e: PolicyEntry, b: PolicyTable,
                      name: string, severity: string, lang: string)
    requires forall i :: 0 <= i < |a| ==> !Matches(a[i].1, name)
    requires Matches(e, name)
    requires forall i :: 0 <= i < |b| ==> !Matches(b[i].1, key)
    ensures var m := FromPolicy(a + [(key, e)] + b, Start(name, severity), lang);
      var l := Lower(lang);
      m.name == key && m.matched == [name]
      && (e.isIssue == "FALSE" ==> m.priority == "" && m.severity == severity && m.grouped)
      && (e.isIssue != "FALSE" ==>
            m.priority == e.jiraPriority && m.severity == e.riskRating
            && m.grouped == (e.grouped != "FALSE")
            && m.desc == (if l in e.description then e.description[l] else "")
            && m.rec == (if l in e.recommendation then e.recommendation[l] else ""))
  {
    var s := Start(name, severity);
    FromPolicyAppend(a + [(key, e)], b, s, lang);
    FromPolicyAppend(a, [(key, e)], s, lang);
    FromPolicyNoMatch(a, s, lang);
    var m1 := MatchStep(s, key, e, lang);
    assert FromPolicy([(key, e)], s, lang) == m1;
    FromPolicyNoMatch(b, m1, lang);
  }

  /** The renamed name keeps being matched: when the first entry's key is
      listed by a later entry, the later entry wins. */
  lemma {:induction false} LastMatchWins(k1: string, e1: PolicyEntry, k2: string, e2: PolicyEntry,
                      name: string, severity: string, lang: string)
    requires Matches(e1, name) && Matches(e2, k1)
    requires e2.isIssue != "FALSE"
    ensures var m := FromPolicy([(k1, e1), (k2, e2)], Start(name, severity), lang);
      m.name == k2 && m.matched == [name, k1]
      && m.priority == e2.jiraPriority && m.severity == e2.riskRating
  {
    var m1 := MatchStep(Start(name, severity), k1, e1, lang);
    assert [(k1, e1), (k2, e2)][1..] == [(k2, e2)];
    assert FromPolicy([(k2, e2)], m1, lang) == MatchStep(m1, k2, e2, lang);
  }

  // ---------------------------------------------------------------------
  // The scanner's XML tree

  /** A path's first node: its code line, if any, and its name text, if any. */
  datatype PathNode = PathNode(code: Option<string>, nodeName: Option<string>)

  datatype CxPath = CxPath(nodes: seq<PathNode>)

  datatype CxResult = CxResult(
    fileName: string,
    line: string,
    state: string,
    remark: string,
    severity: string,
    deepLink: string,
    paths: seq<CxPath>)

  datatype CxQuery = CxQuery(
    name: string,
    id: string,
    cweId: string,
    group: string,
    categories: string,
    language: string,
    results: seq<CxResult>)

  /** The tree in document order: a query is opened, then every path of every
      one of its results is a finding. */
  datatype Event = QueryStart(q: CxQuery) | Finding(q: CxQuery, r: CxResult, p: CxPath)

  function PathEvents(q: CxQuery, r: CxResult, ps: seq<CxPath>): (evs: seq<Event>)
    ensures |evs| == |ps|
    ensures forall i :: 0 <= i < |evs| ==> evs[i] == Finding(q, r, ps[i])
  {
    if |ps| == 0 then [] else [Finding(q, r, ps[0])] + PathEvents(q, r, ps[1..])
  }

  function ResultEvents(q: CxQuery, rs: seq<CxResult>): (evs: seq<Event>)
    ensures forall i :: 0 <= i < |evs| ==> evs[i].Finding? && evs[i].q == q
  {
    if |rs| == 0 then [] else PathEvents(q, rs[0], rs[0].paths) + ResultEvents(q, rs[1..])
  }

  function Events(qs: seq<CxQuery>): seq<Event> {
    if |qs| == 0 then [] else [QueryStart(qs[0])] + ResultEvents(qs[0], qs[0].results) + Events(qs[1..])
  }

  /** Every query is opened exactly where it appears, so the opened names
      are the query names. */
  lemma {:induction false} EventsOpenQueries(qs: seq<CxQuery>, x: string)
    ensures (exists i :: 0 <= i < |Events(qs)| && Events(qs)[i].QueryStart? && Events(qs)[i].q.name == x)
        <==> (exists q :: q in qs && q.name == x)
    decreases |qs|
  {
    if |qs| > 0 {
      var head := [QueryStart(qs[0])] + ResultEvents(qs[0], qs[0].results);
      var evs := Events(qs);
      assert evs == head + Events(qs[1..]);
      EventsOpenQueries(qs[1..], x);
      if exists i :: 0 <= i < |evs| && evs[i].QueryStart? && evs[i].q.name == x {
        var i :| 0 <= i < |evs| && evs[i].QueryStart? && evs[i].q.name == x;
        if i >= |head| {
          assert Events(qs[1..])[i - |head|] == evs[i];
          var q :| q in qs[1..] && q.name == x;
          assert q in qs;
        } else {
          assert i == 0;
          assert qs[0] in qs;
        }
      }
      if exists q :: q in qs && q.name == x {
        var q :| q in qs && q.name == x;
        if q == qs[0] {
          assert evs[0] == QueryStart(qs[0]);
        } else {
          assert q in qs[1..];
          var j :| 0 <= j < |Events(qs[1..])| && Events(qs[1..])[j].QueryStart? && Events(qs[1..])[j].q.name == x;
          assert evs[|head| + j] == Events(qs[1..])[j];
        }
      }
    }
  }

  // ---------------------------------------------------------------------
  // The per-finding pieces

  /** The query category shown in descriptions: the text after the last `;`,
      unless there is none or it sits at index 0 (rfind gives -1 or 0). */
  function CategoryOf(c: string): (r: string)
    ensures IsSuffix(r, c)
  {
    match RFind(c, ';')
    case None => c
    case Some(i) => if i == 0 then c else c[i + 1..]
  }

  /** The three cases of the category: text without `;` and text whose only
      `;` is its first character come back unchanged; otherwise the result
      is the `;`-free text after the last `;`. */
  lemma CategoryOfCases(c: string)
    ensures Lacks(c, ';') ==> CategoryOf(c) == c
    ensures |c| > 0 && c[0] == ';' && Lacks(c[1..], ';') ==> CategoryOf(c) == c
    ensures |c| > 0 && !Lacks(c, ';') && !(c[0] == ';' && Lacks(c[1..], ';')) ==>
      Lacks(CategoryOf(c), ';') && IsSuffix(";" + CategoryOf(c), c)
  {
    if Lacks(c, ';') {
      CategoryWithoutSemicolon(c);
    }
    if |c| > 0 && c[0] == ';' && Lacks(c[1..], ';') {
      CategoryWithLeadingSemicolon(c);
    }
    if |c| > 0 && !Lacks(c, ';') && !(c[0] == ';' && Lacks(c[1..], ';')) {
      CategoryAfterSemicolon(c);
    }
  }

  lemma {:induction false} CategoryWithoutSemicolon(c: string)
    requires Lacks(c, ';')
    ensures CategoryOf(c) == c
  {
    match RFind(c, ';')
    case None =>
    case Some(i) =>
      assert false;
  }

  lemma {:induction false} CategoryWithLeadingSemicolon(c: string)
    requires |c| > 0 && c[0] == ';' && Lacks(c[1..], ';')
    ensures CategoryOf(c) == c
  {
    match RFind(c, ';')
    case None =>
    case Some(i) =>
      if i > 0 {
        assert false;
      }
  }

  lemma {:induction false} CategoryAfterSemicolon(c: string)
    requires |c| > 0 && !Lacks(c, ';') && !(c[0] == ';' && Lacks(c[1..], ';'))
    ensures Lacks(CategoryOf(c), ';') && IsSuffix(";" + CategoryOf(c), c)
  {
    match RFind(c, ';')
    case None =>
      assert Lacks(c, ';');
      assert false;
    case Some(i) =>
      if i == 0 {
        OnlyLeadingSemicolon(c);
        assert false;
      } else {
        AfterLastSemicolon(c, i);
      }
  }

  lemma {:induction false} OnlyLeadingSemicolon(c: string)
    requires |c| > 0 && c[0] == ';' && forall j :: 0 < j < |c| ==> c[j] != ';'
    ensures !Lacks(c, ';') && Lacks(c[1..], ';')
  {
    forall j | 0 <= j < |c[1..]|
      ensures c[1..][j] != ';'
    {
      assert c[1..][j] == c[j + 1];
    }
  }

  lemma {:induction false} AfterLastSemicolon(c: string, i: nat)
    requires 0 < i < |c| && c[i] == ';' && forall j :: i < j < |c| ==> c[j] != ';'
    ensures !Lacks(c, ';') && !Lacks(c[1..], ';')
    ensures Lacks(c[i + 1..], ';') && IsSuffix(";" + c[i + 1..], c)
  {
    var r := c[i + 1..];
    assert c[1..][i - 1] == ';';
    forall j | 0 <= j < |r|
      ensures r[j] != ';'
    {
      assert r[j] == c[i + 1 + j];
    }
    assert c[|c| - |";" + r|..] == ";" + r;
  }

  lemma {:induction false} CategoryOfJoin(m: string, v: string)
    requires |m| > 0
    requires Lacks(v, ';')
    ensures CategoryOf(m + ";" + v) == v
  {
    AfterLastOfJoin(m, ';', v);
    assert m + ";" + v == m + [';'] + v;
  }

  /** The code shown for a finding: the stripped code line of the path's
      first node (masked for the secrets rule), else its stripped name; a
      path without nodes raises IndexError, a node with neither AttributeError. */
  function Snippet(name: string, p: CxPath, percent: real, maxTokenLen: int): (r: Result<string>)
    ensures r == Failure(IndexError) <==> |p.nodes| == 0
    ensures r == Failure(AttributeError) <==> |p.nodes| > 0 && p.nodes[0].code.None? && p.nodes[0].nodeName.None?
    ensures r.Success? && p.nodes[0].code.Some? && name != SensitiveName ==> r.value == Strip(p.nodes[0].code.value)
    ensures r.Success? && p.nodes[0].code.Some? && name == SensitiveName ==> |r.value| == |Strip(p.nodes[0].code.value)|
    ensures r.Success? && p.nodes[0].code.None? ==> r.value == Strip(p.nodes[0].nodeName.value)
  {
    if |p.nodes| == 0 then Failure(IndexError)
    else
      var node := p.nodes[0];
      match node.code
      case Some(code) =>
        var s := Strip(code);
        Success(if name == SensitiveName then Mask(s, percent, maxTokenLen) else s)
      case None =>
        match node.nodeName
        case Some(n) => Success(Strip(n))
        case None => Failure(AttributeError)
  }

  /** Python's `s[:n]`. */
  function Take(s: string, n: nat): (r: string)
    ensures IsPrefix(r, s) && |r| == if |s| <= n then |s| else n
  {
    if |s| <= n then s else s[..n]
  }

  /** The description panel. */
  function InfoMessage(head: string, group: string, category: string, snippet: string): string {
    " " + head + "\n    GROUP: " + group + "\n    CATEGORY: " + category + "\n    *Code*:\n    ``` "
      + Take(snippet, 100) + " ```"
  }

  function FallbackRecommendation(line: string, testName: string): string {
    "Please review and modify vulnerable code in line " + line + " of " + testName
  }

  type Cache = seq<(string, string)>

  /** A per-key cache in front of a lookup that may fail: a cached key gives
      its stored text; otherwise the lookup's answer, or the fallback when it
      fails, is stored and returned. */
  function Cached(cache: Cache, key: string, answer: Option<string>, fallback: string): (r: (string, Cache))
    ensures Get(r.1, key) == Some(r.0)
    ensures forall k :: k in Keys(cache) ==> Get(r.1, k) == Get(cache, k)
    ensures forall k :: k != key ==> Get(r.1, k) == Get(cache, k)
    ensures key in Keys(cache) ==> r.1 == cache
    ensures key !in Keys(cache) ==> r.0 == answer.GetOr(fallback)
  {
    match Get(cache, key)
    case Some(v) => (v, cache)
    case None =>
      var v := answer.GetOr(fallback);
      (v, Put(cache, key, v))
  }

  /** The environment the canonicaliser reads. */
  datatype Env = Env(
    repo: string,
    branch: string,
    cxProject: string,
    sendWithoutBb: string,
    maskPercent: real,
    maxTokenLen: int)

  /** The record for one kept finding. */
  function BuildIssue(env: Env, q: CxQuery, r: CxResult, m: Match, defectType: string,
                      rec: string, desc: string, snippet: string): (i: Issue)
    ensures i.name == (if m.grouped then m.name + "." + r.fileName else m.name)
    ensures i.jiraName == m.name && i.tool == ToolName && i.grouped == m.grouped
    ensures i.priority == m.priority && i.severity == m.severity && i.recommendations == rec
    ensures i.defectType == Some(defectType) && i.defectComment == Some(r.remark)
    ensures i.tags == StandardTags(ToolName)
    ensures i.confidence == "Certain" && i.repo == env.repo
    ensures i.cwe == "[CWE-" + q.cweId + "|" + CweLink + q.cweId + "]"
    ensures i.references == "Line " + r.line + " in file [" + r.fileName + "|" + r.deepLink + "]"
    ensures i.errorString == m.name + " " + q.cweId + "\n" + r.fileName
    ensures i.instances == "File "
      + (if env.repo != "" && env.branch != "" then GetGitPath(env.repo, env.branch, r.fileName, "") else r.fileName)
      + "\nCheckmarx project: " + env.cxProject
    ensures i.description == desc && i.extras == CxFields(r.deepLink, snippet)
  {
    var git := GetGitPath(env.repo, env.branch, r.fileName, "");
    Issue(
      if m.grouped then m.name + "." + r.fileName else m.name,
      ToolName,
      "",
      m.priority,
      m.severity,
      "Certain",
      "[CWE-" + q.cweId + "|" + CweLink + q.cweId + "]",
      "",
      "",
      rec,
      "Line " + r.line + " in file [" + r.fileName + "|" + r.deepLink + "]",
      "",
      m.name + " " + q.cweId + "\n" + r.fileName,
      desc,
      "File " + (if git != "" then git else r.fileName) + "\nCheckmarx project: " + env.cxProject,
      [],
      StandardTags(ToolName),
      m.name,
      env.repo,
      m.grouped,
      Some(defectType),
      Some(r.remark),
      CxFields(r.deepLink, snippet))
  }

  // ---------------------------------------------------------------------
  // The fold

  /** The loop's variables: the report, the query names (`bugbar_vulns`),
      the names policy matched (`existing_bb`), the two caches, and the
      `file + line + name` keys already reported. */
  datatype State = State(
    report: seq<Issue>,
    queryNames: seq<string>,
    seen: seq<string>,
    recCache: Cache,
    descCache: Cache,
    keys: seq<string>)

  const Initial: State := State([], [], [], [], [], [])

  function Outcome(t: PolicyTable, e: Event): Match
    requires e.Finding?
  {
    FromPolicy(t, Start(e.q.name, e.r.severity), e.q.language)
  }

  /** A finding survives the policy filter when it got a priority or
      `send_without_bb` is set. */
  predicate Kept(env: Env, policy: Option<PolicyTable>, e: Event) {
    e.Finding? && policy.Some? && (Outcome(policy.value, e).priority != "" || env.sendWithoutBb != "")
  }

  function FindingKey(t: PolicyTable, e: Event): string
    requires e.Finding?
  {
    e.r.fileName + e.r.line + Outcome(t, e).name
  }

  /** The fields of a finding's record that the finding and the policy
      decide: its names, tool, grouping, priority, severity, defect type
      and comment, tags, and the policy's recommendation when it has one. */
  predicate IssueFields(t: PolicyTable, e: Event, defectType: string, i: Issue)
    requires e.Finding?
  {
    var m := Outcome(t, e);
    i.name == (if m.grouped then m.name + "." + e.r.fileName else m.name)
    && i.jiraName == m.name && i.tool == ToolName && i.grouped == m.grouped
    && i.priority == m.priority && i.severity == m.severity
    && (m.rec != "" ==> i.recommendations == m.rec)
    && i.defectType == Some(defectType) && i.defectComment == Some(e.r.remark)
    && i.tags == StandardTags(ToolName)
  }

  /** `i` is the record the loop builds for finding `e`. */
  predicate FromFinding(t: PolicyTable, e: Event, i: Issue)
    requires e.Finding?
  {
    DefectTypeOf(e.r.state).Success? && IssueFields(t, e, DefectTypeOf(e.r.state).value, i)
  }

  /** The texts of a finding's record that the result and the environment
      decide: confidence, CWE link, place, error string, instances (the git
      permalink when repository and branch are known, else the file name),
      repository, and the deep link with the snippet. */
  predicate RecordTexts(env: Env, t: PolicyTable, e: Event, i: Issue)
    requires e.Finding?
  {
    var m := Outcome(t, e);
    var snippet := Snippet(m.name, e.p, env.maskPercent, env.maxTokenLen);
    && i.confidence == "Certain" && i.repo == env.repo
    && i.cwe == "[CWE-" + e.q.cweId + "|" + CweLink + e.q.cweId + "]"
    && i.references == "Line " + e.r.line + " in file [" + e.r.fileName + "|" + e.r.deepLink + "]"
    && i.errorString == m.name + " " + e.q.cweId + "\n" + e.r.fileName
    && i.instances == "File "
         + (if env.repo != "" && env.branch != "" then GetGitPath(env.repo, env.branch, e.r.fileName, "") else e.r.fileName)
         + "\nCheckmarx project: " + env.cxProject
    && snippet.Success? && i.extras == CxFields(e.r.deepLink, snippet.value)
  }

  /** The texts of a finding's record that come through the two caches:
      without a policy recommendation, the record carries the one cached for
      its query id; its description wraps the policy description or, without
      one, the overview cached for its CWE id. */
  predicate CacheTies(t: PolicyTable, e: Event, recCache: Cache, descCache: Cache, i: Issue)
    requires e.Finding?
  {
    var m := Outcome(t, e);
    && (m.rec == "" ==> Get(recCache, e.q.id) == Some(i.recommendations))
    && (m.desc == "" ==> Get(descCache, e.q.cweId).Some?)
    && i.extras.CxFields?
    && i.description == InfoMessage(if m.desc != "" then m.desc else Get(descCache, e.q.cweId).value,
                                    e.q.group, CategoryOf(e.q.categories), i.extras.snippet)
  }

  /** `x` is the record finding `e` builds, its cache ties read in the
      caches of `st`. */
  predicate BuiltFrom(env: Env, t: PolicyTable, e: Event, st: State, x: Issue)
    requires e.Finding?
  {
    FromFinding(t, e, x) && RecordTexts(env, t, e, x) && CacheTies(t, e, st.recCache, st.descCache, x)
  }

  /** `after` appended one record to `before`, the record finding `e` builds,
      with its cache ties in the caches of `after`. */
  predicate NewRecord(env: Env, t: PolicyTable, e: Event, before: State, after: State)
    requires e.Finding?
  {
    |after.report| > |before.report| && BuiltFrom(env, t, e, after, after.report[|before.report|])
  }

  /** Every key cached in `before` keeps its value in `after`. */
  predicate CachesKept(before: State, after: State) {
    && (forall k :: k in Keys(before.recCache) ==> Get(after.recCache, k) == Get(before.recCache, k))
    && (forall k :: k in Keys(before.descCache) ==> Get(after.descCache, k) == Get(before.descCache, k))
  }

  /** A record's cache ties survive any later state that keeps the cached keys. */
  lemma {:induction false} BuiltFromKept(env: Env, t: PolicyTable, e: Event, before: State, after: State, x: Issue)
    requires e.Finding? && BuiltFrom(env, t, e, before, x) && CachesKept(before, after)
    ensures BuiltFrom(env, t, e, after, x)
  {
    var m := Outcome(t, e);
    if m.rec == "" {
      assert e.q.id in Keys(before.recCache);
    }
    if m.desc == "" {
      assert e.q.cweId in Keys(before.descCache);
    }
  }

  /** Finding `e` is kept without a policy recommendation, so its query id
      `id` goes through the recommendation cache. */
  predicate FillsRec(env: Env, policy: Option<PolicyTable>, e: Event, id: string) {
    Kept(env, policy, e) && Outcome(policy.value, e).rec == "" && e.q.id == id
  }

  /** What the recommendation cache holds for `k` after finding `e`. */
  function RecAfter(env: Env, policy: Option<PolicyTable>, recs: string -> Option<string>,
                    cache: Cache, e: Event, k: string): Option<string>
  {
    if FillsRec(env, policy, e, k) && Get(cache, k).None?
    then Some(recs(k).GetOr(FallbackRecommendation(e.r.line, AfterLast(e.r.fileName, '/'))))
    else Get(cache, k)
  }

  predicate MatchedIn(policy: Option<PolicyTable>, e: Event, x: string) {
    e.Finding? && policy.Some? && x in Outcome(policy.value, e).matched
  }

  /** One event of the loop. */
  function Step(env: Env, policy: Option<PolicyTable>, recs: string -> Option<string>,
                overviews: string -> Option<string>, st: State, e: Event): (r: Result<State>)
    ensures e.Finding? && e.r.state !in RpDefectTypes ==> r == Failure(KeyError(e.r.state))
    ensures e.Finding? && e.r.state in RpDefectTypes && policy.None? ==> r == Failure(TypeError)
    ensures r.Success? && e.QueryStart? ==>
      r.value == st.(queryNames := AddAll(st.queryNames, [e.q.name]))
    ensures r.Success? && e.Finding? ==>
      r.value.queryNames == st.queryNames
      && r.value.seen == AddAll(st.seen, Outcome(policy.value, e).matched)
    ensures r.Success? && e.Finding? ==>
      var isNew := Kept(env, policy, e) && FindingKey(policy.value, e) !in st.keys;
      r.value.keys == (if isNew then st.keys + [FindingKey(policy.value, e)] else st.keys)
      && |r.value.report| == |st.report| + (if isNew then 1 else 0)
      && r.value.report[..|st.report|] == st.report
      && (isNew ==> NewRecord(env, policy.value, e, st, r.value))
    ensures r.Success? ==> CachesKept(st, r.value)
    ensures r.Success? ==> forall k :: Get(r.value.recCache, k) == RecAfter(env, policy, recs, st.recCache, e, k)
  {
    match e
    case QueryStart(q) => Success(st.(queryNames := AddAll(st.queryNames, [q.name])))
    case Finding(q, res, p) =>
      var defectType :- DefectTypeOf(res.state);
      if policy.None? then Failure(TypeError)
      else
        StepFinding(env, policy.value, recs, overviews, st, e, defectType)
  }

  /** A finding with a known state under a policy table: its matched names
      are recorded, and it is reported when it survives the filter. */
  function StepFinding(env: Env, t: PolicyTable, recs: string -> Option<string>,
                       overviews: string -> Option<string>, st: State, e: Event, defectType: string): (r: Result<State>)
    requires e.Finding? && DefectTypeOf(e.r.state) == Success(defectType)
    ensures r.Success? ==>
      r.value.queryNames == st.queryNames
      && r.value.seen == AddAll(st.seen, Outcome(t, e).matched)
    ensures r.Success? ==>
      var isNew := Kept(env, Some(t), e) && FindingKey(t, e) !in st.keys;
      r.value.keys == (if isNew then st.keys + [FindingKey(t, e)] else st.keys)
      && |r.value.report| == |st.report| + (if isNew then 1 else 0)
      && r.value.report[..|st.report|] == st.report
      && (isNew ==> NewRecord(env, t, e, st, r.value))
    ensures r.Success? ==> CachesKept(st, r.value)
    ensures r.Success? ==> forall k :: Get(r.value.recCache, k) == RecAfter(env, Some(t), recs, st.recCache, e, k)
  {
    var m := Outcome(t, e);
    var st1 := st.(seen := AddAll(st.seen, m.matched));
    if m.priority == "" && env.sendWithoutBb == "" then Success(st1)
    else
      assert st1.keys == st.keys && st1.report == st.report;
      assert st1.recCache == st.recCache && st1.descCache == st.descCache;
      Report(env, t, recs, overviews, st1, e, defectType)
  }

  /** A kept finding: its texts are built, the caches filled, and the
      issue added unless its key is already reported. */
  function Report(env: Env, t: PolicyTable, recs: string -> Option<string>,
                  overviews: string -> Option<string>, st: State, e: Event, defectType: string): (r: Result<State>)
    requires e.Finding?
    ensures r.Success? ==> r.value.queryNames == st.queryNames && r.value.seen == st.seen
    ensures r.Success? ==>
      var isNew := FindingKey(t, e) !in st.keys;
      r.value.keys == (if isNew then st.keys + [FindingKey(t, e)] else st.keys)
      && |r.value.report| == |st.report| + (if isNew then 1 else 0)
      && r.value.report[..|st.report|] == st.report
      && (isNew ==> IssueFields(t, e, defectType, r.value.report[|st.report|])
                    && RecordTexts(env, t, e, r.value.report[|st.report|])
                    && CacheTies(t, e, r.value.recCache, r.value.descCache, r.value.report[|st.report|]))
    ensures r.Success? ==> forall k :: k in Keys(st.recCache) ==> Get(r.value.recCache, k) == Get(st.recCache, k)
    ensures r.Success? ==> forall k :: k in Keys(st.descCache) ==> Get(r.value.descCache, k) == Get(st.descCache, k)
    ensures r.Success? ==> forall k ::
      Get(r.value.recCache, k)
      == if k == e.q.id && Outcome(t, e).rec == "" && Get(st.recCache, k).None?
         then Some(recs(k).GetOr(FallbackRecommendation(e.r.line, AfterLast(e.r.fileName, '/'))))
         else Get(st.recCache, k)
  {
    var m := Outcome(t, e);
    var testName := AfterLast(e.r.fileName, '/');
    var (rec, recCache) :=
      if m.rec != "" then (m.rec, st.recCache)
      else Cached(st.recCache, e.q.id, recs(e.q.id), FallbackRecommendation(e.r.line, testName));
    var snippet :- Snippet(m.name, e.p, env.maskPercent, env.maxTokenLen);
    var category := CategoryOf(e.q.categories);
    var (head, descCache) :=
      if m.desc != "" then (m.desc, st.descCache)
      else Cached(st.descCache, e.q.cweId, overviews(e.q.cweId), m.name);
    var desc := InfoMessage(head, e.q.group, category, snippet);
    var st2 := st.(recCache := recCache, descCache := descCache);
    var key := FindingKey(t, e);
    if key in st.keys then Success(st2)
    else
      var issue := BuildIssue(env, e.q, e.r, m, defectType, rec, desc, snippet);
      assert (st.report + [issue])[..|st.report|] == st.report;
      Success(st2.(report := st.report + [issue], keys := st.keys + [key]))
  }

  function Run(env: Env, policy: Option<PolicyTable>, recs: string -> Option<string>,
               overviews: string -> Option<string>, evs: seq<Event>): Result<State>
    decreases |evs|
  {
    if |evs| == 0 then Success(Initial)
    else
      var st :- Run(env, policy, recs, overviews, evs[..|evs| - 1]);
      Step(env, policy, recs, overviews, st, evs[|evs| - 1])
  }

  /** The keys of the kept findings, in event order. */
  function KeptKeys(env: Env, policy: Option<PolicyTable>, evs: seq<Event>): seq<string>
    decreases |evs|
  {
    if |evs| == 0 then []
    else
      var e := evs[|evs| - 1];
      KeptKeys(env, policy, evs[..|evs| - 1]) + (if Kept(env, policy, e) then [FindingKey(policy.value, e)] else [])
  }

  /** The report after any prefix of the events: one entry per distinct key
      of a kept finding, keys in first-seen order. */
  lemma {:induction false} RunKeys(env: Env, policy: Option<PolicyTable>, recs: string -> Option<string>,
                                   overviews: string -> Option<string>, evs: seq<Event>)
    requires Run(env, policy, recs, overviews, evs).Success?
    ensures var st := Run(env, policy, recs, overviews, evs).value;
      st.keys == Dedup(KeptKeys(env, policy, evs)) && |st.report| == |st.keys|
    decreases |evs|
  {
    if |evs| > 0 {
      var pre := evs[..|evs| - 1];
      var e := evs[|evs| - 1];
      RunKeys(env, policy, recs, overviews, pre);
      var st0 := Run(env, policy, recs, overviews, pre).value;
      assert Step(env, policy, recs, overviews, st0, e) == Run(env, policy, recs, overviews, evs);
      var kk := KeptKeys(env, policy, evs);
      var kp := KeptKeys(env, policy, pre);
      if Kept(env, policy, e) {
        assert kk == kp + [FindingKey(policy.value, e)];
        assert kk[..|kk| - 1] == kp;
      } else {
        assert kk == kp;
      }
    }
  }

  predicate KeptWithKey(env: Env, policy: Option<PolicyTable>, e: Event, k: string) {
    Kept(env, policy, e) && FindingKey(policy.value, e) == k
  }

  /** A key is among the kept keys exactly when some kept finding has it. */
  lemma {:induction false} KeptKeysMember(env: Env, policy: Option<PolicyTable>, evs: seq<Event>, k: string)
    ensures k in KeptKeys(env, policy, evs) <==> exists i :: 0 <= i < |evs| && KeptWithKey(env, policy, evs[i], k)
    decreases |evs|
  {
    if |evs| > 0 {
      var pre := evs[..|evs| - 1];
      KeptKeysMember(env, policy, pre, k);
      ExistsSnoc(evs, pre, e => KeptWithKey(env, policy, e, k));
    }
  }

  /** Event `i` is a kept finding whose key no earlier kept finding has. */
  predicate FirstKeptAt(env: Env, policy: Option<PolicyTable>, evs: seq<Event>, i: int)
    requires 0 <= i < |evs|
  {
    Kept(env, policy, evs[i]) && FindingKey(policy.value, evs[i]) !in KeptKeys(env, policy, evs[..i])
  }

  /** `FirstKeptAt` spelled out: kept, and no kept finding before it shares its key. */
  lemma {:induction false} FirstKeptAtMeans(env: Env, policy: Option<PolicyTable>, evs: seq<Event>, i: nat)
    requires i < |evs|
    ensures FirstKeptAt(env, policy, evs, i) <==>
      Kept(env, policy, evs[i])
      && forall h :: 0 <= h < i ==> !KeptWithKey(env, policy, evs[h], FindingKey(policy.value, evs[i]))
  {
    if Kept(env, policy, evs[i]) {
      var k := FindingKey(policy.value, evs[i]);
      var front := evs[..i];
      KeptKeysMember(env, policy, front, k);
      assert forall h :: 0 <= h < i ==> front[h] == evs[h];
    }
  }

  /** Record `x` under key `k` was built from the first kept finding with
      key `k`, its cache ties read in the caches of `st`. */
  ghost predicate RecordedFrom(env: Env, policy: Option<PolicyTable>, evs: seq<Event>, st: State, k: string, x: Issue) {
    exists i :: RecordedAt(env, policy, evs, st, k, x, i)
  }

  /** Record `x` under key `k` was built from event `i`, the first kept
      finding with key `k`. */
  predicate RecordedAt(env: Env, policy: Option<PolicyTable>, evs: seq<Event>, st: State, k: string, x: Issue, i: int) {
    0 <= i < |evs| && FirstKeptAt(env, policy, evs, i)
    && FindingKey(policy.value, evs[i]) == k && BuiltFrom(env, policy.value, evs[i], st, x)
  }

  lemma {:induction false} RecordedExtend(env: Env, policy: Option<PolicyTable>, evs: seq<Event>,
                                          before: State, after: State, k: string, x: Issue)
    requires |evs| > 0 && RecordedFrom(env, policy, evs[..|evs| - 1], before, k, x)
    requires CachesKept(before, after)
    ensures RecordedFrom(env, policy, evs, after, k, x)
  {
    var pre := evs[..|evs| - 1];
    var i :| RecordedAt(env, policy, pre, before, k, x, i);
    assert evs[i] == pre[i] && evs[..i] == pre[..i];
    assert FirstKeptAt(env, policy, evs, i);
    BuiltFromKept(env, policy.value, evs[i], before, after, x);
    assert RecordedAt(env, policy, evs, after, k, x, i);
  }

  /** The last event, kept with a key not yet reported, records its issue. */
  lemma {:induction false} RecordedLast(env: Env, policy: Option<PolicyTable>, evs: seq<Event>,
                                        keys: seq<string>, st: State, k: string, x: Issue)
    requires |evs| > 0 && keys == Dedup(KeptKeys(env, policy, evs[..|evs| - 1]))
    requires Kept(env, policy, evs[|evs| - 1]) && FindingKey(policy.value, evs[|evs| - 1]) !in keys
    requires k == FindingKey(policy.value, evs[|evs| - 1]) && BuiltFrom(env, policy.value, evs[|evs| - 1], st, x)
    ensures RecordedFrom(env, policy, evs, st, k, x)
  {
    var i := |evs| - 1;
    assert evs[..i] == evs[..|evs| - 1];
    assert FirstKeptAt(env, policy, evs, i);
    assert RecordedAt(env, policy, evs, st, k, x, i);
  }

  /** Every record of the report, at any prefix of the events, was built
      from the first kept finding with the record's key. */
  lemma {:induction false} RunRecords(env: Env, policy: Option<PolicyTable>, recs: string -> Option<string>,
                                      overviews: string -> Option<string>, evs: seq<Event>)
    requires Run(env, policy, recs, overviews, evs).Success?
    ensures var st := Run(env, policy, recs, overviews, evs).value;
      |st.report| == |st.keys|
      && forall j :: 0 <= j < |st.report| ==> RecordedFrom(env, policy, evs, st, st.keys[j], st.report[j])
    decreases |evs|
  {
    RunKeys(env, policy, recs, overviews, evs);
    if |evs| > 0 {
      var pre := evs[..|evs| - 1];
      var e := evs[|evs| - 1];
      RunStep(env, policy, recs, overviews, evs);
      RunRecords(env, policy, recs, overviews, pre);
      RunKeys(env, policy, recs, overviews, pre);
      var st0 := Run(env, policy, recs, overviews, pre).value;
      var st := Run(env, policy, recs, overviews, evs).value;
      assert st == Step(env, policy, recs, overviews, st0, e).value;
      assert CachesKept(st0, st);
      forall j | 0 <= j < |st.report|
        ensures RecordedFrom(env, policy, evs, st, st.keys[j], st.report[j])
      {
        if j < |st0.report| {
          assert st.report[j] == st0.report[j] && st.keys[j] == st0.keys[j];
          RecordedExtend(env, policy, evs, st0, st, st.keys[j], st.report[j]);
        } else {
          RecordedLast(env, policy, evs, st0.keys, st, st.keys[j], st.report[j]);
        }
      }
    }
  }

  /** Two first kept findings with one key are the same event. */
  lemma {:induction false} FirstKeptUnique(env: Env, policy: Option<PolicyTable>, evs: seq<Event>, i1: nat, i2: nat)
    requires i1 < |evs| && i2 < |evs|
    requires FirstKeptAt(env, policy, evs, i1) && FirstKeptAt(env, policy, evs, i2)
    requires FindingKey(policy.value, evs[i1]) == FindingKey(policy.value, evs[i2])
    ensures i1 == i2
  {
    if i1 < i2 {
      KeptKeysMember(env, policy, evs[..i2], FindingKey(policy.value, evs[i2]));
      assert false;
    } else if i2 < i1 {
      KeptKeysMember(env, policy, evs[..i1], FindingKey(policy.value, evs[i1]));
      assert false;
    }
  }

  /** Record `j` of a run is the one built from the first kept finding with
      its key. */
  lemma {:induction false} RunRecordOf(env: Env, policy: Option<PolicyTable>, recs: string -> Option<string>,
      overviews: string -> Option<string>, evs: seq<Event>, j: nat, i: nat)
    requires Run(env, policy, recs, overviews, evs).Success?
    requires var st := Run(env, policy, recs, overviews, evs).value;
      j < |st.report| && j < |st.keys| && i < |evs|
      && FirstKeptAt(env, policy, evs, i) && FindingKey(policy.value, evs[i]) == st.keys[j]
    ensures var st := Run(env, policy, recs, overviews, evs).value;
      BuiltFrom(env, policy.value, evs[i], st, st.report[j])
  {
    var st := Run(env, policy, recs, overviews, evs).value;
    RunRecords(env, policy, recs, overviews, evs);
    assert RecordedFrom(env, policy, evs, st, st.keys[j], st.report[j]);
    var a :| RecordedAt(env, policy, evs, st, st.keys[j], st.report[j], a);
    FirstKeptUnique(env, policy, evs, a, i);
  }

  /** Event `i` is the first finding that sends query id `id` through the
      recommendation cache. */
  predicate FirstFillsAt(env: Env, policy: Option<PolicyTable>, evs: seq<Event>, i: int, id: string)
    requires 0 <= i < |evs|
  {
    FillsRec(env, policy, evs[i], id) && forall h :: 0 <= h < i ==> !FillsRec(env, policy, evs[h], id)
  }

  /** The first filler before the last event is the first filler of the
      events without the last. */
  lemma {:induction false} FirstFillsPrefix(env: Env, policy: Option<PolicyTable>, evs: seq<Event>, i: nat, id: string)
    requires i < |evs| - 1 && FirstFillsAt(env, policy, evs, i, id)
    ensures FirstFillsAt(env, policy, evs[..|evs| - 1], i, id)
  {
    var pre := evs[..|evs| - 1];
    assert pre[i] == evs[i];
    forall h | 0 <= h < i ensures !FillsRec(env, policy, pre[h], id) {
      assert pre[h] == evs[h];
    }
  }

  /** When the last event is the first filler, no earlier event fills. */
  lemma {:induction false} FirstFillsNone(env: Env, policy: Option<PolicyTable>, evs: seq<Event>, pre: seq<Event>, id: string)
    requires |evs| > 0 && pre == evs[..|evs| - 1] && FirstFillsAt(env, policy, evs, |evs| - 1, id)
    ensures forall h :: 0 <= h < |pre| ==> !FillsRec(env, policy, pre[h], id)
  {
    forall h | 0 <= h < |pre| ensures !FillsRec(env, policy, pre[h], id) {
      assert pre[h] == evs[h];
    }
  }

  /** Some finding fills query id `id`, so a first one does. */
  lemma {:induction false} FirstFiller(env: Env, policy: Option<PolicyTable>, evs: seq<Event>, i: nat, id: string)
    requires i < |evs| && FillsRec(env, policy, evs[i], id)
    ensures exists f :: 0 <= f <= i && FirstFillsAt(env, policy, evs, f, id)
    decreases i
  {
    if h :| 0 <= h < i && FillsRec(env, policy, evs[h], id) {
      FirstFiller(env, policy, evs, h, id);
    } else {
      assert FirstFillsAt(env, policy, evs, i, id);
    }
  }

  /** The text the recommendation cache takes for query id `id` at finding `e`:
      the upstream recommendation, else the fallback naming `e`'s line and file. */
  function RecText(recs: string -> Option<string>, e: Event, id: string): string
    requires e.Finding?
  {
    recs(id).GetOr(FallbackRecommendation(e.r.line, AfterLast(e.r.fileName, '/')))
  }

  /** The recommendation cache after any prefix: query id `id` is cached
      exactly when some kept finding of that query had no policy
      recommendation, and it holds the text taken at the first such finding. */
  lemma {:induction false} RunRecCache(env: Env, policy: Option<PolicyTable>, recs: string -> Option<string>,
                                       overviews: string -> Option<string>, evs: seq<Event>, id: string)
    requires Run(env, policy, recs, overviews, evs).Success?
    ensures var st := Run(env, policy, recs, overviews, evs).value;
      (Get(st.recCache, id).Some? <==> exists i :: 0 <= i < |evs| && FillsRec(env, policy, evs[i], id))
      && forall i :: 0 <= i < |evs| && FirstFillsAt(env, policy, evs, i, id) ==>
           Get(st.recCache, id) == Some(RecText(recs, evs[i], id))
    decreases |evs|
  {
    if |evs| > 0 {
      var pre := evs[..|evs| - 1];
      var e := evs[|evs| - 1];
      var last := |evs| - 1;
      RunStep(env, policy, recs, overviews, evs);
      RunRecCache(env, policy, recs, overviews, pre, id);
      ExistsSnoc(evs, pre, e => FillsRec(env, policy, e, id));
      var st0 := Run(env, policy, recs, overviews, pre).value;
      var st := Run(env, policy, recs, overviews, evs).value;
      assert Get(st.recCache, id) == RecAfter(env, policy, recs, st0.recCache, e, id);
      forall i | 0 <= i < |evs| && FirstFillsAt(env, policy, evs, i, id)
        ensures Get(st.recCache, id) == Some(RecText(recs, evs[i], id))
      {
        if i < last {
          FirstFillsPrefix(env, policy, evs, i, id);
          assert Get(st0.recCache, id) == Some(RecText(recs, pre[i], id));
          assert pre[i] == evs[i];
        } else {
          FirstFillsNone(env, policy, evs, pre, id);
          assert Get(st0.recCache, id).None?;
        }
      }
    }
  }

  /** Records of one query without a policy recommendation share a single
      recommendation: the one the cache took at the first kept finding of that
      query without a policy recommendation, whatever line or file the later
      records name. */
  lemma {:induction false} RunSameQueryRecommendation(env: Env, policy: Option<PolicyTable>, recs: string -> Option<string>,
      overviews: string -> Option<string>, evs: seq<Event>, j1: nat, i1: nat, j2: nat, i2: nat)
    requires Run(env, policy, recs, overviews, evs).Success?
    requires var st := Run(env, policy, recs, overviews, evs).value;
      j1 < |st.report| && j2 < |st.report| && j1 < |st.keys| && j2 < |st.keys|
      && i1 < |evs| && i2 < |evs|
      && FirstKeptAt(env, policy, evs, i1) && FindingKey(policy.value, evs[i1]) == st.keys[j1]
      && FirstKeptAt(env, policy, evs, i2) && FindingKey(policy.value, evs[i2]) == st.keys[j2]
    requires Outcome(policy.value, evs[i1]).rec == "" && Outcome(policy.value, evs[i2]).rec == ""
    requires evs[i1].q.id == evs[i2].q.id
    ensures var st := Run(env, policy, recs, overviews, evs).value;
      st.report[j1].recommendations == st.report[j2].recommendations
      && exists f :: 0 <= f <= i1 && FirstFillsAt(env, policy, evs, f, evs[i1].q.id)
           && st.report[j1].recommendations == RecText(recs, evs[f], evs[i1].q.id)
  {
    var st := Run(env, policy, recs, overviews, evs).value;
    var id := evs[i1].q.id;
    RunRecordOf(env, policy, recs, overviews, evs, j1, i1);
    RunRecordOf(env, policy, recs, overviews, evs, j2, i2);
    RunRecCache(env, policy, recs, overviews, evs, id);
    assert Get(st.recCache, id) == Some(st.report[j1].recommendations);
    assert Get(st.recCache, id) == Some(st.report[j2].recommendations);
    assert FillsRec(env, policy, evs[i1], id);
    FirstFiller(env, policy, evs, i1, id);
  }

  lemma {:induction false} StepSeen(env: Env, policy: Option<PolicyTable>, recs: string -> Option<string>,
                 overviews: string -> Option<string>, st: State, e: Event, x: string)
    requires Step(env, policy, recs, overviews, st, e).Success?
    ensures x in Step(env, policy, recs, overviews, st, e).value.seen <==> x in st.seen || MatchedIn(policy, e, x)
  {
  }

  /** The last event of a successful run is one step on the run before it. */
  lemma {:induction false} RunStep(env: Env, policy: Option<PolicyTable>, recs: string -> Option<string>,
                overviews: string -> Option<string>, evs: seq<Event>)
    requires |evs| > 0 && Run(env, policy, recs, overviews, evs).Success?
    ensures Run(env, policy, recs, overviews, evs[..|evs| - 1]).Success?
    ensures Run(env, policy, recs, overviews, evs) ==
      Step(env, policy, recs, overviews, Run(env, policy, recs, overviews, evs[..|evs| - 1]).value, evs[|evs| - 1])
  {
  }

  /** The matched names after any prefix: exactly the names policy matching
      recorded for some finding so far. */
  lemma {:induction false} RunSeen(env: Env, policy: Option<PolicyTable>, recs: string -> Option<string>,
                                   overviews: string -> Option<string>, evs: seq<Event>, x: string)
    requires Run(env, policy, recs, overviews, evs).Success?
    ensures x in Run(env, policy, recs, overviews, evs).value.seen <==>
      exists i :: 0 <= i < |evs| && MatchedIn(policy, evs[i], x)
    decreases |evs|
  {
    if |evs| > 0 {
      var pre := evs[..|evs| - 1];
      RunStep(env, policy, recs, overviews, evs);
      RunSeen(env, policy, recs, overviews, pre, x);
      StepSeen(env, policy, recs, overviews, Run(env, policy, recs, overviews, pre).value, evs[|evs| - 1], x);
      ExistsSnoc(evs, pre, e => MatchedIn(policy, e, x));
    }
  }

  lemma {:induction false} StepQueryNames(env: Env, policy: Option<PolicyTable>, recs: string -> Option<string>,
                       overviews: string -> Option<string>, st: State, e: Event, x: string)
    requires Step(env, policy, recs, overviews, st, e).Success?
    ensures x in Step(env, policy, recs, overviews, st, e).value.queryNames <==>
      x in st.queryNames || (e.QueryStart? && e.q.name == x)
  {
  }

  /** The query names after any prefix: exactly the names of the queries
      opened so far. */
  lemma {:induction false} RunQueryNames(env: Env, policy: Option<PolicyTable>, recs: string -> Option<string>,
                                         overviews: string -> Option<string>, evs: seq<Event>, x: string)
    requires Run(env, policy, recs, overviews, evs).Success?
    ensures x in Run(env, policy, recs, overviews, evs).value.queryNames <==>
      exists i :: 0 <= i < |evs| && evs[i].QueryStart? && evs[i].q.name == x
    decreases |evs|
  {
    if |evs| > 0 {
      var pre := evs[..|evs| - 1];
      RunStep(env, policy, recs, overviews, evs);
      RunQueryNames(env, policy, recs, overviews, pre, x);
      StepQueryNames(env, policy, recs, overviews, Run(env, policy, recs, overviews, pre).value, evs[|evs| - 1], x);
      ExistsSnoc(evs, pre, (e: Event) => e.QueryStart? && e.q.name == x);
    }
  }

  /** A cached recommendation never changes: once the loop has stored a text
      for a query id, every later finding of that query gets the same text,
      so a fallback keeps the first finding's line number. */
  lemma {:induction false} RecommendationCacheStable(env: Env, policy: Option<PolicyTable>, recs: string -> Option<string>,
                                                     overviews: string -> Option<string>, evs: seq<Event>, j: nat)
    requires j <= |evs|
    requires Run(env, policy, recs, overviews, evs).Success?
    ensures Run(env, policy, recs, overviews, evs[..j]).Success?
    ensures var early := Run(env, policy, recs, overviews, evs[..j]).value.recCache;
      var late := Run(env, policy, recs, overviews, evs).value.recCache;
      forall k :: k in Keys(early) ==> Get(late, k) == Get(early, k)
    decreases |evs|
  {
    if j < |evs| {
      var pre := evs[..|evs| - 1];
      assert evs[..j] == pre[..j];
      RecommendationCacheStable(env, policy, recs, overviews, pre, j);
    } else {
      assert evs[..j] == evs;
    }
  }

  /** Python's `a.difference(b)`, kept in the order of `a`. */
  function Without(a: seq<string>, b: seq<string>): (r: seq<string>)
    ensures forall x :: x in r <==> x in a && x !in b
  {
    if |a| == 0 then []
    else (if a[0] in b then [] else [a[0]]) + Without(a[1..], b)
  }

  /** The report and the new items (query names no policy entry matched). */
  datatype Output = Output(report: seq<Issue>, newItems: seq<string>)

  /** `_canonify`. */
  function Canonify(env: Env, policy: Option<PolicyTable>, recs: string -> Option<string>,
                    overviews: string -> Option<string>, queries: seq<CxQuery>): Result<Output>
  {
    var st :- Run(env, policy, recs, overviews, Events(queries));
    Success(Output(st.report, Without(st.queryNames, st.seen)))
  }

  lemma {:induction false} NewItemMember(env: Env, policy: Option<PolicyTable>, recs: string -> Option<string>,
                      overviews: string -> Option<string>, queries: seq<CxQuery>, x: string)
    requires Run(env, policy, recs, overviews, Events(queries)).Success?
    ensures var st := Run(env, policy, recs, overviews, Events(queries)).value;
      var evs := Events(queries);
      x in Without(st.queryNames, st.seen) <==>
        (exists q :: q in queries && q.name == x)
        && !(exists i :: 0 <= i < |evs| && MatchedIn(policy, evs[i], x))
  {
    RunSeen(env, policy, recs, overviews, Events(queries), x);
    RunQueryNames(env, policy, recs, overviews, Events(queries), x);
    EventsOpenQueries(queries, x);
  }

  /** The report holds one record per distinct `file + line + name` of a kept
      finding; the new items are the query names minus every name policy
      matching recorded, whether or not its finding was kept. */
  lemma {:induction false} CanonifyFacts(env: Env, policy: Option<PolicyTable>, recs: string -> Option<string>,
                      overviews: string -> Option<string>, queries: seq<CxQuery>)
    requires Canonify(env, policy, recs, overviews, queries).Success?
    ensures var out := Canonify(env, policy, recs, overviews, queries).value;
      var evs := Events(queries);
      |out.report| == |Dedup(KeptKeys(env, policy, evs))|
      && (forall j :: 0 <= j < |out.report| ==>
            RecordedFrom(env, policy, evs, Run(env, policy, recs, overviews, evs).value,
                         Dedup(KeptKeys(env, policy, evs))[j], out.report[j]))
      && forall x :: x in out.newItems <==>
           (exists q :: q in queries && q.name == x)
           && !(exists i :: 0 <= i < |evs| && MatchedIn(policy, evs[i], x))
  {
    var evs := Events(queries);
    var st := Run(env, policy, recs, overviews, evs).value;
    assert Canonify(env, policy, recs, overviews, queries).value == Output(st.report, Without(st.queryNames, st.seen));
    RunKeys(env, policy, recs, overviews, evs);
    RunRecords(env, policy, recs, overviews, evs);
    forall x
      ensures x in Without(st.queryNames, st.seen) <==>
        (exists q :: q in queries && q.name == x)
        && !(exists i :: 0 <= i < |evs| && MatchedIn(policy, evs[i], x))
    {
      NewItemMember(env, policy, recs, overviews, queries, x);
    }
  }

  /** A finding whose rule is listed by a non-issue entry (and by nothing
      later) is dropped, yet its name counts as matched. */
  lemma {:induction false} NotAnIssueDropped(env: Env, a: PolicyTable, key: string, e: PolicyEntry, b: PolicyTable, ev: Event)
    requires ev.Finding?
    requires forall i :: 0 <= i < |a| ==> !Matches(a[i].1, ev.q.name)
    requires Matches(e, ev.q.name) && e.isIssue == "FALSE"
    requires forall i :: 0 <= i < |b| ==> !Matches(b[i].1, key)
    requires env.sendWithoutBb == ""
    ensures !Kept(env, Some(a + [(key, e)] + b), ev)
    ensures MatchedIn(Some(a + [(key, e)] + b), ev, ev.q.name)
  {
    PolicyDecides(a, key, e, b, ev.q.name, ev.r.severity, ev.q.language);
  }

  /** A finding whose rule no entry lists is dropped unless
      `send_without_bb` is set, and its name is not matched. */
  lemma {:induction false} UnlistedDropped(env: Env, t: PolicyTable, ev: Event)
    requires ev.Finding?
    requires forall i :: 0 <= i < |t| ==> !Matches(t[i].1, ev.q.name)
    ensures Kept(env, Some(t), ev) <==> env.sendWithoutBb != ""
    ensures Outcome(t, ev).matched == []
    ensures FindingKey(t, ev) == ev.r.fileName + ev.r.line + ev.q.name
  {
    FromPolicyNoMatch(t, Start(ev.q.name, ev.r.severity), ev.q.language);
  }
}

=== FILE: converter.dfy ===
/** The aggregator (sast_controller/converters/Converter.py): it groups the
    canonical records of every canonicaliser into aggregates and renders each
    aggregate as one dashboard test item and one ticket record. Python sets
    are sequences without duplicates in first-seen order; where the source
    sorts them, nothing depends on that order. */
module Converter {
  import opened Wrappers
  import opened Strings
  import opened Sorting
  import opened Assoc
  import opened Tables
  import opened BaseReport
  import opened TestMessages
  import opened TestItems

  const SnykTag: Tag := Tag("Tool", "Snyk")
  const SnykPrefix: string := "Vulnerable Software Version."
  const DefaultDefectType: string := "To Investigate"

  /** `{'Tool': 'Snyk'} in tags`. */
  predicate IsSnyk(i: Issue) {
    SnykTag in i.tags
  }

  /** The aggregation key: the top-level module for dependency findings,
      otherwise the name, joined with the instances unless the record says it
      is not grouped. */
  function AggKey(i: Issue): Option<string> {
    if IsSnyk(i) then TopLevelModule(i)
    else if i.grouped then Some(i.name + "_" + i.instances)
    else Some(i.name)
  }

  /** The aggregates in first-seen key order. */
  type Aggregates = seq<(Option<string>, seq<Issue>)>

  /** The grouping loop: `d[k].append(x)` for a known key, `d[k] = [x]`
      otherwise. */
  function Aggregate(report: seq<Issue>): (agg: Aggregates)
    ensures Keys(agg) == Dedup(Project(report, AggKey))
    ensures Distinct(Keys(agg))
    ensures forall j :: 0 <= j < |agg| ==> agg[j].1 == Members(report, AggKey, agg[j].0) && |agg[j].1| > 0
  {
    GroupByEntries(report, AggKey);
    GroupBy(report, AggKey)
  }

  /** Every record lands in the aggregate of its own key. */
  lemma {:induction false} AggregateCoversReport(report: seq<Issue>, x: Issue)
    requires x in report
    ensures exists j :: 0 <= j < |Aggregate(report)| && Aggregate(report)[j].0 == AggKey(x) && x in Aggregate(report)[j].1
  {
    GroupByCovers(report, AggKey, x);
    assert Aggregate(report) == GroupBy(report, AggKey);
  }

  // ---------------------------------------------------------------------
  // Defect type of an aggregate (`get_rp_defect_info`)
  // ---------------------------------------------------------------------

  /** `issue.get('RP Defect Type', 'To Investigate')`. */
  function TypeOf(i: Issue): string {
    i.defectType.GetOr(DefaultDefectType)
  }

  /** The type together with `issue.get('RP Comment', '')`. */
  function InfoOf(i: Issue): DefectInfo {
    DefectInfo(TypeOf(i), i.defectComment.GetOr(""))
  }

  /** `RP_DEFECT_TYPE_PRIORITY[t]`. */
  function Precedence(t: string): (r: Result<nat>)
    ensures r.Success? <==> t in RpDefectTypePriority
    ensures r.Success? ==> r.value == RpDefectTypePriority[t]
    ensures r.Failure? ==> r.error == KeyError(t)
  {
    if t in RpDefectTypePriority then Success(RpDefectTypePriority[t]) else Failure(KeyError(t))
  }

  /** A member of a different type replaces the running one when its
      precedence is strictly lower; both are looked up only then. */
  function DefectStep(acc: DefectInfo, i: Issue): (r: Result<DefectInfo>)
    ensures TypeOf(i) == acc.defectType ==> r == Success(acc)
    ensures r.Success? ==> r.value == acc || r.value == InfoOf(i)
  {
    if TypeOf(i) == acc.defectType then Success(acc)
    else
      var p :- Precedence(TypeOf(i));
      var q :- Precedence(acc.defectType);
      if p < q then Success(InfoOf(i)) else Success(acc)
  }

  /** The loop over the first `n` members, started from the first member. */
  function DefectUpTo(issues: seq<Issue>, n: nat): Result<DefectInfo>
    requires 0 < |issues| && n <= |issues|
  {
    if n == 0 then Success(InfoOf(issues[0]))
    else
      var acc :- DefectUpTo(issues, n - 1);
      DefectStep(acc, issues[n - 1])
  }

  function GetRpDefectInfo(issues: seq<Issue>): Result<DefectInfo>
    requires 0 < |issues|
  {
    DefectUpTo(issues, |issues|)
  }

  predicate KnownTypes(issues: seq<Issue>) {
    forall i :: 0 <= i < |issues| ==> TypeOf(issues[i]) in RpDefectTypePriority
  }

  /** `j` is the first of the first `n` members with the lowest precedence. */
  predicate FirstLowest(issues: seq<Issue>, n: nat, j: nat)
    requires KnownTypes(issues) && n <= |issues|
  {
    j < n
    && (forall i :: 0 <= i < n ==> RpDefectTypePriority[TypeOf(issues[j])] <= RpDefectTypePriority[TypeOf(issues[i])])
    && (forall i :: 0 <= i < j ==> RpDefectTypePriority[TypeOf(issues[j])] < RpDefectTypePriority[TypeOf(issues[i])])
  }

  /** Different defect types never share a precedence. */
  lemma {:induction false} PrecedenceInjective(a: string, b: string)
    requires a in RpDefectTypePriority && b in RpDefectTypePriority && a != b
    ensures RpDefectTypePriority[a] != RpDefectTypePriority[b]
  {
  }

  lemma {:induction false} DefectUpToLowest(issues: seq<Issue>, n: nat) returns (j: nat)
    requires 0 < n <= |issues| && KnownTypes(issues)
    ensures FirstLowest(issues, n, j) && DefectUpTo(issues, n) == Success(InfoOf(issues[j]))
    decreases n
  {
    if n == 1 {
      assert DefectUpTo(issues, 0) == Success(InfoOf(issues[0]));
      j := 0;
    } else {
      var k := DefectUpToLowest(issues, n - 1);
      j := DefectStepLowest(issues, n, k);
    }
  }

  lemma {:induction false} DefectStepLowest(issues: seq<Issue>, n: nat, k: nat) returns (j: nat)
    requires 1 < n <= |issues| && KnownTypes(issues)
    requires FirstLowest(issues, n - 1, k) && DefectUpTo(issues, n - 1) == Success(InfoOf(issues[k]))
    ensures FirstLowest(issues, n, j) && DefectUpTo(issues, n) == Success(InfoOf(issues[j]))
  {
    var x := issues[n - 1];
    if TypeOf(x) == TypeOf(issues[k]) {
      j := k;
    } else {
      PrecedenceInjective(TypeOf(x), TypeOf(issues[k]));
      if RpDefectTypePriority[TypeOf(x)] < RpDefectTypePriority[TypeOf(issues[k])] {
        j := n - 1;
      } else {
        j := k;
      }
    }
  }

  /** With every type known, the aggregate takes the type of lowest
      precedence, and the comment of the first member that has it. */
  lemma {:induction false} DefectInfoIsFirstLowest(issues: seq<Issue>)
    requires 0 < |issues| && KnownTypes(issues)
    ensures exists j: nat :: FirstLowest(issues, |issues|, j) && GetRpDefectInfo(issues) == Success(InfoOf(issues[j]))
  {
    var j := DefectUpToLowest(issues, |issues|);
  }

  /** Members that all share one type need no lookup, even of a type the
      precedence table lacks: the first member's type and comment win. */
  lemma {:induction false} SameTypeNoLookup(issues: seq<Issue>, n: nat)
    requires 0 < |issues| && n <= |issues|
    requires forall i :: 0 <= i < |issues| ==> TypeOf(issues[i]) == TypeOf(issues[0])
    ensures DefectUpTo(issues, n) == Success(InfoOf(issues[0]))
    decreases n
  {
    if n > 0 {
      SameTypeNoLookup(issues, n - 1);
    }
  }

  /** A member of an unknown type that differs from the running one raises
      KeyError: here, a known first type followed by an unknown one. */
  lemma {:induction false} UnknownTypeRaises(first: Issue, second: Issue)
    requires TypeOf(first) in RpDefectTypePriority && TypeOf(second) !in RpDefectTypePriority
    ensures GetRpDefectInfo([first, second]) == Failure(KeyError(TypeOf(second)))
  {
    var issues := [first, second];
    assert DefectUpTo(issues, 1) == Success(InfoOf(first));
  }

  // ---------------------------------------------------------------------
  // Severity and priority of an aggregate
  // ---------------------------------------------------------------------

  /** `SEVERITY_MAPPING[s]`. */
  function SeverityRank(s: string): (r: Result<nat>)
    ensures r.Success? <==> s in SeverityMapping
    ensures r.Success? ==> r.value == SeverityMapping[s]
    ensures r.Failure? ==> r.error == KeyError(s)
  {
    if s in SeverityMapping then Success(SeverityMapping[s]) else Failure(KeyError(s))
  }

  /** A member's own priority, or the one its severity maps to when it has
      none (`PRIORITY_MAPPING[severity]`, which has no "Info"). */
  function PriorityFor(i: Issue): (r: Result<string>)
    ensures i.priority != "" ==> r == Success(i.priority)
    ensures i.priority == "" ==> (r.Success? <==> i.severity in PriorityMapping)
    ensures r.Failure? ==> r.error == KeyError(i.severity)
  {
    if i.priority != "" then Success(i.priority)
    else if i.severity in PriorityMapping then Success(PriorityMapping[i.severity])
    else Failure(KeyError(i.severity))
  }

  datatype Escalation = Escalation(severity: string, rank: nat, priority: string)

  /** The first member's severity and priority, the priority looked up before
      the rank. */
  function EscalateInit(first: Issue): Result<Escalation> {
    var p :- PriorityFor(first);
    var r :- SeverityRank(first.severity);
    Success(Escalation(first.severity, r, p))
  }

  /** Severity and priority change only on a strictly higher rank. */
  function EscalateStep(e: Escalation, i: Issue): (r: Result<Escalation>)
    ensures r.Success? ==> r.value.rank >= e.rank
    ensures r.Success? && r.value != e ==> r.value.severity == i.severity && r.value.rank > e.rank
  {
    var rank :- SeverityRank(i.severity);
    if e.rank < rank then
      var p :- PriorityFor(i);
      Success(Escalation(i.severity, rank, p))
    else Success(e)
  }

  function EscalateUpTo(issues: seq<Issue>, n: nat): Result<Escalation>
    requires 0 < |issues| && n <= |issues|
  {
    if n == 0 then EscalateInit(issues[0])
    else
      var e :- EscalateUpTo(issues, n - 1);
      EscalateStep(e, issues[n - 1])
  }

  function Escalate(issues: seq<Issue>): Result<Escalation>
    requires 0 < |issues|
  {
    EscalateUpTo(issues, |issues|)
  }

  predicate KnownSeverities(issues: seq<Issue>) {
    forall i :: 0 <= i < |issues| ==> issues[i].severity in SeverityMapping && PriorityFor(issues[i]).Success?
  }

  /** `j` is the first of the first `n` members with the highest rank. */
  predicate FirstHighest(issues: seq<Issue>, n: nat, j: nat)
    requires KnownSeverities(issues) && n <= |issues|
  {
    j < n
    && (forall i :: 0 <= i < n ==> SeverityMapping[issues[i].severity] <= SeverityMapping[issues[j].severity])
    && (forall i :: 0 <= i < j ==> SeverityMapping[issues[i].severity] < SeverityMapping[issues[j].severity])
  }

  function EscalationOf(i: Issue): Escalation
    requires i.severity in SeverityMapping && PriorityFor(i).Success?
  {
    Escalation(i.severity, SeverityMapping[i.severity], PriorityFor(i).value)
  }

  lemma {:induction false} EscalateUpToHighest(issues: seq<Issue>, n: nat) returns (j: nat)
    requires 0 < n <= |issues| && KnownSeverities(issues)
    ensures FirstHighest(issues, n, j) && EscalateUpTo(issues, n) == Success(EscalationOf(issues[j]))
    decreases n
  {
    if n == 1 {
      assert EscalateUpTo(issues, 0) == Success(EscalationOf(issues[0]));
      j := 0;
    } else {
      var k := EscalateUpToHighest(issues, n - 1);
      j := EscalateStepHighest(issues, n, k);
    }
  }

  lemma {:induction false} EscalateStepHighest(issues: seq<Issue>, n: nat, k: nat) returns (j: nat)
    requires 1 < n <= |issues| && KnownSeverities(issues)
    requires FirstHighest(issues, n - 1, k) && EscalateUpTo(issues, n - 1) == Success(EscalationOf(issues[k]))
    ensures FirstHighest(issues, n, j) && EscalateUpTo(issues, n) == Success(EscalationOf(issues[j]))
  {
    if SeverityMapping[issues[k].severity] < SeverityMapping[issues[n - 1].severity] {
      j := n - 1;
    } else {
      j := k;
    }
  }

  /** With every severity known, the aggregate takes the severity of highest
      rank and the priority of the first member that reaches it. */
  lemma {:induction false} EscalationIsFirstHighest(issues: seq<Issue>)
    requires 0 < |issues| && KnownSeverities(issues)
    ensures exists j: nat :: FirstHighest(issues, |issues|, j) && Escalate(issues) == Success(EscalationOf(issues[j]))
  {
    var j := EscalateUpToHighest(issues, |issues|);
  }

  /** A tie keeps the earlier member: a later member of equal rank but
      different priority changes nothing. */
  lemma {:induction false} TieKeepsFirst(a: Issue, b: Issue)
    requires a.severity in SeverityMapping && PriorityFor(a).Success?
    requires b.severity in SeverityMapping && SeverityMapping[b.severity] == SeverityMapping[a.severity]
    ensures Escalate([a, b]) == Success(EscalationOf(a))
  {
    assert EscalateUpTo([a, b], 1) == Success(EscalationOf(a));
  }

  // ---------------------------------------------------------------------
  // Accumulated fields
  // ---------------------------------------------------------------------

  lemma {:induction false} ContainsInExtension(a: string, r: string, sub: string)
    requires IsPrefix(a, r) && Contains(a, sub)
    ensures Contains(r, sub)
  {
    assert r == a + r[|a|..];
    ContainsPrefix(a, r[|a|..], sub);
  }

  /** A recommendation is appended, on a new line, unless it is empty or
      already part of the text. */
  function AddRecommendation(acc: string, rec: string): (r: string)
    ensures IsPrefix(acc, r)
    ensures rec != "" ==> Contains(r, rec)
    ensures rec == "" || Contains(acc, rec) ==> r == acc
    ensures rec != "" && !Contains(acc, rec) ==> r == acc + "\n" + rec
  {
    if rec != "" && !Contains(acc, rec) then
      assert Contains(acc + "\n" + rec, rec) by {
        ContainsItself(rec);
        ContainsSuffix(acc + "\n", rec, rec);
      }
      assert acc + "\n" + rec == acc + ("\n" + rec);
      acc + "\n" + rec
    else acc
  }

  function RecommendationsUpTo(issues: seq<Issue>, n: nat): string
    requires n <= |issues|
  {
    if n == 0 then "" else AddRecommendation(RecommendationsUpTo(issues, n - 1), issues[n - 1].recommendations)
  }

  /** Every member's recommendation ends up in the text, and the text is
      empty exactly when no member has one. */
  lemma {:induction false} RecommendationsKept(issues: seq<Issue>, n: nat)
    requires n <= |issues|
    ensures forall i :: 0 <= i < n && issues[i].recommendations != "" ==> Contains(RecommendationsUpTo(issues, n), issues[i].recommendations)
    ensures RecommendationsUpTo(issues, n) == "" <==> forall i :: 0 <= i < n ==> issues[i].recommendations == ""
    decreases n
  {
    if n > 0 {
      RecommendationsKept(issues, n - 1);
      var acc := RecommendationsUpTo(issues, n - 1);
      var r := RecommendationsUpTo(issues, n);
      forall i | 0 <= i < n && issues[i].recommendations != ""
        ensures Contains(r, issues[i].recommendations)
      {
        if i < n - 1 {
          ContainsInExtension(acc, r, issues[i].recommendations);
        }
      }
      if exists i :: 0 <= i < n && issues[i].recommendations != "" {
        var i :| 0 <= i < n && issues[i].recommendations != "";
        ContainsNotEmpty(r, issues[i].recommendations);
      }
    }
  }

  /** Members repeating one recommendation contribute it once. */
  lemma {:induction false} SameRecommendationOnce(issues: seq<Issue>, rec: string, n: nat)
    requires 0 < n <= |issues| && rec != ""
    requires forall i :: 0 <= i < |issues| ==> issues[i].recommendations == rec
    ensures RecommendationsUpTo(issues, n) == "\n" + rec
    decreases n
  {
    if n == 1 {
      assert !Contains("", rec);
      assert "" + "\n" + rec == "\n" + rec;
    } else {
      SameRecommendationOnce(issues, rec, n - 1);
      ContainsItself(rec);
      ContainsSuffix("\n", rec, rec);
    }
  }

  /** `s.add(v)` for every truthy value: the distinct non-empty values in
      first-seen order. */
  function Collect(vals: seq<string>): (r: seq<string>)
    ensures Distinct(r)
    ensures forall x :: x in r <==> x != "" && x in vals
  {
    if |vals| == 0 then []
    else
      var v := vals[|vals| - 1];
      assert vals == vals[..|vals| - 1] + [v];
      var acc := Collect(vals[..|vals| - 1]);
      if v != "" then AddAll(acc, [v]) else acc
  }

  predicate SomeContains(xs: seq<string>, sub: string) {
    exists j :: 0 <= j < |xs| && Contains(xs[j], sub)
  }

  /** The instances a member adds: its own, and "Repo r" for its repository
      unless some instance already mentions it. */
  function AddInstance(insts: seq<string>, x: Issue): (r: seq<string>)
    ensures Distinct(insts) ==> Distinct(r)
    ensures forall y :: y in insts ==> y in r
    ensures x.instances != "" ==> x.instances in r
    ensures x.repo != "" ==> SomeContains(r, x.repo)
    ensures forall y :: y in r ==> y in insts || y == x.instances || y == "Repo " + x.repo
  {
    var a := if x.instances != "" then AddAll(insts, [x.instances]) else insts;
    if x.repo != "" && !SomeContains(a, x.repo) then
      var r := AddAll(a, ["Repo " + x.repo]);
      assert Contains("Repo " + x.repo, x.repo) by {
        ContainsItself(x.repo);
        ContainsSuffix("Repo ", x.repo, x.repo);
      }
      assert "Repo " + x.repo in r;
      var j :| 0 <= j < |r| && r[j] == "Repo " + x.repo;
      r
    else a
  }

  function InstancesUpTo(issues: seq<Issue>, n: nat): (r: seq<string>)
    requires n <= |issues|
    ensures Distinct(r)
  {
    if n == 0 then [] else AddInstance(InstancesUpTo(issues, n - 1), issues[n - 1])
  }

  /** The instances are the members' own instances plus one "Repo r" line per
      repository no instance mentions; every repository is mentioned. */
  lemma {:induction false} InstancesCover(issues: seq<Issue>, n: nat)
    requires n <= |issues|
    ensures forall i :: 0 <= i < n && issues[i].instances != "" ==> issues[i].instances in InstancesUpTo(issues, n)
    ensures forall i :: 0 <= i < n && issues[i].repo != "" ==> SomeContains(InstancesUpTo(issues, n), issues[i].repo)
    ensures forall y :: y in InstancesUpTo(issues, n) ==>
      exists i :: 0 <= i < n && (y == issues[i].instances || y == "Repo " + issues[i].repo)
    decreases n
  {
    if n > 0 {
      InstancesCover(issues, n - 1);
      var acc := InstancesUpTo(issues, n - 1);
      var r := InstancesUpTo(issues, n);
      forall i | 0 <= i < n && issues[i].repo != ""
        ensures SomeContains(r, issues[i].repo)
      {
        if i < n - 1 {
          var j :| 0 <= j < |acc| && Contains(acc[j], issues[i].repo);
          assert acc[j] in r;
          var k :| 0 <= k < |r| && r[k] == acc[j];
        }
      }
    }
  }

  // ---------------------------------------------------------------------
  // The information panel (`get_info_msg`)
  // ---------------------------------------------------------------------

  /** The panel title: the name up to its first '.'. */
  function PanelTitle(name: string): (t: string)
    ensures !Contains(t, ".")
    ensures IsPrefix(t, name)
    ensures !Contains(name, ".") ==> t == name
  {
    if Contains(name, ".") then
      var parts := Split(name, ".");
      JoinStartsWithFirst(parts, ".");
      parts[0]
    else name
  }

  /** A dotted name is its title, a '.', and the rest: the title is the text
      before the first '.'. */
  lemma PanelTitleSplit(name: string)
    ensures Contains(name, ".") ==> IsPrefix(PanelTitle(name) + ".", name)
    ensures PanelTitle(name) == Before(name, ".")
  {
    if Contains(name, ".") {
      var parts := Split(name, ".");
      SplitParts(name, ".");
      var rest := After(name, ".");
      assert name == parts[0] + "." + rest;
      assert (parts[0] + ".") + rest == name;
    }
  }

  lemma {:induction false} JoinStartsWithFirst(parts: seq<string>, sep: string)
    requires |parts| > 0
    ensures IsPrefix(parts[0], Join(parts, sep))
  {
    if |parts| > 1 {
      assert Join(parts, sep) == parts[0] + (sep + Join(parts[1..], sep));
    }
  }

  /** "*Field*: " and the stripped value, for a non-empty value. */
  function FieldSection(field: string, value: string): string {
    if value != "" then "*" + field + "*: \n" + Strip(value) + "\n\n" else ""
  }

  /** The paths, one per line in sorted order. */
  function PathsBody(paths: string): string {
    Join(Sort(Split(Strip(paths), "\n\n")), "\n")
  }

  function PanelHead(name: string): string {
    "{panel:title=" + PanelTitle(name) + "}"
  }

  function Panel(i: Issue): (p: string)
    ensures IsPrefix(PanelHead(i.name), p) && IsSuffix("{panel}", p)
  {
    var body := FieldSection("Description", i.description) + FieldSection("References", i.references)
      + (if i.paths != "" then "*Paths*: \n" + PathsBody(i.paths) + "\n\n" else "");
    assert PanelHead(i.name) + body + "{panel}" == PanelHead(i.name) + (body + "{panel}");
    PanelHead(i.name) + body + "{panel}"
  }

  /** `get_info_msg`, given the member's panel: the panel, or "" when some
      message already collected contains it. */
  function InfoMsg(panel: string, existing: seq<string>): (r: string)
    requires panel != ""
    ensures r == "" <==> SomeContains(existing, panel)
    ensures r != "" ==> r == panel
  {
    if SomeContains(existing, panel) then "" else panel
  }

  /** `info_msgs.add(get_info_msg(issue, info_msgs))` for the first `n`
      members, given their panels. */
  function InfoMsgsUpTo(panels: seq<string>, n: nat): (r: seq<string>)
    requires n <= |panels| && forall i :: 0 <= i < |panels| ==> panels[i] != ""
    ensures Distinct(r)
  {
    if n == 0 then []
    else
      var acc := InfoMsgsUpTo(panels, n - 1);
      AddAll(acc, [InfoMsg(panels[n - 1], acc)])
  }

  /** The chunks of the paths text are listed in an order that does not
      depend on the order they came in. */
  lemma {:induction false} PathsOrderIrrelevant(a: string, b: string)
    requires multiset(Split(Strip(a), "\n\n")) == multiset(Split(Strip(b), "\n\n"))
    ensures PathsBody(a) == PathsBody(b)
  {
    SortPermutationInvariant(Split(Strip(a), "\n\n"), Split(Strip(b), "\n\n"));
  }

  /** No member's panel is lost: each is contained in a collected message. */
  lemma {:induction false} InfoMsgsCover(panels: seq<string>, n: nat)
    requires n <= |panels| && forall i :: 0 <= i < |panels| ==> panels[i] != ""
    ensures forall i :: 0 <= i < n ==> SomeContains(InfoMsgsUpTo(panels, n), panels[i])
    decreases n
  {
    if n > 0 {
      InfoMsgsCover(panels, n - 1);
      forall i | 0 <= i < n
        ensures SomeContains(InfoMsgsUpTo(panels, n), panels[i])
      {
        InfoMsgsCoverOne(panels, n, i);
      }
    }
  }

  lemma {:induction false} InfoMsgsCoverOne(panels: seq<string>, n: nat, i: nat)
    requires i < n <= |panels| && forall i :: 0 <= i < |panels| ==> panels[i] != ""
    requires forall i :: 0 <= i < n - 1 ==> SomeContains(InfoMsgsUpTo(panels, n - 1), panels[i])
    ensures SomeContains(InfoMsgsUpTo(panels, n), panels[i])
  {
    var acc := InfoMsgsUpTo(panels, n - 1);
    var r := InfoMsgsUpTo(panels, n);
    var m := InfoMsg(panels[n - 1], acc);
    if i < n - 1 || m == "" {
      SomeContainsGrows(acc, r, panels[i]);
    } else {
      ContainsItself(m);
      assert m in r;
      var k :| 0 <= k < |r| && r[k] == m;
    }
  }

  /** Every non-empty collected message is the panel of some member. */
  lemma {:induction false} InfoMsgsArePanels(panels: seq<string>, n: nat)
    requires n <= |panels| && forall i :: 0 <= i < |panels| ==> panels[i] != ""
    ensures forall m :: m in InfoMsgsUpTo(panels, n) && m != "" ==> exists i :: 0 <= i < n && m == panels[i]
    decreases n
  {
    if n > 0 {
      InfoMsgsArePanels(panels, n - 1);
    }
  }

  lemma {:induction false} SomeContainsGrows(a: seq<string>, b: seq<string>, sub: string)
    requires SomeContains(a, sub) && forall y :: y in a ==> y in b
    ensures SomeContains(b, sub)
  {
    var j :| 0 <= j < |a| && Contains(a[j], sub);
    assert a[j] in b;
    var k :| 0 <= k < |b| && b[k] == a[j];
  }

  // ---------------------------------------------------------------------
  // The test item (`create_ti`)
  // ---------------------------------------------------------------------

  predicate AnyNonEmpty(xs: seq<string>) {
    exists i :: 0 <= i < |xs| && xs[i] != ""
  }

  /** `info_log += m + '\n'` for every non-empty `m`, in order. */
  function Lines(xs: seq<string>): string {
    if |xs| == 0 then "" else (if xs[0] != "" then xs[0] + "\n" else "") + Lines(xs[1..])
  }

  lemma {:induction false} LinesContain(xs: seq<string>, i: nat)
    requires i < |xs| && xs[i] != ""
    ensures Contains(Lines(xs), xs[i] + "\n")
    decreases |xs|
  {
    var head := if xs[0] != "" then xs[0] + "\n" else "";
    assert Lines(xs) == head + Lines(xs[1..]);
    if i == 0 {
      ContainsItself(xs[0] + "\n");
      ContainsPrefix(head, Lines(xs[1..]), xs[0] + "\n");
    } else {
      assert xs[1..][i - 1] == xs[i];
      LinesContain(xs[1..], i - 1);
      ContainsSuffix(head, Lines(xs[1..]), xs[i] + "\n");
    }
  }

  /** One "h3." section: its heading line, the body and a newline. */
  function Section(heading: string, body: string): (r: string)
    ensures IsPrefix("h3.*" + heading + ":*\n", r) && |r| > |body|
  {
    "h3.*" + heading + ":*\n" + body + "\n"
  }

  /** A section when `present`, nothing otherwise. */
  function SectionIf(present: bool, heading: string, body: string): (r: string)
    ensures r == "" <==> !present
    ensures present ==> IsPrefix("h3.*" + heading + ":*\n", r)
  {
    if present then Section(heading, body) else ""
  }

  /** The non-empty strings of `xs`, in order. */
  function NonEmpty(xs: seq<string>): (r: seq<string>)
    ensures forall x :: x in r <==> x in xs && x != ""
    ensures r == [] <==> !AnyNonEmpty(xs)
    decreases xs
  {
    if |xs| == 0 then []
    else
      var rest := NonEmpty(xs[1..]);
      assert forall x :: x in xs <==> x == xs[0] || x in xs[1..];
      assert AnyNonEmpty(xs[1..]) ==> AnyNonEmpty(xs) by {
        if AnyNonEmpty(xs[1..]) {
          var k :| 0 <= k < |xs[1..]| && xs[1..][k] != "";
          assert xs[k + 1] != "";
        }
      }
      assert AnyNonEmpty(xs) && xs[0] == "" ==> AnyNonEmpty(xs[1..]) by {
        if AnyNonEmpty(xs) && xs[0] == "" {
          var k :| 0 <= k < |xs| && xs[k] != "";
          assert xs[1..][k - 1] != "";
        }
      }
      (if xs[0] != "" then [xs[0]] else []) + rest
  }

  /** The appended lines are the non-empty strings joined by newlines, with
      a final newline after the last. */
  lemma {:induction false} LinesAreJoined(xs: seq<string>)
    ensures Lines(xs) == if NonEmpty(xs) == [] then "" else Join(NonEmpty(xs), "\n") + "\n"
    decreases xs
  {
    if |xs| > 0 {
      LinesAreJoined(xs[1..]);
      var rest := NonEmpty(xs[1..]);
      if xs[0] != "" {
        assert Lines(xs) == xs[0] + "\n" + Lines(xs[1..]);
        assert NonEmpty(xs) == [xs[0]] + rest;
        if rest != [] {
          assert ([xs[0]] + rest)[1..] == rest;
          assert Join([xs[0]] + rest, "\n") == xs[0] + "\n" + Join(rest, "\n");
        } else {
          assert Join([xs[0]], "\n") == xs[0];
        }
      } else {
        assert Lines(xs) == Lines(xs[1..]);
        assert NonEmpty(xs) == rest;
      }
    }
  }

  /** Dropping the empty strings of a sorted sequence keeps it sorted. */
  lemma {:induction false} NonEmptySorted(xs: seq<string>)
    requires Sorted(xs)
    ensures Sorted(NonEmpty(xs))
    decreases xs
  {
    if |xs| > 0 {
      var rest := NonEmpty(xs[1..]);
      assert Sorted(xs[1..]) by {
        forall i, j | 0 <= i < j < |xs[1..]|
          ensures LexLe(xs[1..][i], xs[1..][j])
        {
          assert xs[1..][i] == xs[i + 1] && xs[1..][j] == xs[j + 1];
        }
      }
      NonEmptySorted(xs[1..]);
      if xs[0] != "" {
        var r := [xs[0]] + rest;
        forall i, j | 0 <= i < j < |r|
          ensures LexLe(r[i], r[j])
        {
          if i > 0 {
            assert r[i] == rest[i - 1] && r[j] == rest[j - 1];
          } else {
            assert r[j] == rest[j - 1];
            assert rest[j - 1] in xs[1..];
            var k :| 0 <= k < |xs[1..]| && xs[1..][k] == rest[j - 1];
            assert xs[k + 1] == rest[j - 1];
          }
        }
      }
    }
  }

  /** The Overview section: present when some message is non-empty, and then
      its heading followed by the non-empty messages, sorted, one per line. */
  function Overview(infos: seq<string>): (o: string)
    ensures o == "" <==> !AnyNonEmpty(infos)
    ensures AnyNonEmpty(infos) ==> o == "h3.*Overview:*\n" + Join(NonEmpty(Sort(infos)), "\n") + "\n"
  {
    if AnyNonEmpty(infos) then
      SortedLinesJoined(infos);
      "h3.*Overview:*\n" + Lines(Sort(infos))
    else ""
  }

  lemma SortedLinesJoined(infos: seq<string>)
    requires AnyNonEmpty(infos)
    ensures Lines(Sort(infos)) == Join(NonEmpty(Sort(infos)), "\n") + "\n"
  {
    var sorted := Sort(infos);
    LinesAreJoined(sorted);
    var k :| 0 <= k < |infos| && infos[k] != "";
    assert infos[k] in multiset(sorted);
    assert infos[k] in sorted;
    assert infos[k] in NonEmpty(sorted);
  }

  /** The Overview lines are exactly the distinct non-empty messages, in
      sorted order. */
  lemma OverviewLines(infos: seq<string>)
    ensures Sorted(NonEmpty(Sort(infos)))
    ensures forall x :: x in NonEmpty(Sort(infos)) <==> x in infos && x != ""
  {
    NonEmptySorted(Sort(infos));
    forall x
      ensures x in Sort(infos) <==> x in infos
    {
      assert x in Sort(infos) <==> x in multiset(Sort(infos));
      assert x in infos <==> x in multiset(infos);
    }
  }

  /** The sections in front of the Overview. */
  function InfoHead(instances: seq<string>, recommendations: string, steps: seq<string>): (h: string)
    ensures h == "" <==> |instances| == 0 && recommendations == "" && |steps| == 0
    ensures |instances| > 0 ==> IsPrefix("h3.*Instances:*\n", h)
    ensures |instances| > 0 ==> IsPrefix(Section("Instances", Join(Sort(instances), "\n")), h)
    ensures recommendations != "" ==> Contains(h, Section("Recommendations", recommendations))
    ensures |steps| > 0 ==> IsSuffix(Section("Steps to Reproduce", Join(Sort(steps), "\n")), h)
  {
    var a := SectionIf(|instances| > 0, "Instances", Join(Sort(instances), "\n"));
    var b := SectionIf(|recommendations| > 0, "Recommendations", recommendations);
    var c := SectionIf(|steps| > 0, "Steps to Reproduce", Join(Sort(steps), "\n"));
    assert "h3.*" + "Instances" + ":*\n" == "h3.*Instances:*\n";
    PrefixGrows("h3.*Instances:*\n", a, b);
    PrefixGrows("h3.*Instances:*\n", a + b, c);
    PrefixGrows(a, a, b);
    PrefixGrows(a, a + b, c);
    assert recommendations != "" ==> Contains(a + b + c, b) by {
      ContainsItself(b);
      ContainsSuffix(a, b, b);
      ContainsPrefix(a + b, c, b);
    }
    a + b + c
  }

  /** The head is the three sections in their fixed order. */
  lemma InfoHeadSections(instances: seq<string>, recommendations: string, steps: seq<string>)
    ensures InfoHead(instances, recommendations, steps)
         == SectionIf(|instances| > 0, "Instances", Join(Sort(instances), "\n"))
          + SectionIf(recommendations != "", "Recommendations", recommendations)
          + SectionIf(|steps| > 0, "Steps to Reproduce", Join(Sort(steps), "\n"))
  {
  }

  /** The INFO log: Instances, Recommendations, Steps to Reproduce and
      Overview, in that order, each present only when it has content. */
  function InfoLog(instances: seq<string>, recommendations: string, steps: seq<string>, infos: seq<string>): (log: string)
    ensures log == "" <==> |instances| == 0 && recommendations == "" && |steps| == 0 && !AnyNonEmpty(infos)
    ensures log == SectionIf(|instances| > 0, "Instances", Join(Sort(instances), "\n"))
                 + SectionIf(recommendations != "", "Recommendations", recommendations)
                 + SectionIf(|steps| > 0, "Steps to Reproduce", Join(Sort(steps), "\n"))
                 + Overview(infos)
    ensures |instances| > 0 ==> IsPrefix("h3.*Instances:*\n", log)
    ensures recommendations != "" ==> Contains(log, Section("Recommendations", recommendations))
    ensures forall i :: 0 <= i < |infos| && infos[i] != "" ==> Contains(log, infos[i] + "\n")
  {
    var head := InfoHead(instances, recommendations, steps);
    var overview := Overview(infos);
    InfoLogShape(instances, recommendations, steps, infos);
    InfoLogContains(head, infos);
    head + overview
  }

  lemma InfoLogShape(instances: seq<string>, recommendations: string, steps: seq<string>, infos: seq<string>)
    ensures InfoHead(instances, recommendations, steps) + Overview(infos)
         == SectionIf(|instances| > 0, "Instances", Join(Sort(instances), "\n"))
          + SectionIf(recommendations != "", "Recommendations", recommendations)
          + SectionIf(|steps| > 0, "Steps to Reproduce", Join(Sort(steps), "\n"))
          + Overview(infos)
    ensures |instances| > 0 ==> IsPrefix("h3.*Instances:*\n", InfoHead(instances, recommendations, steps) + Overview(infos))
    ensures recommendations != "" ==> Contains(InfoHead(instances, recommendations, steps) + Overview(infos), Section("Recommendations", recommendations))
  {
    var head := InfoHead(instances, recommendations, steps);
    var overview := Overview(infos);
    InfoHeadSections(instances, recommendations, steps);
    PrefixGrows("h3.*Instances:*\n", head, overview);
    if recommendations != "" {
      ContainsPrefix(head, overview, Section("Recommendations", recommendations));
    }
  }

  lemma {:induction false} PrefixGrows(p: string, s: string, t: string)
    ensures IsPrefix(p, s) ==> IsPrefix(p, s + t)
    ensures s + t == "" <==> s == "" && t == ""
  {
    if IsPrefix(p, s) {
      assert (s + t)[..|p|] == s[..|p|];
    }
    assert |s + t| == |s| + |t|;
  }

  lemma {:induction false} InfoLogContains(head: string, infos: seq<string>)
    ensures forall i :: 0 <= i < |infos| && infos[i] != "" ==> Contains(head + Overview(infos), infos[i] + "\n")
  {
    forall i | 0 <= i < |infos| && infos[i] != ""
      ensures Contains(head + Overview(infos), infos[i] + "\n")
    {
      OverviewContains(infos, i);
      ContainsSuffix(head, Overview(infos), infos[i] + "\n");
    }
  }

  lemma {:induction false} OverviewContains(infos: seq<string>, i: nat)
    requires i < |infos| && infos[i] != ""
    ensures Contains(Overview(infos), infos[i] + "\n")
  {
    var sorted := Sort(infos);
    assert infos[i] in multiset(sorted);
    var k :| 0 <= k < |sorted| && sorted[k] == infos[i];
    LinesContain(sorted, k);
    ContainsSuffix("h3.*Overview:*\n", Lines(sorted), infos[i] + "\n");
  }

  /** The test item description: Recommendations, Paths and References. */
  function IssueDescription(recommendations: string, paths: seq<string>, refs: seq<string>): (d: string)
    ensures d == "" <==> recommendations == "" && |paths| == 0 && |refs| == 0
  {
    (if |recommendations| > 0 then "Recommendations: " + recommendations + "\n" else "")
    + (if |paths| > 0 then "Paths: " + Join(Sort(paths), "\n") + "\n" else "")
    + (if |refs| > 0 then "References: " + Join(Sort(refs), "\n") + "\n" else "")
  }

  lemma {:induction false} AnyNonEmptyPermutation(xs: seq<string>, ys: seq<string>)
    requires multiset(xs) == multiset(ys)
    ensures AnyNonEmpty(xs) ==> AnyNonEmpty(ys)
  {
    if AnyNonEmpty(xs) {
      var i :| 0 <= i < |xs| && xs[i] != "";
      assert xs[i] in multiset(ys);
      var j :| 0 <= j < |ys| && ys[j] == xs[i];
    }
  }

  /** The INFO log does not depend on the order in which its sets were
      filled. */
  lemma {:induction false} InfoLogOrderIrrelevant(instances: seq<string>, instances': seq<string>, recommendations: string,
                               steps: seq<string>, steps': seq<string>, infos: seq<string>, infos': seq<string>)
    requires multiset(instances) == multiset(instances') && multiset(steps) == multiset(steps')
    requires multiset(infos) == multiset(infos')
    ensures InfoLog(instances, recommendations, steps, infos) == InfoLog(instances', recommendations, steps', infos')
  {
    SortPermutationInvariant(instances, instances');
    SortPermutationInvariant(steps, steps');
    SortPermutationInvariant(infos, infos');
    assert |instances| == |multiset(instances)| == |instances'|;
    assert |steps| == |multiset(steps)| == |steps'|;
    AnyNonEmptyPermutation(infos, infos');
    AnyNonEmptyPermutation(infos', infos);
    assert InfoHead(instances, recommendations, steps) == InfoHead(instances', recommendations, steps');
    assert Overview(infos) == Overview(infos');
  }

  /** Nor does the description. */
  lemma {:induction false} DescriptionOrderIrrelevant(recommendations: string, paths: seq<string>, paths': seq<string>,
                                   refs: seq<string>, refs': seq<string>)
    requires multiset(paths) == multiset(paths') && multiset(refs) == multiset(refs')
    ensures IssueDescription(recommendations, paths, refs) == IssueDescription(recommendations, paths', refs')
  {
    SortPermutationInvariant(paths, paths');
    SortPermutationInvariant(refs, refs');
    assert |paths| == |multiset(paths)| == |paths'|;
    assert |refs| == |multiset(refs)| == |refs'|;
  }

  /** The last value given to `k` in a list of assignments. */
  function LastValue(kvs: seq<(string, string)>, k: string): (r: Option<string>)
    ensures r.Some? ==> exists i :: 0 <= i < |kvs| && kvs[i] == (k, r.value)
  {
    if |kvs| == 0 then None
    else if kvs[|kvs| - 1].0 == k then Some(kvs[|kvs| - 1].1)
    else
      var r := LastValue(kvs[..|kvs| - 1], k);
      if r.Some? then
        var i :| 0 <= i < |kvs| - 1 && kvs[..|kvs| - 1][i] == (k, r.value);
        assert kvs[i] == (k, r.value);
        r
      else r
  }

  /** `add_tag` for each assignment in order: the last assignment of a key
      wins and unassigned keys keep their tag. */
  function AddTags(t: TestItem, kvs: seq<(string, string)>): (r: TestItem)
    ensures r == t.(tags := r.tags)
    ensures forall k :: Get(r.tags, k) == if LastValue(kvs, k).Some? then LastValue(kvs, k) else Get(t.tags, k)
  {
    if |kvs| == 0 then t
    else AddTag(AddTags(t, kvs[..|kvs| - 1]), kvs[|kvs| - 1].0, kvs[|kvs| - 1].1)
  }

  /** `add_message` for each message in order. */
  function AddMessages(t: TestItem, msgs: seq<TestMessage>): (r: TestItem)
    ensures r == t.(msgs := r.msgs)
  {
    if |msgs| == 0 then t else AddMessage(AddMessages(t, msgs[..|msgs| - 1]), msgs[|msgs| - 1])
  }

  /** Messages that are new and pairwise different are all appended, in order. */
  lemma {:induction false} AddMessagesAppends(t: TestItem, msgs: seq<TestMessage>)
    requires Distinct(msgs) && forall m :: m in msgs ==> m !in t.msgs
    ensures AddMessages(t, msgs).msgs == t.msgs + msgs
    decreases |msgs|
  {
    if |msgs| > 0 {
      var prefix := msgs[..|msgs| - 1];
      var last := msgs[|msgs| - 1];
      AddMessagesAppends(t, prefix);
      assert last !in prefix by {
        forall i | 0 <= i < |prefix|
          ensures prefix[i] != last
        {
          assert msgs[i] != msgs[|msgs| - 1];
        }
      }
      assert msgs == prefix + [last];
    }
  }

  function ErrorMessages(errors: seq<string>): (ms: seq<TestMessage>)
    ensures |ms| == |errors|
    ensures forall i :: 0 <= i < |errors| ==> ms[i] == TestMessage(errors[i], "ERROR")
  {
    seq(|errors|, i requires 0 <= i < |errors| => TestMessage(errors[i], "ERROR"))
  }

  function TagPairs(tags: seq<Tag>): seq<(string, string)> {
    seq(|tags|, i requires 0 <= i < |tags| => (tags[i].key, tags[i].value))
  }

  function ToolPairs(tools: seq<string>): seq<(string, string)> {
    seq(|tools|, i requires 0 <= i < |tools| => ("Tool", tools[i]))
  }

  lemma {:induction false} LastTool(tools: seq<string>)
    ensures LastValue(ToolPairs(tools), "Tool") == if |tools| == 0 then None else Some(tools[|tools| - 1])
    ensures forall k :: k != "Tool" ==> LastValue(ToolPairs(tools), k) == None
  {
    if |tools| > 0 {
      assert ToolPairs(tools)[..|tools| - 1] == ToolPairs(tools[..|tools| - 1]);
    }
  }

  /** What `create_ti` is handed for one aggregate. */
  datatype Summary = Summary(
    name: string,
    tools: seq<string>,
    priority: string,
    severity: string,
    steps: seq<string>,
    confidence: string,
    recommendations: string,
    paths: seq<string>,
    refs: seq<string>,
    errors: seq<string>,
    infos: seq<string>,
    instances: seq<string>,
    tags: seq<Tag>,
    attachments: seq<Attachment>,
    jiraName: Option<string>,
    defect: DefectInfo)

  function SummaryLog(s: Summary): string {
    InfoLog(s.instances, s.recommendations, s.steps, s.infos)
  }

  /** The item as constructed, then tagged with the remaining tools and the
      record tags. */
  function TaggedItem(s: Summary): (t: TestItem)
    requires |s.tools| > 0
    ensures t.msgs == [] && t.params == [("Tool", s.tools[0])]
    ensures t.issue == s.name && t.severity == s.severity && t.priority == s.priority
    ensures t.confidence == s.confidence && t.defectTypeInfo == s.defect && t.attachments == s.attachments
    ensures t.description == IssueDescription(s.recommendations, s.paths, s.refs)
    ensures Get(t.tags, "Tool") ==
      if LastValue(TagPairs(s.tags), "Tool").Some? then LastValue(TagPairs(s.tags), "Tool")
      else Some(s.tools[|s.tools| - 1])
    ensures forall k :: k != "Tool" ==>
      (Get(t.tags, k) == if LastValue(TagPairs(s.tags), k).Some? then LastValue(TagPairs(s.tags), k)
                         else Get(InitialTags(s.tools[0], s.severity, s.confidence, s.priority), k))
  {
    var t0 := NewItem(s.name, s.severity, s.confidence, IssueDescription(s.recommendations, s.paths, s.refs),
                      s.tools[0], s.priority, s.attachments, s.defect);
    var t1 := AddTags(t0, ToolPairs(s.tools[1..]));
    ToolTags(t0, s.tools);
    AddTags(t1, TagPairs(s.tags))
  }

  /** Tagging the remaining tools leaves the last tool as `Tool` tag and
      every other tag as constructed. */
  lemma {:induction false} ToolTags(t0: TestItem, tools: seq<string>)
    requires |tools| > 0 && t0.tags == InitialTags(tools[0], t0.severity, t0.confidence, t0.priority)
    ensures Get(AddTags(t0, ToolPairs(tools[1..])).tags, "Tool") == Some(tools[|tools| - 1])
    ensures forall k :: k != "Tool" ==> Get(AddTags(t0, ToolPairs(tools[1..])).tags, k) == Get(t0.tags, k)
  {
    InitialTagValues(tools[0], t0.severity, t0.confidence, t0.priority);
    LastTool(tools[1..]);
    if |tools| > 1 {
      assert tools[1..][|tools[1..]| - 1] == tools[|tools| - 1];
    }
  }

  /** `create_ti`: the item named after the aggregate, its first tool as
      `Tool` parameter, one ERROR message per error string followed by the
      INFO log, the record tags over the tool tags over the initial ones,
      and the ticket name as the `Name` parameter when there is one. */
  function CreateTi(s: Summary): (t: TestItem)
    requires |s.tools| > 0 && Distinct(s.errors)
    ensures t.issue == s.name && t.severity == s.severity && t.priority == s.priority
    ensures t.confidence == s.confidence && t.defectTypeInfo == s.defect && t.attachments == s.attachments
    ensures t.description == IssueDescription(s.recommendations, s.paths, s.refs)
    ensures t.msgs == ErrorMessages(s.errors) + [TestMessage(SummaryLog(s), "INFO")]
    ensures Get(t.params, "Tool") == Some(s.tools[0])
    ensures Get(t.params, "Name") == s.jiraName
    ensures Get(t.tags, "Tool") ==
      if LastValue(TagPairs(s.tags), "Tool").Some? then LastValue(TagPairs(s.tags), "Tool")
      else Some(s.tools[|s.tools| - 1])
    ensures forall k :: k != "Tool" ==>
      (Get(t.tags, k) == if LastValue(TagPairs(s.tags), k).Some? then LastValue(TagPairs(s.tags), k)
                         else Get(InitialTags(s.tools[0], s.severity, s.confidence, s.priority), k))
  {
    var t2 := TaggedItem(s);
    var t4 := LogMessages(t2, s.errors, SummaryLog(s));
    assert t4 == t2.(msgs := t4.msgs);
    if s.jiraName.Some? then
      var t := AddParam(t4, "Name", s.jiraName.value);
      assert t == t2.(msgs := t4.msgs, params := t.params);
      assert Get(t.params, "Tool") == Get(t2.params, "Tool");
      t
    else
      assert Get(t4.params, "Name") == None by {
        assert t4.params == [("Tool", s.tools[0])];
        assert "Name" !in Keys(t4.params);
      }
      t4
  }

  /** The ERROR messages in order, then the INFO log, on an item that has
      no messages yet. */
  function LogMessages(t: TestItem, errors: seq<string>, log: string): (r: TestItem)
    requires t.msgs == [] && Distinct(errors)
    ensures r == t.(msgs := ErrorMessages(errors) + [TestMessage(log, "INFO")])
  {
    var errs := ErrorMessages(errors);
    ErrorMessagesDistinct(errors);
    AddMessagesAppends(t, errs);
    var t3 := AddMessages(t, errs);
    var info := TestMessage(log, "INFO");
    InfoNotError(errors, log);
    AddMessage(t3, info)
  }

  lemma {:induction false} InfoNotError(errors: seq<string>, log: string)
    ensures TestMessage(log, "INFO") !in ErrorMessages(errors)
  {
    var errs := ErrorMessages(errors);
    forall i | 0 <= i < |errs|
      ensures errs[i] != TestMessage(log, "INFO")
    {
      assert errs[i].status == "ERROR";
    }
  }

  lemma {:induction false} ErrorMessagesDistinct(errors: seq<string>)
    requires Distinct(errors)
    ensures Distinct(ErrorMessages(errors))
  {
  }

  /** The first INFO message of a list, if any. */
  function FirstInfo(msgs: seq<TestMessage>): (r: Option<string>)
    ensures r.Some? ==> exists i :: 0 <= i < |msgs| && msgs[i] == TestMessage(r.value, "INFO")
    ensures r.None? <==> forall i :: 0 <= i < |msgs| ==> msgs[i].status != "INFO"
  {
    if |msgs| == 0 then None
    else if msgs[0].status == "INFO" then Some(msgs[0].message)
    else
      var r := FirstInfo(msgs[1..]);
      assert forall i :: 1 <= i < |msgs| ==> msgs[i] == msgs[1..][i - 1];
      if r.Some? then
        var i :| 0 <= i < |msgs[1..]| && msgs[1..][i] == TestMessage(r.value, "INFO");
        assert msgs[i + 1] == TestMessage(r.value, "INFO");
        r
      else r
  }

  /** `get_jira_description`: the first INFO message, or the description. */
  function GetJiraDescription(t: TestItem): string {
    FirstInfo(t.msgs).GetOr(t.description)
  }

  lemma {:induction false} FirstInfoAfterErrors(errors: seq<string>, log: string)
    ensures FirstInfo(ErrorMessages(errors) + [TestMessage(log, "INFO")]) == Some(log)
    decreases |errors|
  {
    var ms := ErrorMessages(errors) + [TestMessage(log, "INFO")];
    if |errors| > 0 {
      FirstInfoAfterErrors(errors[1..], log);
      assert ms[1..] == ErrorMessages(errors[1..]) + [TestMessage(log, "INFO")];
    }
  }

  /** The ticket description of a created item is its INFO log. */
  lemma {:induction false} JiraDescriptionIsLog(s: Summary)
    requires |s.tools| > 0 && Distinct(s.errors)
    ensures GetJiraDescription(CreateTi(s)) == SummaryLog(s)
  {
    FirstInfoAfterErrors(s.errors, SummaryLog(s));
  }

  // ---------------------------------------------------------------------
  // One aggregate, and the whole report (`get_rp_items`)
  // ---------------------------------------------------------------------

  /** The aggregate name: dependency findings are renamed after the part of
      the name that follows its first '.'. */
  function AggregateName(first: Issue): (name: string)
    ensures IsSnyk(first) ==> IsPrefix(SnykPrefix, name)
    ensures !IsSnyk(first) ==> name == first.name
  {
    if IsSnyk(first) then SnykPrefix + Join(Split(first.name, ".")[1..], ".") else first.name
  }

  /** A dependency finding named `title.module`, with no '.' in the title,
      is renamed after its module. */
  lemma {:induction false} SnykRename(first: Issue, title: string, moduleName: string)
    requires IsSnyk(first) && first.name == title + "." + moduleName && Lacks(title, '.')
    ensures AggregateName(first) == SnykPrefix + moduleName
  {
    var s := title + "." + moduleName;
    assert s[|title|] == '.';
    assert IsPrefix(".", s[|title|..]);
    forall j | 0 <= j < |title|
      ensures !IsPrefix(".", s[j..])
    {
      assert s[j..][..1][0] == title[j];
    }
    var idx := IndexOf(s, ".");
    assert Contains(s, ".") by {
      assert IsPrefix(".", s[|title|..]);
    }
    assert idx == Some(|title|);
    assert s[..|title|] == title;
    assert s[|title| + 1..] == moduleName;
    assert Split(s, ".") == [title] + Split(moduleName, ".");
    assert ([title] + Split(moduleName, "."))[1..] == Split(moduleName, ".");
  }

  /** A record as written to the ticket file: the aggregate's last member
      with its `Jira Description`. */
  datatype JsonRecord = JsonRecord(issue: Issue, jiraDescription: string)

  datatype Rendered = Rendered(item: TestItem, record: JsonRecord)

  function Fields(issues: seq<Issue>, f: Issue -> string): (r: seq<string>)
    ensures Distinct(r) && forall x :: x in r <==> x != "" && x in Project(issues, f)
  {
    Collect(Project(issues, f))
  }

  /** The last non-empty ticket name of the members. */
  function JiraNameOf(issues: seq<Issue>): (r: Option<string>)
    ensures r.Some? ==> r.value != ""
  {
    if |issues| == 0 then None
    else if issues[|issues| - 1].jiraName != "" then Some(issues[|issues| - 1].jiraName)
    else JiraNameOf(issues[..|issues| - 1])
  }

  function Attachments(issues: seq<Issue>): seq<Attachment> {
    if |issues| == 0 then [] else Attachments(issues[..|issues| - 1]) + issues[|issues| - 1].attachments
  }

  /** The members' panels: none is empty. */
  function Panels(issues: seq<Issue>): (ps: seq<string>)
    ensures |ps| == |issues| && forall i :: 0 <= i < |ps| ==> ps[i] != "" && ps[i] == Panel(issues[i])
  {
    Project(issues, Panel)
  }

  /** The loop over an aggregate's members, collected for `create_ti`. */
  function Summarize(issues: seq<Issue>, name: string, e: Escalation, defect: DefectInfo): (s: Summary)
    requires |issues| > 0
    ensures |s.tools| > 0 && Distinct(s.errors)
  {
    var tools := Dedup(Project(issues, (i: Issue) => i.tool));
    assert issues[0].tool in tools by {
      assert Project(issues, (i: Issue) => i.tool)[0] == issues[0].tool;
    }
    Summary(
      name, tools, e.priority, e.severity,
      Fields(issues, (i: Issue) => i.steps), issues[0].confidence,
      RecommendationsUpTo(issues, |issues|),
      Fields(issues, (i: Issue) => i.paths), Fields(issues, (i: Issue) => i.references),
      Dedup(Project(issues, (i: Issue) => i.errorString)),
      InfoMsgsUpTo(Panels(issues), |issues|),
      InstancesUpTo(issues, |issues|),
      issues[0].tags, Attachments(issues), JiraNameOf(issues), defect)
  }

  /** `x` is what a named aggregate renders to: the item `create_ti` builds
      from the members' summary under the aggregate name, escalated severity
      and priority and resolved defect type, and the record of the last
      member carrying that summary's INFO log as its ticket description. */
  predicate RendersFrom(issues: seq<Issue>, x: Rendered)
    requires |issues| > 0
  {
    && AggregateName(issues[0]) != ""
    && Escalate(issues).Success? && GetRpDefectInfo(issues).Success?
    && var s := Summarize(issues, AggregateName(issues[0]), Escalate(issues).value, GetRpDefectInfo(issues).value);
       x.item == CreateTi(s) && x.record == JsonRecord(issues[|issues| - 1], SummaryLog(s))
  }

  /** One aggregate: the defect type is resolved first, an aggregate without
      a name is skipped, then severity and priority are escalated and the
      item and its record are built. */
  function RenderAggregate(issues: seq<Issue>): (r: Result<Option<Rendered>>)
    requires |issues| > 0
    ensures r.Success? ==> (r.value.None? <==> AggregateName(issues[0]) == "")
    ensures r.Success? && r.value.Some? ==>
      var x := r.value.value;
      x.item.issue == AggregateName(issues[0])
      && x.record.issue == issues[|issues| - 1]
      && x.record.jiraDescription == GetJiraDescription(x.item)
      && Escalate(issues).Success?
      && x.item.severity == Escalate(issues).value.severity
      && x.item.priority == Escalate(issues).value.priority
      && GetRpDefectInfo(issues) == Success(x.item.defectTypeInfo)
    ensures r.Success? && r.value.Some? ==> RendersFrom(issues, r.value.value)
    ensures GetRpDefectInfo(issues).Success? && AggregateName(issues[0]) != "" && Escalate(issues).Failure? ==>
      r == Failure(Escalate(issues).error)
    ensures GetRpDefectInfo(issues).Failure? ==> r == Failure(GetRpDefectInfo(issues).error)
  {
    var defect :- GetRpDefectInfo(issues);
    var name := AggregateName(issues[0]);
    if name == "" then Success(None)
    else
      var e :- Escalate(issues);
      var s := Summarize(issues, name, e, defect);
      var t := CreateTi(s);
      JiraDescriptionIsLog(s);
      Success(Some(Rendered(t, JsonRecord(issues[|issues| - 1], GetJiraDescription(t)))))
  }

  predicate NonEmptyGroups(agg: Aggregates) {
    forall j :: 0 <= j < |agg| ==> |agg[j].1| > 0
  }

  /** The number of aggregates that have a name. */
  function Named(agg: Aggregates): nat
    requires NonEmptyGroups(agg)
  {
    if |agg| == 0 then 0
    else (if AggregateName(agg[0].1[0]) != "" then 1 else 0) + Named(agg[1..])
  }

  /** The last member of every aggregate. */
  function Lasts(agg: Aggregates): (ls: seq<Issue>)
    requires NonEmptyGroups(agg)
    ensures |ls| == |agg| && forall j :: 0 <= j < |agg| ==> ls[j] == agg[j].1[|agg[j].1| - 1]
  {
    seq(|agg|, j requires 0 <= j < |agg| && NonEmptyGroups(agg) => agg[j].1[|agg[j].1| - 1])
  }

  /** `x` is what aggregate `g` renders to. */
  predicate RendersGroup(g: (Option<string>, seq<Issue>), x: Rendered) {
    |g.1| > 0 && RendersFrom(g.1, x)
  }

  /** `x` is what one of the aggregates renders to. */
  ghost predicate RenderedBy(agg: Aggregates, x: Rendered) {
    Witnessed(agg, x, RendersGroup)
  }

  /** Some element of `xs` stands in relation `p` to `x`. */
  ghost predicate Witnessed<A, B>(xs: seq<A>, x: B, p: (A, B) -> bool) {
    exists j :: 0 <= j < |xs| && p(xs[j], x)
  }

  /** Witnesses in the tail are witnesses in the whole. */
  lemma {:induction false} WitnessedCons<A, B>(xs: seq<A>, head: Option<B>, rest: seq<B>, p: (A, B) -> bool)
    requires |xs| > 0 && (head.Some? ==> p(xs[0], head.value))
    requires forall x :: x in rest ==> Witnessed(xs[1..], x, p)
    ensures forall x :: x in (if head.Some? then [head.value] else []) + rest ==> Witnessed(xs, x, p)
  {
    forall x | x in (if head.Some? then [head.value] else []) + rest
      ensures Witnessed(xs, x, p)
    {
      if x in rest {
        var j :| 0 <= j < |xs[1..]| && p(xs[1..][j], x);
        assert xs[1..][j] == xs[j + 1];
      } else {
        assert x == head.value && p(xs[0], x);
      }
    }
  }

  /** The aggregates in order; the first failure ends the loop. */
  function RenderAll(agg: Aggregates): (r: Result<seq<Rendered>>)
    requires NonEmptyGroups(agg)
    ensures r.Success? ==> |r.value| == Named(agg)
    ensures r.Success? ==> forall x :: x in r.value ==> x.item.issue != "" && x.record.jiraDescription == GetJiraDescription(x.item)
    ensures r.Success? ==> forall x :: x in r.value ==> x.record.issue in Lasts(agg)
    ensures r.Success? ==> forall x :: x in r.value ==> RenderedBy(agg, x)
  {
    if |agg| == 0 then Success([])
    else
      var head :- RenderAggregate(agg[0].1);
      var rest :- RenderAll(agg[1..]);
      var r := (if head.Some? then [head.value] else []) + rest;
      RenderedCons(agg, head, rest);
      WitnessedCons(agg, head, rest, RendersGroup);
      Success(r)
  }

  /** The first aggregate's item and the rest's items are named, carry
      their ticket descriptions, and pair with last members. */
  lemma {:induction false} RenderedCons(agg: Aggregates, head: Option<Rendered>, rest: seq<Rendered>)
    requires NonEmptyGroups(agg) && |agg| > 0 && NonEmptyGroups(agg[1..])
    requires head.Some? ==>
      head.value.item.issue != "" && head.value.record.jiraDescription == GetJiraDescription(head.value.item)
      && head.value.record.issue == agg[0].1[|agg[0].1| - 1]
    requires forall x :: x in rest ==>
      x.item.issue != "" && x.record.jiraDescription == GetJiraDescription(x.item) && x.record.issue in Lasts(agg[1..])
    ensures forall x :: x in (if head.Some? then [head.value] else []) + rest ==>
      x.item.issue != "" && x.record.jiraDescription == GetJiraDescription(x.item) && x.record.issue in Lasts(agg)
  {
    LastsTail(agg);
  }

  lemma {:induction false} LastsTail(agg: Aggregates)
    requires NonEmptyGroups(agg) && |agg| > 0
    ensures Lasts(agg) == [agg[0].1[|agg[0].1| - 1]] + Lasts(agg[1..])
  {
  }

  /** Every aggregate's last member is a finding of the report. */
  lemma {:induction false} LastsInReport(report: seq<Issue>)
    ensures NonEmptyGroups(Aggregate(report))
    ensures forall y :: y in Lasts(Aggregate(report)) ==> y in report
  {
    var agg := Aggregate(report);
    forall y | y in Lasts(agg)
      ensures y in report
    {
      var j :| 0 <= j < |agg| && Lasts(agg)[j] == y;
      LastMemberInReport(report, agg[j]);
    }
  }

  lemma {:induction false} LastMemberInReport(report: seq<Issue>, g: (Option<string>, seq<Issue>))
    requires |g.1| > 0 && g.1 == Members(report, AggKey, g.0)
    ensures g.1[|g.1| - 1] in report
  {
    MembersExact(report, AggKey, g.0, g.1[|g.1| - 1]);
  }

  /** `get_rp_items`: one item and one record per named aggregate; the
      order (that of the aggregation keys' first occurrence) and each item's
      source aggregate are stated by `GetRpItemsAt`. */
  function GetRpItems(report: seq<Issue>): (r: Result<seq<Rendered>>)
    ensures r.Success? ==> |r.value| == Named(Aggregate(report)) <= |Dedup(Project(report, AggKey))|
    ensures r.Success? ==> forall x :: x in r.value ==>
      x.item.issue != "" && x.record.issue in report && x.record.jiraDescription == GetJiraDescription(x.item)
    ensures r.Success? ==> forall x :: x in r.value ==> RenderedBy(Aggregate(report), x)
  {
    var agg := Aggregate(report);
    LastsInReport(report);
    NamedAtMost(agg);
    RenderAll(agg)
  }

  /** The values present in `hs`, in order. */
  function Present<T>(hs: seq<Option<T>>): (r: seq<T>)
    ensures |r| <= |hs|
  {
    if |hs| == 0 then []
    else Present(hs[..|hs| - 1]) + (if hs[|hs| - 1].Some? then [hs[|hs| - 1].value] else [])
  }

  lemma {:induction false} PresentAppend<T>(a: seq<Option<T>>, b: seq<Option<T>>)
    ensures Present(a + b) == Present(a) + Present(b)
    decreases |b|
  {
    if |b| == 0 {
      assert a + b == a;
    } else {
      var n := |b| - 1;
      assert (a + b)[..|a + b| - 1] == a + b[..n];
      assert (a + b)[|a + b| - 1] == b[n];
      PresentAppend(a, b[..n]);
    }
  }

  /** A present value sits at the position given by the number of present
      values before it. */
  lemma {:induction false} PresentAt<T>(hs: seq<Option<T>>, j: nat)
    requires j < |hs| && hs[j].Some?
    ensures |Present(hs[..j])| < |Present(hs)| && Present(hs)[|Present(hs[..j])|] == hs[j].value
  {
    assert hs == hs[..j] + [hs[j]] + hs[j + 1..];
    PresentAppend(hs[..j] + [hs[j]], hs[j + 1..]);
    PresentAppend(hs[..j], [hs[j]]);
    assert [hs[j]][..0] == [];
  }

  /** Present values keep the order of their positions. */
  lemma {:induction false} PresentOrder<T>(hs: seq<Option<T>>, i: nat, j: nat)
    requires i < j <= |hs| && hs[i].Some?
    ensures |Present(hs[..i])| < |Present(hs[..j])|
  {
    assert hs[..j] == hs[..i] + [hs[i]] + hs[i + 1..j];
    PresentAppend(hs[..i] + [hs[i]], hs[i + 1..j]);
    PresentAppend(hs[..i], [hs[i]]);
    assert [hs[i]][..0] == [];
  }

  /** Every value of `Present(hs)` comes from a position of `hs`. */
  lemma {:induction false} PresentFrom<T>(hs: seq<Option<T>>, k: nat)
    requires k < |Present(hs)|
    ensures exists j :: 0 <= j < |hs| && hs[j].Some? && |Present(hs[..j])| == k && Present(hs)[k] == hs[j].value
    decreases |hs|
  {
    var n := |hs| - 1;
    var front := hs[..n];
    if k < |Present(front)| {
      PresentFrom(front, k);
      var j :| 0 <= j < |front| && front[j].Some? && |Present(front[..j])| == k && Present(front)[k] == front[j].value;
      assert front[..j] == hs[..j] && front[j] == hs[j];
    } else {
      assert hs[..n] == front;
    }
  }

  /** What one aggregate renders to, when its rendering succeeds. */
  function OutOf(issues: seq<Issue>): Option<Rendered>
    requires |issues| > 0
  {
    match RenderAggregate(issues)
    case Success(h) => h
    case Failure(_) => None
  }

  /** What each aggregate renders to, in order. */
  function Outs(agg: Aggregates): (outs: seq<Option<Rendered>>)
    requires NonEmptyGroups(agg)
    ensures |outs| == |agg|
  {
    if |agg| == 0 then []
    else
      assert NonEmptyGroups(agg[1..]) by {
        assert forall i :: 0 <= i < |agg[1..]| ==> agg[1..][i] == agg[i + 1];
      }
      [OutOf(agg[0].1)] + Outs(agg[1..])
  }

  /** One step of `RenderAll`: the first aggregate renders, then the rest. */
  lemma {:induction false} RenderAllCons(agg: Aggregates)
    requires NonEmptyGroups(agg) && |agg| > 0 && RenderAll(agg).Success?
    ensures RenderAggregate(agg[0].1) == Success(OutOf(agg[0].1))
    ensures NonEmptyGroups(agg[1..]) && RenderAll(agg[1..]).Success?
    ensures Outs(agg) == [OutOf(agg[0].1)] + Outs(agg[1..])
    ensures RenderAll(agg).value
         == (if OutOf(agg[0].1).Some? then [OutOf(agg[0].1).value] else []) + RenderAll(agg[1..]).value
  {
    assert NonEmptyGroups(agg[1..]) by {
      assert forall i :: 0 <= i < |agg[1..]| ==> agg[1..][i] == agg[i + 1];
    }
  }

  /** A successful rendering renders every aggregate without error. */
  lemma {:induction false} RenderAllEach(agg: Aggregates)
    requires NonEmptyGroups(agg) && RenderAll(agg).Success?
    ensures forall j :: 0 <= j < |agg| ==> RenderAggregate(agg[j].1) == Success(Outs(agg)[j])
    decreases |agg|
  {
    if |agg| > 0 {
      RenderAllCons(agg);
      var tail := agg[1..];
      RenderAllEach(tail);
      forall j | 0 <= j < |agg|
        ensures RenderAggregate(agg[j].1) == Success(Outs(agg)[j])
      {
        if j > 0 {
          assert agg[j] == tail[j - 1] && Outs(agg)[j] == Outs(tail)[j - 1];
        }
      }
    }
  }

  /** The items of a successful rendering are the present renderings, in
      aggregate order. */
  lemma {:induction false} RenderAllPresent(agg: Aggregates)
    requires NonEmptyGroups(agg) && RenderAll(agg).Success?
    ensures RenderAll(agg).value == Present(Outs(agg))
    decreases |agg|
  {
    if |agg| > 0 {
      RenderAllCons(agg);
      var tail := agg[1..];
      RenderAllPresent(tail);
      var h := OutOf(agg[0].1);
      PresentAppend([h], Outs(tail));
      assert [h][..0] == [];
      assert Present([h]) == (if h.Some? then [h.value] else []);
      assert Outs(agg) == [h] + Outs(tail);
      assert Present(Outs(agg)) == Present([h]) + Present(Outs(tail));
    } else {
      assert Outs(agg) == [];
    }
  }

  /** `get_rp_items` in full: the aggregates are keyed in first-seen order,
      every one of them renders, and the items are the renderings of the
      named ones in that order. */
  lemma {:induction false} GetRpItemsAt(report: seq<Issue>)
    requires GetRpItems(report).Success?
    ensures NonEmptyGroups(Aggregate(report))
    ensures Keys(Aggregate(report)) == Dedup(Project(report, AggKey))
    ensures var agg := Aggregate(report);
      forall j :: 0 <= j < |agg| ==> RenderAggregate(agg[j].1) == Success(Outs(agg)[j])
    ensures GetRpItems(report).value == Present(Outs(Aggregate(report)))
  {
    LastsInReport(report);
    RenderAllEach(Aggregate(report));
    RenderAllPresent(Aggregate(report));
  }

  /** Item `k` of `get_rp_items` is the rendering of the aggregate that has
      exactly `k` named aggregates before it. */
  lemma {:induction false} GetRpItemsFrom(report: seq<Issue>, k: nat)
    requires GetRpItems(report).Success? && k < |GetRpItems(report).value|
    ensures NonEmptyGroups(Aggregate(report))
    ensures var agg := Aggregate(report);
      exists j :: 0 <= j < |agg| && |Present(Outs(agg)[..j])| == k
        && RendersFrom(agg[j].1, GetRpItems(report).value[k])
  {
    var agg := Aggregate(report);
    LastsInReport(report);
    RenderAllPresent(agg);
    PresentFrom(Outs(agg), k);
    var j :| 0 <= j < |Outs(agg)| && Outs(agg)[j].Some? && |Present(Outs(agg)[..j])| == k
      && Present(Outs(agg))[k] == Outs(agg)[j].value;
    OutsRender(agg, j);
  }

  /** A present outcome is what its aggregate renders to. */
  lemma {:induction false} OutsRender(agg: Aggregates, j: nat)
    requires NonEmptyGroups(agg) && RenderAll(agg).Success? && j < |agg| && Outs(agg)[j].Some?
    ensures RendersFrom(agg[j].1, Outs(agg)[j].value)
  {
    RenderAllEach(agg);
    assert RenderAggregate(agg[j].1) == Success(Outs(agg)[j]);
  }

  lemma {:induction false} NamedAtMost(agg: Aggregates)
    requires NonEmptyGroups(agg)
    ensures Named(agg) <= |agg|
    decreases |agg|
  {
    if |agg| > 0 {
      NamedAtMost(agg[1..]);
    }
  }

  // ---------------------------------------------------------------------
  // JUnit cases (`get_junit_items`)
  // ---------------------------------------------------------------------

  datatype TestCase = TestCase(name: string, className: string, message: string, errorType: string)

  /** The messages of an item, each followed by a blank line. */
  function JunitMessage(msgs: seq<TestMessage>): string {
    if |msgs| == 0 then "" else JunitMessage(msgs[..|msgs| - 1]) + msgs[|msgs| - 1].message + "\n\n"
  }

  /** The error text is built block by block: each message followed by a
      blank line, the blocks in message order. */
  lemma {:induction false} JunitMessageAppend(a: seq<TestMessage>, b: seq<TestMessage>)
    ensures JunitMessage(a + b) == JunitMessage(a) + JunitMessage(b)
    ensures |b| == 1 ==> JunitMessage(b) == b[0].message + "\n\n"
    decreases |b|
  {
    if |b| == 1 {
      assert b[..0] == [];
    }
    if |b| > 0 {
      assert (a + b)[..|a + b| - 1] == a + b[..|b| - 1];
      JunitMessageAppend(a, b[..|b| - 1]);
    } else {
      assert a + b == a;
    }
  }

  lemma {:induction false} JunitMessageContains(msgs: seq<TestMessage>, i: nat)
    requires i < |msgs|
    ensures Contains(JunitMessage(msgs), msgs[i].message + "\n\n")
    decreases |msgs|
  {
    var prefix := msgs[..|msgs| - 1];
    var last := msgs[|msgs| - 1].message + "\n\n";
    assert JunitMessage(msgs) == JunitMessage(prefix) + last;
    if i == |msgs| - 1 {
      ContainsItself(last);
      ContainsSuffix(JunitMessage(prefix), last, last);
    } else {
      assert prefix[i] == msgs[i];
      JunitMessageContains(prefix, i);
      ContainsPrefix(JunitMessage(prefix), last, msgs[i].message + "\n\n");
    }
  }

  function ToTestCase(t: TestItem): TestCase {
    TestCase(t.issue, t.confidence, JunitMessage(t.msgs), t.severity)
  }

  /** `get_junit_items`: the items handed in, or the converted ones, one
      case each; nothing to report raises ValueError. */
  function GetJunitItems(testItems: seq<TestItem>, newItems: seq<TestItem>): (r: Result<seq<TestCase>>)
    ensures r.Failure? <==> |testItems| == 0 && |newItems| == 0
    ensures r.Failure? ==> r.error == ValueError("There it no test items")
    ensures r.Success? ==>
      var data := if |newItems| == 0 then testItems else newItems;
      |r.value| == |data|
      && (forall i :: 0 <= i < |data| ==>
            r.value[i].name == data[i].issue && r.value[i].className == data[i].confidence
            && r.value[i].errorType == data[i].severity
            && r.value[i].message == JunitMessage(data[i].msgs)
            && (forall m :: m in data[i].msgs ==> Contains(r.value[i].message, m.message + "\n\n")))
  {
    if |testItems| == 0 && |newItems| == 0 then Failure(ValueError("There it no test items"))
    else
      var data := if |newItems| == 0 then testItems else newItems;
      var cases := seq(|data|, i requires 0 <= i < |data| => ToTestCase(data[i]));
      forall i, m | 0 <= i < |data| && m in data[i].msgs
        ensures Contains(cases[i].message, m.message + "\n\n")
      {
        var k :| 0 <= k < |data[i].msgs| && data[i].msgs[k] == m;
        JunitMessageContains(data[i].msgs, k);
      }
      Success(cases)
  }
}

=== FILE: cx_utils.dfy ===
/** The pure helpers of the static-scanner driver (sast_controller/drivers/cx/utils.py):
    the exclusion predicates that decide which files are packed for a scan,
    and the rendering of the scanner's HTML recommendation lists as ticket
    markup. */
module CxUtils {
  import opened Wrappers
  import opened Strings

  /** `is_not_excluded_type`: a file is excluded when one of the exclusions is
      a case-insensitive suffix of its name; no list, or an empty one,
      excludes nothing. */
  function IsNotExcludedType(file: string, excludeTypes: Option<seq<string>>): (r: bool)
    ensures r <==> excludeTypes.None?
                   || forall i :: 0 <= i < |excludeTypes.value| ==> !IsSuffix(Lower(excludeTypes.value[i]), Lower(file))
  {
    match excludeTypes
    case None => true
    case Some(types) => NoneMatch(t => IsSuffix(Lower(t), Lower(file)), types)
  }

  /** The loop over the exclusions: False at the first one that matches,
      True when none does. */
  function NoneMatch(matches: string -> bool, exclusions: seq<string>): (r: bool)
    ensures r <==> forall i :: 0 <= i < |exclusions| ==> !matches(exclusions[i])
  {
    if |exclusions| == 0 then true
    else if matches(exclusions[0]) then false
    else
      var rest := NoneMatch(matches, exclusions[1..]);
      assert forall i :: 1 <= i < |exclusions| ==> exclusions[i] == exclusions[1..][i - 1];
      rest
  }

  /** `exclude_path.lower().strip() in path.lower()`. */
  predicate ExcludedBy(path: string, exclusion: string) {
    Contains(Lower(path), Strip(Lower(exclusion)))
  }

  /** `is_not_excluded_path`: a path is excluded when one of the exclusions,
      lower-cased and stripped, occurs in the lower-cased path. */
  function IsNotExcludedPath(path: string, excludePaths: Option<seq<string>>): (r: bool)
    ensures r <==> excludePaths.None?
                   || forall i :: 0 <= i < |excludePaths.value| ==> !ExcludedBy(path, excludePaths.value[i])
  {
    match excludePaths
    case None => true
    case Some(paths) => NoneMatch(p => ExcludedBy(path, p), paths)
  }

  /** An empty exclusion list excludes nothing, and an exclusion that is only
      blanks strips to the empty string, which occurs in every path. */
  lemma {:induction false} ExclusionEdges(file: string, blank: string)
    requires forall i :: 0 <= i < |blank| ==> IsSpace(blank[i])
    ensures IsNotExcludedType(file, Some([])) && IsNotExcludedPath(file, Some([]))
    ensures !IsNotExcludedPath(file, Some([blank]))
  {
    BlanksTrimAway(Lower(blank));
    assert IsPrefix(Strip(Lower(blank)), Lower(file)[0..]);
  }

  lemma {:induction false} BlanksTrimAway(s: string)
    requires forall i :: 0 <= i < |s| ==> IsSpace(s[i])
    ensures TrimStart(s) == "" && Strip(s) == ""
    decreases |s|
  {
    if |s| > 0 {
      BlanksTrimAway(s[1..]);
    }
  }

  lemma {:induction false} PrefixOfPrefix(p: string, q: string, s: string)
    requires IsPrefix(p + q, s)
    ensures IsPrefix(p, s)
  {
    assert s[..|p|] == (p + q)[..|p|];
  }

  /** `get_jira_tag`: ordered lists number their items, unordered ones bullet
      them, and every other tag adds nothing. */
  function JiraTag(htmlTag: string): (r: string)
    ensures r == "#" <==> htmlTag == "ol"
    ensures r == "*" <==> htmlTag == "ul"
    ensures htmlTag != "ol" && htmlTag != "ul" ==> r == ""
  {
    if htmlTag == "ol" then "#"
    else if htmlTag == "ul" then "*"
    else ""
  }

  /** A node of the recommendation page: a text string or an element. */
  datatype Node = Text(s: string) | Element(name: string, children: seq<Node>)

  predicate IsListTag(name: string) {
    name == "li" || name == "ol" || name == "ul"
  }

  /** `child.find('li') or child.find('ol') or child.find('ul')`: some
      descendant element is a list or list item. */
  predicate HasListDescendant(children: seq<Node>)
    decreases children
  {
    if |children| == 0 then false
    else
      match children[0]
      case Text(_) => HasListDescendant(children[1..])
      case Element(n, cs) => IsListTag(n) || HasListDescendant(cs) || HasListDescendant(children[1..])
  }

  /** `child.find(text=True, recursive=False)`: the first text child,
      formatted as "None" when there is none. */
  function DirectText(children: seq<Node>): string
    decreases children
  {
    if |children| == 0 then "None"
    else
      match children[0]
      case Text(s) => s
      case Element(_, _) => DirectText(children[1..])
  }

  /** `child.text`: all descendant text in document order. */
  function AllText(children: seq<Node>): string
    decreases children
  {
    if |children| == 0 then ""
    else
      match children[0]
      case Text(s) => s + AllText(children[1..])
      case Element(_, cs) => AllText(cs) + AllText(children[1..])
  }

  /** One rendered list item: its marker prefix and its text. */
  datatype Item = Item(marker: string, text: string)

  /** The number of list items among the descendants. */
  function ItemCount(children: seq<Node>): nat
    decreases children
  {
    if |children| == 0 then 0
    else
      match children[0]
      case Text(_) => ItemCount(children[1..])
      case Element(n, cs) => (if n == "li" then 1 else 0) + ItemCount(cs) + ItemCount(children[1..])
  }

  lemma {:induction false} NoListNoItems(children: seq<Node>)
    requires !HasListDescendant(children)
    ensures ItemCount(children) == 0
    decreases children
  {
    if |children| > 0 {
      NoListNoItems(children[1..]);
      match children[0]
      case Text(_) =>
      case Element(_, cs) => NoListNoItems(cs);
    }
  }

  /** `_get_recommendations` on an element: its children rendered with the
      marker of the element's tag appended to the one inherited. Every item
      carries the inherited marker as a prefix, and there is exactly one item
      per list item below the element. */
  function ElementItems(name: string, children: seq<Node>, parentTag: string): (items: seq<Item>)
    ensures forall i :: 0 <= i < |items| ==> IsPrefix(parentTag, items[i].marker)
    ensures |items| == ItemCount(children)
    decreases children, 1
  {
    var items := ChildItems(children, parentTag + JiraTag(name));
    forall i | 0 <= i < |items|
      ensures IsPrefix(parentTag, items[i].marker)
    {
      PrefixOfPrefix(parentTag, JiraTag(name), items[i].marker);
    }
    items
  }

  /** The loop over an element's children: strings are skipped; a list item
      yields one item, followed by its nested items when it holds lists; any
      other element is rendered recursively. */
  function ChildItems(children: seq<Node>, tag: string): (items: seq<Item>)
    ensures forall i :: 0 <= i < |items| ==> IsPrefix(tag, items[i].marker)
    ensures |items| == ItemCount(children)
    decreases children, 0
  {
    if |children| == 0 then []
    else
      var rest := ChildItems(children[1..], tag);
      match children[0]
      case Text(_) => rest
      case Element(n, cs) =>
        if n == "li" then
          if HasListDescendant(cs) then
            [Item(tag, DirectText(cs))] + ElementItems(n, cs, tag) + rest
          else
            NoListNoItems(cs);
            [Item(tag, Strip(AllText(cs)))] + rest
        else
          ElementItems(n, cs, tag) + rest
  }

  /** The text a list item renders as: its own first text when it holds a
      nested list, all of its text with blanks stripped otherwise. */
  function ItemText(cs: seq<Node>): string {
    if HasListDescendant(cs) then DirectText(cs) else Strip(AllText(cs))
  }

  /** Reference walk over the tree in document order: every `li` element
      yields one item, marked with the tags of the lists that enclose it and
      carrying its item text, followed by the items below it. */
  function TreeItems(children: seq<Node>, tag: string): seq<Item>
    decreases children
  {
    if |children| == 0 then []
    else
      match children[0]
      case Text(_) => TreeItems(children[1..], tag)
      case Element(n, cs) =>
        (if n == "li" then [Item(tag, ItemText(cs))] else [])
        + TreeItems(cs, tag + JiraTag(n)) + TreeItems(children[1..], tag)
  }

  /** The markers of a sequence of items, in order. */
  function Markers(items: seq<Item>): (r: seq<string>)
    ensures |r| == |items|
  {
    if |items| == 0 then [] else [items[0].marker] + Markers(items[1..])
  }

  /** Reference walk that only records markers: one per `li` element, the
      concatenated tags of the enclosing lists. */
  function LiMarkers(children: seq<Node>, tag: string): seq<string>
    decreases children
  {
    if |children| == 0 then []
    else
      match children[0]
      case Text(_) => LiMarkers(children[1..], tag)
      case Element(n, cs) =>
        (if n == "li" then [tag] else [])
        + LiMarkers(cs, tag + JiraTag(n)) + LiMarkers(children[1..], tag)
  }

  lemma {:induction false} NoListNoTreeItems(children: seq<Node>, tag: string)
    requires !HasListDescendant(children)
    ensures TreeItems(children, tag) == []
    decreases children
  {
    if |children| > 0 {
      NoListNoTreeItems(children[1..], tag);
      match children[0]
      case Text(_) =>
      case Element(n, cs) => NoListNoTreeItems(cs, tag + JiraTag(n));
    }
  }

  /** The recursive renderer emits exactly the items of the reference walk:
      the special case for items without nested lists loses nothing. */
  lemma {:induction false} ChildItemsAreTreeItems(children: seq<Node>, tag: string)
    ensures ChildItems(children, tag) == TreeItems(children, tag)
    decreases children
  {
    if |children| > 0 {
      ChildItemsAreTreeItems(children[1..], tag);
      match children[0]
      case Text(_) =>
      case Element(n, cs) =>
        ChildItemsAreTreeItems(cs, tag + JiraTag(n));
        if n == "li" && !HasListDescendant(cs) {
          NoListNoTreeItems(cs, tag + JiraTag(n));
        }
    }
  }

  /** An element's items are the reference walk of its children under the
      marker extended by the element's own tag. */
  lemma ElementItemsAreTreeItems(name: string, children: seq<Node>, parentTag: string)
    ensures ElementItems(name, children, parentTag) == TreeItems(children, parentTag + JiraTag(name))
  {
    ChildItemsAreTreeItems(children, parentTag + JiraTag(name));
  }

  lemma {:induction false} MarkersAppend(x: seq<Item>, y: seq<Item>)
    ensures Markers(x + y) == Markers(x) + Markers(y)
    decreases |x|
  {
    if |x| == 0 {
      assert x + y == y;
    } else {
      assert (x + y)[1..] == x[1..] + y;
      MarkersAppend(x[1..], y);
    }
  }

  lemma {:induction false} TreeMarkers(children: seq<Node>, tag: string)
    ensures Markers(TreeItems(children, tag)) == LiMarkers(children, tag)
    decreases children
  {
    if |children| > 0 {
      TreeMarkers(children[1..], tag);
      match children[0]
      case Text(_) =>
        assert TreeItems(children, tag) == TreeItems(children[1..], tag);
        assert LiMarkers(children, tag) == LiMarkers(children[1..], tag);
      case Element(n, cs) =>
        TreeMarkers(cs, tag + JiraTag(n));
        var head: seq<Item> := if n == "li" then [Item(tag, ItemText(cs))] else [];
        var a := TreeItems(cs, tag + JiraTag(n));
        var b := TreeItems(children[1..], tag);
        assert TreeItems(children, tag) == head + a + b;
        assert Markers(head) == if n == "li" then [tag] else [];
        MarkersAppend(head, a);
        MarkersAppend(head + a, b);
        assert LiMarkers(children, tag) == Markers(head) + Markers(a) + Markers(b);
    }
  }

  /** The markers of the rendered items are those of the reference walk:
      one per list item, made of the enclosing lists' tags. */
  lemma ChildItemsMarkers(children: seq<Node>, tag: string)
    ensures Markers(ChildItems(children, tag)) == LiMarkers(children, tag)
  {
    ChildItemsAreTreeItems(children, tag);
    TreeMarkers(children, tag);
  }

  /** The rendered text: one `marker text` line per item. */
  function Render(items: seq<Item>): string {
    if |items| == 0 then "" else items[0].marker + " " + items[0].text + "\n" + Render(items[1..])
  }

  function Recommendations(name: string, children: seq<Node>, parentTag: string): string {
    Render(ElementItems(name, children, parentTag))
  }

  /** A list item holding only text renders as that text. */
  lemma {:induction false} LeafItem(text: string, tag: string, rest: seq<Node>)
    requires Plain(text)
    ensures ChildItems([Element("li", [Text(text)])] + rest, tag) == [Item(tag, text)] + ChildItems(rest, tag)
  {
    assert ([Element("li", [Text(text)])] + rest)[1..] == rest;
    assert AllText([Text(text)]) == text;
    assert !HasListDescendant([Text(text)]);
    assert TrimStart(text) == text;
  }

  predicate Plain(text: string) {
    |text| > 0 && !IsSpace(text[0]) && !IsSpace(text[|text| - 1])
  }

  lemma {:induction false} BulletedChild(tag: string, c: string)
    requires Plain(c)
    ensures ElementItems("ul", [Element("li", [Text(c)])], tag) == [Item(tag + "*", c)]
  {
    LeafItem(c, tag + "*", []);
  }

  lemma {:induction false} ItemWithNestedList(tag: string, b: string, c: string, rest: seq<Node>)
    requires Plain(c)
    ensures ChildItems([Element("li", [Text(b), Element("ul", [Element("li", [Text(c)])])])] + rest, tag)
         == [Item(tag, b), Item(tag + "*", c)] + ChildItems(rest, tag)
  {
    var ul := Element("ul", [Element("li", [Text(c)])]);
    var cs := [Text(b), ul];
    var li := Element("li", cs);
    BulletedChild(tag, c);
    assert cs[1..] == [ul];
    assert ChildItems([ul], tag) == [Item(tag + "*", c)];
    assert ChildItems(cs, tag) == [Item(tag + "*", c)];
    assert ElementItems("li", cs, tag) == [Item(tag + "*", c)];
    assert HasListDescendant(cs);
    assert ([li] + rest)[1..] == rest;
  }

  /** An ordered list whose second item holds a bulleted list: the nested
      item carries both markers. */
  lemma {:induction false} NestedListExample(a: string, b: string, c: string)
    requires Plain(a) && Plain(c)
    ensures ElementItems("ol", [
        Element("li", [Text(a)]),
        Element("li", [Text(b), Element("ul", [Element("li", [Text(c)])])])
      ], "")
      == [Item("#", a), Item("#", b), Item("#*", c)]
  {
    var li1 := Element("li", [Text(a)]);
    var li2 := Element("li", [Text(b), Element("ul", [Element("li", [Text(c)])])]);
    assert "" + JiraTag("ol") == "#";
    assert ElementItems("ol", [li1, li2], "") == ChildItems([li1, li2], "#");
    LeafItem(a, "#", [li2]);
    assert [li1, li2] == [li1] + [li2];
    assert ChildItems([li1, li2], "#") == [Item("#", a)] + ChildItems([li2], "#");
    ItemWithNestedList("#", b, c, []);
    assert [li2] + [] == [li2];
    assert ChildItems([], "#") == [];
    assert "#" + "*" == "#*";
  }
}

=== FILE: generate_reports.dfy ===
/** The report driver (sast_controller/bin/generate_reports.py): the flag
    parser, the dashboard settings and their validation, the calls made for
    each test item, and the top-level run that converts, sends and writes.
    Environment variables are a map handed in; the connectivity probe, the
    project creation call and the file writes are not modelled beyond
    whether the output directories exist. */
module GenerateReports {
  import opened Wrappers
  import opened Strings
  import opened Assoc
  import opened BaseReport
  import opened TestMessages
  import opened TestItems
  import opened RpWriter
  import opened Converter

  // ---------------------------------------------------------------------
  // `str2bool`
  // ---------------------------------------------------------------------

  const TrueWords: seq<string> := ["yes", "true", "t", "y", "1"]
  const FalseWords: seq<string> := ["no", "false", "f", "n", "0"]

  /** `str2bool`: a case-insensitive yes/no word, anything else raises. */
  function Str2Bool(v: string): (r: Result<bool>)
    ensures r == Success(true) <==> Lower(v) in TrueWords
    ensures r == Success(false) <==> Lower(v) in FalseWords
    ensures r.Failure? <==> Lower(v) !in TrueWords && Lower(v) !in FalseWords
    ensures r.Failure? ==> r.error == Raised("Boolean value expected.")
  {
    WordsDisjoint(Lower(v));
    if Lower(v) in TrueWords then Success(true)
    else if Lower(v) in FalseWords then Success(false)
    else Failure(Raised("Boolean value expected."))
  }

  /** No word is both a yes and a no. */
  lemma {:induction false} WordsDisjoint(w: string)
    ensures !(w in TrueWords && w in FalseWords)
  {
    if w in TrueWords {
      assert w == "yes" || w == "true" || w == "t" || w == "y" || w == "1";
      assert "yes"[0] != "no"[0] && "yes"[0] != "false"[0] && "yes" != "f" && "yes" != "n" && "yes" != "0";
      assert "true"[0] != "no"[0] && "true"[0] != "false"[0] && "true" != "f" && "true" != "n" && "true" != "0";
      assert "t" != "no" && "t" != "false" && "t" != "f" && "t" != "n" && "t" != "0";
      assert "y" != "no" && "y" != "false" && "y" != "f" && "y" != "n" && "y" != "0";
      assert "1" != "no" && "1" != "false" && "1" != "f" && "1" != "n" && "1" != "0";
    }
  }

  lemma {:induction false} LowerIdempotent(s: string)
    ensures Lower(Lower(s)) == Lower(s)
  {
    forall i | 0 <= i < |s|
      ensures LowerChar(LowerChar(s[i])) == LowerChar(s[i])
    {
    }
  }

  /** The answer depends only on the lower-cased text: "YES", "Yes" and
      "yes" all read as true. */
  lemma {:induction false} Str2BoolIgnoresCase(v: string)
    ensures Str2Bool(v) == Str2Bool(Lower(v))
    ensures Str2Bool("YES") == Success(true) && Str2Bool("False") == Success(false)
    ensures Str2Bool("maybe").Failure?
  {
    LowerIdempotent(v);
    assert Lower("YES") == "yes";
    assert Lower("False") == "false";
    var m := Lower("maybe");
    assert m == "maybe";
    assert m !in TrueWords by {
      assert m[0] != "yes"[0] && m[0] != "true"[0] && |m| != 1;
    }
    assert m !in FalseWords by {
      assert m[0] != "no"[0] && m[0] != "false"[0] && |m| != 1;
    }
  }

  // ---------------------------------------------------------------------
  // Dashboard settings (`send_items_to_rp`)
  // ---------------------------------------------------------------------

  type Env = map<string, string>

  datatype Settings = Settings(url: string, project: string, launchName: string, token: string)

  /** An argument when it is non-empty, else the variable, else a default;
      an unset project or token is the empty string, which fails the check
      below exactly as `None` does. */
  function Setting(arg: string, env: Env, name: string, default: string): (r: string)
    ensures arg != "" ==> r == arg
    ensures arg == "" && name in env ==> r == env[name]
    ensures arg == "" && name !in env ==> r == default
  {
    if arg != "" then arg else if name in env then env[name] else default
  }

  function ResolveSettings(url: string, project: string, launchName: string, token: string, env: Env): (s: Settings)
    ensures s.url == Setting(url, env, "REPORT_PORTAL_URL", "")
    ensures s.project == Setting(project, env, "RP_PROJECT", Setting("", env, "PROJECT", ""))
    ensures s.launchName == Setting(launchName, env, "RP_LAUNCH_NAME", "SAST scan")
    ensures s.token == Setting(token, env, "RP_TOKEN", "")
  {
    Settings(
      Setting(url, env, "REPORT_PORTAL_URL", ""),
      Setting(project, env, "RP_PROJECT", Setting("", env, "PROJECT", "")),
      Setting(launchName, env, "RP_LAUNCH_NAME", "SAST scan"),
      Setting(token, env, "RP_TOKEN", ""))
  }

  /** One character of `[a-zA-Z_\-0-9]`. */
  predicate ProjectChar(c: char) {
    ('a' <= c <= 'z') || ('A' <= c <= 'Z') || c == '_' || c == '-' || ('0' <= c <= '9')
  }

  /** `re.fullmatch('[a-zA-Z_\-0-9]+', project)`. */
  function FullMatchProject(p: string): (r: bool)
    ensures r <==> |p| > 0 && forall i :: 0 <= i < |p| ==> ProjectChar(p[i])
  {
    if |p| == 0 then false
    else if |p| == 1 then ProjectChar(p[0])
    else
      var rest := FullMatchProject(p[1..]);
      assert forall i :: 1 <= i < |p| ==> p[i] == p[1..][i - 1];
      ProjectChar(p[0]) && rest
  }

  const MissingSettings := "Please specify REPORT_PORTAL_URL, RP_PROJECT and RP_TOKEN!"
  const BadProjectName := "Only latin letters, numeric characters, underscores and dashes are supported in RP project name."

  /** The checks made before anything is sent: the three settings are
      required, and the project name is a word of letters, digits, `_`
      and `-`. */
  function CheckSettings(s: Settings): (r: Result<Settings>)
    ensures r.Success? <==> s.url != "" && s.project != "" && s.token != "" && FullMatchProject(s.project)
    ensures r.Success? ==> r.value == s
    ensures (s.url == "" || s.project == "" || s.token == "") ==> r == Failure(Raised(MissingSettings))
    ensures s.url != "" && s.project != "" && s.token != "" && !FullMatchProject(s.project) ==> r == Failure(Raised(BadProjectName))
  {
    if !(s.url != "" && s.project != "" && s.token != "") then Failure(Raised(MissingSettings))
    else if !FullMatchProject(s.project) then Failure(Raised(BadProjectName))
    else Success(s)
  }

  /** A name with a space or a dot is refused, a dashed one accepted. */
  lemma {:induction false} ProjectNameExamples()
    ensures !FullMatchProject("my project") && !FullMatchProject("a.b") && !FullMatchProject("")
    ensures FullMatchProject("sast-scan_01")
  {
    assert !ProjectChar("my project"[2]);
    assert !ProjectChar("a.b"[1]);
    var ok := "sast-scan_01";
    forall i | 0 <= i < |ok|
      ensures ProjectChar(ok[i])
    {
      assert ok[i] in "-0123456789_acnst";
    }
  }

  // ---------------------------------------------------------------------
  // The calls made for one item
  // ---------------------------------------------------------------------

  /** The log calls of the ERROR messages, in order. */
  function ErrorLogs(msgs: seq<TestMessage>): seq<Call> {
    if |msgs| == 0 then []
    else (if msgs[0].status == "ERROR" then [Log(Truncate(msgs[0].message), "ERROR", None)] else []) + ErrorLogs(msgs[1..])
  }

  /** The texts of the other messages, in order. */
  function InfoTexts(msgs: seq<TestMessage>): seq<string> {
    if |msgs| == 0 then []
    else (if msgs[0].status == "ERROR" then [] else [msgs[0].message]) + InfoTexts(msgs[1..])
  }

  /** One INFO log call per attachment, named after it. */
  function AttachmentLogs(atts: seq<Attachment>): (cs: seq<Call>)
    ensures |cs| == |atts|
    ensures forall i :: 0 <= i < |atts| ==> cs[i] == Log(Truncate(atts[i].name), "INFO", Some(atts[i]))
  {
    seq(|atts|, i requires 0 <= i < |atts| => Log(Truncate(atts[i].name), "INFO", Some(atts[i])))
  }

  /** The merged INFO message: the distinct texts joined by blank lines. */
  function MarkdownMessage(infos: seq<string>): (m: string)
    ensures IsPrefix("!!!MARKDOWN_MODE!!! ", m)
  {
    "!!!MARKDOWN_MODE!!! " + Join(Dedup(infos), "\n\n") + " "
  }

  /** The calls for one item: start, its ERROR messages one by one, its
      attachments, the merged INFO message and the finish. */
  function ItemCalls(t: TestItem): seq<Call> {
    [StartItem(t.issue, t.description, GetTags(t), GetParams(t))]
    + ErrorLogs(t.msgs)
    + AttachmentLogs(t.attachments)
    + [Log(Truncate(MarkdownMessage(InfoTexts(t.msgs))), "INFO", None), FinishItem("FAILED", DefectIssue(t.defectTypeInfo))]
  }

  /** The writer after some more calls. */
  function Append(w: Writer, cs: seq<Call>): (r: Writer)
    ensures r.calls == w.calls + cs && IsTestStarted(r) == IsTestStarted(w)
  {
    w.(calls := w.calls + cs)
  }

  lemma {:induction false} AppendTwice(w: Writer, a: seq<Call>, b: seq<Call>)
    ensures Append(Append(w, a), b) == Append(w, a + b)
    ensures Append(w, []) == w
  {
    assert w.calls + a + b == w.calls + (a + b);
    assert w.calls + [] == w.calls;
  }

  /** The loop over the messages: ERROR ones are logged, the others are
      kept for the merged message. */
  function LogErrors(w: Writer, msgs: seq<TestMessage>, infos: seq<string>): (r: Result<(Writer, seq<string>)>)
    ensures IsTestStarted(w) ==> r == Success((Append(w, ErrorLogs(msgs)), infos + InfoTexts(msgs)))
    decreases |msgs|
  {
    AppendTwice(w, [], []);
    if |msgs| == 0 then
      assert infos + [] == infos;
      Success((w, infos))
    else if msgs[0].status == "ERROR" then
      var w' :- TestItemMessage(w, msgs[0].message, msgs[0].status, None);
      var r := LogErrors(w', msgs[1..], infos);
      AppendTwice(w, [Log(Truncate(msgs[0].message), "ERROR", None)], ErrorLogs(msgs[1..]));
      assert InfoTexts(msgs) == InfoTexts(msgs[1..]);
      r
    else
      var r := LogErrors(w, msgs[1..], infos + [msgs[0].message]);
      assert ErrorLogs(msgs) == ErrorLogs(msgs[1..]);
      assert infos + InfoTexts(msgs) == infos + [msgs[0].message] + InfoTexts(msgs[1..]);
      r
  }

  function LogAttachments(w: Writer, atts: seq<Attachment>): (r: Result<Writer>)
    ensures IsTestStarted(w) ==> r == Success(Append(w, AttachmentLogs(atts)))
    decreases |atts|
  {
    AppendTwice(w, [], []);
    if |atts| == 0 then
      Success(w)
    else
      var w' :- TestItemMessage(w, atts[0].name, "INFO", Some(atts[0]));
      var r := LogAttachments(w', atts[1..]);
      assert AttachmentLogs(atts) == [Log(Truncate(atts[0].name), "INFO", Some(atts[0]))] + AttachmentLogs(atts[1..]);
      AppendTwice(w, [Log(Truncate(atts[0].name), "INFO", Some(atts[0]))], AttachmentLogs(atts[1..]));
      r
  }

  /** The body of the item loop in `send_items_to_rp`. */
  function SendItem(w: Writer, t: TestItem): (r: Result<Writer>)
    ensures IsTestStarted(w) ==> r == Success(Append(w, ItemCalls(t)))
    ensures !IsTestStarted(w) ==> r.Failure?
  {
    SendItemCalls(w, t);
    SendItemSteps(w, t)
  }

  function SendItemSteps(w: Writer, t: TestItem): Result<Writer> {
    var w1 :- StartTestItem(w, t.issue, t.description, GetTags(t), GetParams(t));
    var p :- LogErrors(w1, t.msgs, []);
    var w3 :- LogAttachments(p.0, t.attachments);
    var w4 :- TestItemMessage(w3, MarkdownMessage(p.1), "INFO", None);
    FinishTestItem(w4, t.defectTypeInfo)
  }

  lemma {:induction false} SendItemCalls(w: Writer, t: TestItem)
    ensures IsTestStarted(w) ==> SendItemSteps(w, t) == Success(Append(w, ItemCalls(t)))
    ensures !IsTestStarted(w) ==> SendItemSteps(w, t).Failure?
  {
    if IsTestStarted(w) {
      var start := [StartItem(t.issue, t.description, GetTags(t), GetParams(t))];
      var errors := ErrorLogs(t.msgs);
      var atts := AttachmentLogs(t.attachments);
      var info := Log(Truncate(MarkdownMessage(InfoTexts(t.msgs))), "INFO", None);
      var finish := FinishItem("FAILED", DefectIssue(t.defectTypeInfo));
      var w1 := Append(w, start);
      assert StartTestItem(w, t.issue, t.description, GetTags(t), GetParams(t)) == Success(w1);
      assert [] + InfoTexts(t.msgs) == InfoTexts(t.msgs);
      var w2 := Append(w1, errors);
      assert LogErrors(w1, t.msgs, []) == Success((w2, InfoTexts(t.msgs)));
      var w3 := Append(w2, atts);
      assert LogAttachments(w2, t.attachments) == Success(w3);
      var w4 := Append(w3, [info]);
      assert TestItemMessage(w3, MarkdownMessage(InfoTexts(t.msgs)), "INFO", None) == Success(w4);
      assert FinishTestItem(w4, t.defectTypeInfo) == Success(Append(w4, [finish]));
      ItemCallsParts(t, w, start, errors, atts, info, finish);
    }
  }

  lemma {:induction false} ItemCallsParts(t: TestItem, w: Writer, start: seq<Call>, errors: seq<Call>, atts: seq<Call>, info: Call, finish: Call)
    requires start == [StartItem(t.issue, t.description, GetTags(t), GetParams(t))] && errors == ErrorLogs(t.msgs)
    requires atts == AttachmentLogs(t.attachments)
    requires info == Log(Truncate(MarkdownMessage(InfoTexts(t.msgs))), "INFO", None)
    requires finish == FinishItem("FAILED", DefectIssue(t.defectTypeInfo))
    ensures Append(Append(Append(Append(Append(w, start), errors), atts), [info]), [finish]) == Append(w, ItemCalls(t))
  {
    AppendTwice(w, start, errors);
    AppendTwice(w, start + errors, atts);
    AppendTwice(w, start + errors + atts, [info]);
    AppendTwice(w, start + errors + atts + [info], [finish]);
    assert start + errors + atts + [info] + [finish] == ItemCalls(t) by {
      AppendPair(start + errors + atts, info, finish);
    }
  }

  lemma {:induction false} AppendPair<T>(s: seq<T>, a: T, b: T)
    ensures s + [a] + [b] == s + [a, b]
  {
  }

  /** The calls of a list of items, item after item. */
  function AllItemCalls(items: seq<TestItem>): seq<Call> {
    if |items| == 0 then [] else AllItemCalls(items[..|items| - 1]) + ItemCalls(items[|items| - 1])
  }

  function SendAll(w: Writer, items: seq<TestItem>): (r: Result<Writer>)
    ensures IsTestStarted(w) ==> r == Success(Append(w, AllItemCalls(items)))
  {
    AppendTwice(w, [], []);
    if |items| == 0 then
      Success(w)
    else
      var w' :- SendAll(w, items[..|items| - 1]);
      var r := SendItem(w', items[|items| - 1]);
      AppendTwice(w, AllItemCalls(items[..|items| - 1]), ItemCalls(items[|items| - 1]));
      r
  }

  /** `send_items_to_rp` once the connection is up: the settings are
      checked, one launch is started, every item is sent in order and the
      launch is finished. */
  function SendItemsToRp(items: seq<TestItem>, url: string, project: string, launchName: string, token: string,
                         launchTags: seq<string>, env: Env): (r: Result<Writer>)
    ensures var s := ResolveSettings(url, project, launchName, token, env);
      r.Success? <==> CheckSettings(s).Success?
    ensures var s := ResolveSettings(url, project, launchName, token, env);
      r.Success? ==>
        !IsTestStarted(r.value)
        && r.value.calls == [StartLaunch(s.launchName, "", launchTags)] + AllItemCalls(items) + [FinishLaunch]
  {
    var s :- CheckSettings(ResolveSettings(url, project, launchName, token, env));
    var w0 := StartTest(NewWriter(s.url, s.token, s.project, s.launchName, "", launchTags));
    var w := SendAll(w0, items).value;
    assert w0.calls == [StartLaunch(s.launchName, "", launchTags)];
    if IsTestStarted(w) then FinishTest(w) else Success(w)
  }

  // ---------------------------------------------------------------------
  // The run (`generate_reports`)
  // ---------------------------------------------------------------------

  /** `repo[:-len('.git')]` when the repository ends in `.git`. */
  function StripGit(repo: string): (r: string)
    ensures IsSuffix(".git", repo) ==> r + ".git" == repo
    ensures !IsSuffix(".git", repo) ==> r == repo
  {
    if IsSuffix(".git", repo) then repo[..|repo| - 4] else repo
  }

  /** The suffix is removed exactly once. */
  lemma {:induction false} StripGitOnce(r: string)
    ensures StripGit(r + ".git") == r
    ensures StripGit("x.git.git") == "x.git"
  {
    var s := r + ".git";
    assert s[|s| - 4..] == ".git";
    assert IsSuffix(".git", s);
    assert s[..|s| - 4] == r;
    var t := "x.git.git";
    assert t[|t| - 4..] == ".git";
    assert t[..|t| - 4] == "x.git";
  }

  /** What a run leaves behind: the repository setting it used, the calls
      made on the dashboard, and the cases and records written. */
  datatype Run = Run(repo: string, sent: Option<Writer>, junit: Option<seq<TestCase>>, json: Option<seq<JsonRecord>>)

  /** `generate_reports`: converts the findings; with no test item nothing
      is sent or written; otherwise the items go to the dashboard when it is
      enabled, the JUnit cases are written when their directory exists, and
      the records when theirs exists. */
  function Generate(env: Env, reportPortal: bool, report: seq<Issue>, outputDirExists: bool, jsonDirExists: bool): (r: Result<Run>)
    ensures GetRpItems(report).Failure? ==> r.Failure?
    ensures GetRpItems(report) == Success([]) ==> r.Success? && r.value.sent.None? && r.value.junit.None? && r.value.json.None?
    ensures r.Success? ==> r.value.repo == StripGit(if "REPO" in env then env["REPO"] else "")
    ensures r.Success? && GetRpItems(report).Success? ==>
      var items := GetRpItems(report).value;
      (r.value.sent.Some? <==> reportPortal && |items| > 0)
      && (r.value.junit.Some? <==> outputDirExists && |items| > 0)
      && (r.value.junit.Some? ==> |r.value.junit.value| == |items|)
      && (r.value.json.Some? <==> jsonDirExists && |items| > 0)
      && (r.value.json.Some? ==> |r.value.json.value| == |items|)
    ensures GetRpItems(report).Success? && |GetRpItems(report).value| > 0 && reportPortal ==>
      (r.Failure? <==> CheckSettings(ResolveSettings("", "", "", "", env)).Failure?)
    ensures GetRpItems(report).Success? && !reportPortal ==> r.Success?
    ensures r.Success? && GetRpItems(report).Success? && |GetRpItems(report).value| > 0 ==>
      Emitted(env, reportPortal, GetRpItems(report).value, outputDirExists, jsonDirExists, r.value)
  {
    var repo := StripGit(if "REPO" in env then env["REPO"] else "");
    var rendered :- GetRpItems(report);
    var items := ItemsOf(rendered);
    if |items| == 0 then Success(Run(repo, None, None, None))
    else Emit(env, reportPortal, repo, rendered, outputDirExists, jsonDirExists)
  }

  /** What a run with test items leaves: with the dashboard enabled, the
      launch holding every item in order under the resolved settings; the
      JUnit cases of the items when their directory exists; the records
      when theirs exists. */
  predicate Emitted(env: Env, reportPortal: bool, rendered: seq<Rendered>, outputDirExists: bool, jsonDirExists: bool, run: Run) {
    var items := ItemsOf(rendered);
    var s := ResolveSettings("", "", "", "", env);
    && (run.sent.Some? <==> reportPortal)
    && (reportPortal ==>
          SendItemsToRp(items, "", "", "", "", [], env).Success?
          && run.sent == Some(SendItemsToRp(items, "", "", "", "", [], env).value)
          && run.sent.value.calls == [StartLaunch(s.launchName, "", [])] + AllItemCalls(items) + [FinishLaunch])
    && (run.junit.Some? <==> outputDirExists)
    && (outputDirExists ==>
          |items| > 0 && run.junit == Some(GetJunitItems(items, []).value) && |run.junit.value| == |items|)
    && (run.json.Some? <==> jsonDirExists)
    && (jsonDirExists ==> run.json == Some(RecordsOf(rendered)))
  }

  /** The outputs of a run with at least one test item: the dashboard
      launch first (its settings failure ends the run before any file is
      written), then the JUnit cases and the records. */
  function Emit(env: Env, reportPortal: bool, repo: string, rendered: seq<Rendered>,
                outputDirExists: bool, jsonDirExists: bool): (r: Result<Run>)
    requires |rendered| > 0
    ensures reportPortal ==> (r.Failure? <==> CheckSettings(ResolveSettings("", "", "", "", env)).Failure?)
    ensures !reportPortal ==> r.Success?
    ensures r.Success? ==> r.value.repo == repo && Emitted(env, reportPortal, rendered, outputDirExists, jsonDirExists, r.value)
  {
    var items := ItemsOf(rendered);
    var sent :- if reportPortal then Lift(SendItemsToRp(items, "", "", "", "", [], env)) else Success(None);
    var cases := GetJunitItems(items, []).value;
    Success(Run(repo, sent, if outputDirExists then Some(cases) else None, if jsonDirExists then Some(RecordsOf(rendered)) else None))
  }

  /** The test items of the renderings, in order. */
  function ItemsOf(rendered: seq<Rendered>): (items: seq<TestItem>)
    ensures |items| == |rendered| && forall i :: 0 <= i < |items| ==> items[i] == rendered[i].item
  {
    Project(rendered, (x: Rendered) => x.item)
  }

  /** The ticket records of the renderings, in order. */
  function RecordsOf(rendered: seq<Rendered>): (records: seq<JsonRecord>)
    ensures |records| == |rendered| && forall i :: 0 <= i < |records| ==> records[i] == rendered[i].record
  {
    Project(rendered, (x: Rendered) => x.record)
  }

  function Lift(r: Result<Writer>): (o: Result<Option<Writer>>)
    ensures o.Success? <==> r.Success?
    ensures r.Success? ==> o.value == Some(r.value)
  {
    match r
    case Success(w) => Success(Some(w))
    case Failure(e) => Failure(e)
  }
}

=== FILE: json_to_jira.dfy ===
/** Ticket creation from the JSON report (sast_controller/bin/json_to_jira.py):
    one ticket per record, in order, once the project is known to exist.
    The tracker is modelled by the tickets handed to it; whether the project
    exists is a parameter. */
module JsonToJira {
  import opened Wrappers
  import opened Assoc
  import opened Tables

  /** A record read back from the JSON report: its string fields by key,
      and its `Tags` list of one-entry (or any-entry) objects when present. */
  datatype JsonItem = JsonItem(fields: seq<(string, string)>, tags: Option<seq<seq<(string, string)>>>)

  /** The fields of one ticket. */
  datatype IssueData = IssueData(
    projectKey: string,
    summary: string,
    description: string,
    issueType: string,
    assignee: string,
    priority: string,
    labels: seq<string>)

  /** What `send_to_jira` leaves behind: the tickets created, in order, and
      the exception that ended the loop, if one did. */
  datatype Outcome = Outcome(created: seq<IssueData>, error: Option<Error>)

  /** The values of one tag object, in its order. */
  function TagValues(tag: seq<(string, string)>): (vs: seq<string>)
    ensures vs == Values(tag)
    ensures |vs| == |tag|
  {
    Values(tag)
  }

  /** `labels.extend(_.values())` for every tag. */
  function Labels(tags: seq<seq<(string, string)>>): (ls: seq<string>)
  {
    if |tags| == 0 then [] else Labels(tags[..|tags| - 1]) + TagValues(tags[|tags| - 1])
  }

  /** Order: the labels of two runs of tags are those of the first run
      followed by those of the second, and one tag gives its values in its
      own order. */
  lemma {:induction false} LabelsAppend(a: seq<seq<(string, string)>>, b: seq<seq<(string, string)>>)
    ensures Labels(a + b) == Labels(a) + Labels(b)
    ensures |b| == 1 ==> Labels(b) == Values(b[0])
    decreases |b|
  {
    if |b| == 1 {
      assert b[..0] == [];
    }
    if |b| > 0 {
      assert (a + b)[..|a + b| - 1] == a + b[..|b| - 1];
      LabelsAppend(a, b[..|b| - 1]);
    } else {
      assert a + b == a;
    }
  }

  /** The labels are the tag values, tag after tag: every value of every
      tag is a label, and every label is the value of some tag. */
  lemma {:induction false} LabelsAreTagValues(tags: seq<seq<(string, string)>>)
    ensures forall i, j :: 0 <= i < |tags| && 0 <= j < |tags[i]| ==> tags[i][j].1 in Labels(tags)
    ensures forall l :: l in Labels(tags) ==> exists i, j :: 0 <= i < |tags| && 0 <= j < |tags[i]| && tags[i][j].1 == l
    decreases |tags|
  {
    if |tags| > 0 {
      var prefix := tags[..|tags| - 1];
      var last := tags[|tags| - 1];
      LabelsAreTagValues(prefix);
      assert Labels(tags) == Labels(prefix) + TagValues(last);
      forall i, j | 0 <= i < |tags| && 0 <= j < |tags[i]|
        ensures tags[i][j].1 in Labels(tags)
      {
        if i < |tags| - 1 {
          assert prefix[i] == tags[i];
        } else {
          assert TagValues(last)[j] == tags[i][j].1;
        }
      }
      forall l | l in Labels(tags)
        ensures exists i, j :: 0 <= i < |tags| && 0 <= j < |tags[i]| && tags[i][j].1 == l
      {
        if l in Labels(prefix) {
          var i, j :| 0 <= i < |prefix| && 0 <= j < |prefix[i]| && prefix[i][j].1 == l;
          assert tags[i] == prefix[i];
        } else {
          var j :| 0 <= j < |TagValues(last)| && TagValues(last)[j] == l;
          assert tags[|tags| - 1][j].1 == l;
        }
      }
    }
  }

  /** The number of labels is the number of tag entries. */
  lemma {:induction false} LabelsCount(tags: seq<seq<(string, string)>>)
    ensures |Labels(tags)| == EntryCount(tags)
    decreases |tags|
  {
    if |tags| > 0 {
      LabelsCount(tags[..|tags| - 1]);
    }
  }

  function EntryCount(tags: seq<seq<(string, string)>>): nat {
    if |tags| == 0 then 0 else EntryCount(tags[..|tags| - 1]) + |tags[|tags| - 1]|
  }

  /** `item[key]`: a missing key raises KeyError. */
  function Field(item: JsonItem, key: string): (r: Result<string>)
    ensures r.Success? <==> key in Keys(item.fields)
    ensures r.Success? ==> Some(r.value) == Get(item.fields, key)
    ensures r.Failure? ==> r.error == KeyError(key)
  {
    match Get(item.fields, key)
    case Some(v) => Success(v)
    case None => Failure(KeyError(key))
  }

  /** `item.get('Jira Name', item['Issue Name'])`: the default is evaluated
      first, so a record without an issue name fails even when it has a
      ticket name. */
  function Summary(item: JsonItem): (r: Result<string>)
    ensures r.Success? <==> "Issue Name" in Keys(item.fields)
    ensures r.Success? ==>
      Some(r.value) == if "Jira Name" in Keys(item.fields) then Get(item.fields, "Jira Name") else Get(item.fields, "Issue Name")
  {
    var issueName :- Field(item, "Issue Name");
    Success(Get(item.fields, "Jira Name").GetOr(issueName))
  }

  /** `PRIORITY_MAPPING.get(severity, priority)`: the table's priority for a
      severity it knows, the record's own otherwise. */
  function TicketPriority(item: JsonItem): (r: Result<string>)
    ensures r.Success? <==> "Issue Severity" in Keys(item.fields) && "Issue Priority" in Keys(item.fields)
    ensures r.Success? ==>
      var severity := Get(item.fields, "Issue Severity").value;
      r.value == if severity in PriorityMapping then PriorityMapping[severity] else Get(item.fields, "Issue Priority").value
  {
    var severity :- Field(item, "Issue Severity");
    var priority :- Field(item, "Issue Priority");
    Success(if severity in PriorityMapping then PriorityMapping[severity] else priority)
  }

  /** The ticket of one record, its fields read in the order of the literal:
      Tags, the summary, Jira Description, then the priority. */
  function IssueDataOf(project: string, assignee: string, defectType: string, item: JsonItem): (r: Result<IssueData>)
    ensures r.Success? <==> item.tags.Some? && Summary(item).Success? && "Jira Description" in Keys(item.fields)
                            && TicketPriority(item).Success?
    ensures r.Success? ==>
      r.value == IssueData(project, Summary(item).value, Get(item.fields, "Jira Description").value, defectType,
                           assignee, TicketPriority(item).value, Labels(item.tags.value))
    ensures item.tags.None? ==> r == Failure(KeyError("Tags"))
  {
    if item.tags.None? then Failure(KeyError("Tags"))
    else
      var summary :- Summary(item);
      var description :- Field(item, "Jira Description");
      var priority :- TicketPriority(item);
      Success(IssueData(project, summary, description, defectType, assignee, priority, Labels(item.tags.value)))
  }

  /** The loop over the records: tickets are created in order until a
      record fails. */
  function CreateAll(project: string, assignee: string, defectType: string, items: seq<JsonItem>): (o: Outcome)
    ensures |o.created| <= |items|
    ensures forall i :: 0 <= i < |o.created| ==> IssueDataOf(project, assignee, defectType, items[i]) == Success(o.created[i])
    ensures o.error.None? ==> |o.created| == |items|
    ensures o.error.Some? ==> |o.created| < |items|
                              && IssueDataOf(project, assignee, defectType, items[|o.created|]) == Failure(o.error.value)
  {
    UntilFailure(item => IssueDataOf(project, assignee, defectType, item), items)
  }

  /** Applies `make` to the records in order, keeping the results, until
      the first failure, which ends the loop. */
  function UntilFailure(make: JsonItem -> Result<IssueData>, items: seq<JsonItem>): (o: Outcome)
    ensures |o.created| <= |items|
    ensures forall i :: 0 <= i < |o.created| ==> make(items[i]) == Success(o.created[i])
    ensures o.error.None? ==> |o.created| == |items|
    ensures o.error.Some? ==> |o.created| < |items| && make(items[|o.created|]) == Failure(o.error.value)
  {
    if |items| == 0 then Outcome([], None)
    else
      match make(items[0])
      case Failure(e) => Outcome([], Some(e))
      case Success(d) =>
        var rest := UntilFailure(make, items[1..]);
        var o := Outcome([d] + rest.created, rest.error);
        assert forall i :: 0 <= i < |o.created| ==> make(items[i]) == Success(o.created[i]) by {
          forall i | 0 < i < |o.created|
            ensures make(items[i]) == Success(o.created[i])
          {
            assert items[1..][i - 1] == items[i] && o.created[i] == rest.created[i - 1];
          }
        }
        assert o.error.Some? ==> make(items[|o.created|]) == Failure(o.error.value) by {
          if o.error.Some? {
            assert items[1..][|rest.created|] == items[|o.created|];
          }
        }
        o
  }

  /** `send_to_jira`: nothing happens unless the project exists. */
  function SendToJira(project: string, assignee: string, defectType: string, items: seq<JsonItem>, projectExists: bool): (o: Outcome)
    ensures !projectExists ==> o == Outcome([], None)
    ensures projectExists ==> o == CreateAll(project, assignee, defectType, items)
  {
    if projectExists then CreateAll(project, assignee, defectType, items) else Outcome([], None)
  }

  /** Well-formed records give one ticket each, in order, with the project,
      type and assignee passed through. */
  lemma {:induction false} OneTicketPerItem(project: string, assignee: string, defectType: string, items: seq<JsonItem>)
    requires forall i :: 0 <= i < |items| ==> IssueDataOf(project, assignee, defectType, items[i]).Success?
    ensures var o := SendToJira(project, assignee, defectType, items, true);
      o.error.None? && |o.created| == |items|
      && forall i :: 0 <= i < |items| ==>
           o.created[i].projectKey == project && o.created[i].issueType == defectType && o.created[i].assignee == assignee
  {
    var o := CreateAll(project, assignee, defectType, items);
    assert o.error.None?;
  }
}

=== FILE: rp_writer.dfy ===
/** The dashboard writer (sast_controller/drivers/rp/report_portal_writer.py):
    a launch that is started and finished around the test items, one log
    call per message, and the defect classification attached when an item
    is finished. The asynchronous service is modelled by the calls it is
    handed, in order; time stamps and the network are not modelled. */
module RpWriter {
  import opened Wrappers
  import opened Strings
  import opened BaseReport
  import opened TestItems

  /** `MAX_MESSAGE_LEN`: the longest message handed to the service. */
  const MaxMessageLen: nat := 30000

  /** The defect classification of a finished item. */
  datatype IssueInfo = IssueInfo(issueType: string, comment: string)

  /** One call made on the service. */
  datatype Call =
    | StartLaunch(name: string, description: string, launchTags: seq<string>)
    | FinishLaunch
    | StartItem(issue: string, description: string, tags: seq<string>, params: Dict)
    | Log(message: string, level: string, attachment: Option<Attachment>)
    | FinishItem(status: string, defect: Option<IssueInfo>)

  /** The writer: its settings, whether a service is open, and the calls
      made so far. */
  datatype Writer = Writer(
    endpoint: string,
    token: string,
    project: string,
    launchName: string,
    launchDoc: string,
    launchTags: seq<string>,
    service: bool,
    calls: seq<Call>)

  /** The constructor: no service yet, nothing sent. */
  function NewWriter(endpoint: string, token: string, project: string, launchName: string,
                     launchDoc: string, launchTags: seq<string>): (w: Writer)
    ensures !IsTestStarted(w) && w.calls == []
    ensures w.endpoint == endpoint && w.token == token && w.project == project
  {
    Writer(endpoint, token, project, launchName, launchDoc, launchTags, false, [])
  }

  /** `is_test_started`: a service is open. */
  predicate IsTestStarted(w: Writer) {
    w.service
  }

  /** `start_test`: opens a service and starts the launch on it. */
  function StartTest(w: Writer): (r: Writer)
    ensures IsTestStarted(r)
    ensures r.calls == w.calls + [StartLaunch(w.launchName, w.launchDoc, w.launchTags)]
    ensures r == w.(service := true, calls := r.calls)
  {
    w.(service := true, calls := w.calls + [StartLaunch(w.launchName, w.launchDoc, w.launchTags)])
  }

  /** `finish_test`: finishes the launch and drops the service; without a
      service the call fails on `None`. */
  function FinishTest(w: Writer): (r: Result<Writer>)
    ensures r.Failure? <==> !IsTestStarted(w)
    ensures r.Failure? ==> r.error == AttributeError
    ensures r.Success? ==> !IsTestStarted(r.value) && r.value == w.(service := false, calls := w.calls + [FinishLaunch])
  {
    if !w.service then Failure(AttributeError)
    else Success(w.(service := false, calls := w.calls + [FinishLaunch]))
  }

  /** `start_test_item`: one item started on the open service. */
  function StartTestItem(w: Writer, issue: string, description: string, tags: seq<string>, params: Dict): (r: Result<Writer>)
    ensures r.Failure? <==> !IsTestStarted(w)
    ensures r.Success? ==> r.value == w.(calls := w.calls + [StartItem(issue, description, tags, params)])
  {
    if !w.service then Failure(AttributeError)
    else Success(w.(calls := w.calls + [StartItem(issue, description, tags, params)]))
  }

  /** `message[:MAX_MESSAGE_LEN]`. */
  function Truncate(message: string): (r: string)
    ensures IsPrefix(r, message)
    ensures |r| == if |message| <= MaxMessageLen then |message| else MaxMessageLen
  {
    if |message| <= MaxMessageLen then message else message[..MaxMessageLen]
  }

  /** A message that fits is sent whole, and truncating twice is truncating
      once. */
  lemma {:induction false} TruncateFits(message: string)
    ensures |message| <= MaxMessageLen ==> Truncate(message) == message
    ensures Truncate(Truncate(message)) == Truncate(message)
    ensures |message| > MaxMessageLen ==> Truncate(message) == message[..MaxMessageLen]
  {
  }

  /** `test_item_message`: one log call with the truncated text. */
  function TestItemMessage(w: Writer, message: string, level: string, attachment: Option<Attachment>): (r: Result<Writer>)
    ensures r.Failure? <==> !IsTestStarted(w)
    ensures r.Success? ==> r.value == w.(calls := w.calls + [Log(Truncate(message), level, attachment)])
  {
    if !w.service then Failure(AttributeError)
    else Success(w.(calls := w.calls + [Log(Truncate(message), level, attachment)]))
  }

  /** The defect codes of the four dashboard defect types. */
  function DefectCode(defectType: string): (r: Option<string>)
    ensures r.Some? <==> defectType in {"To Investigate", "No Defect", "Product Bug", "System Issue"}
  {
    if defectType == "To Investigate" then Some("TI001")
    else if defectType == "No Defect" then Some("ND001")
    else if defectType == "Product Bug" then Some("PB001")
    else if defectType == "System Issue" then Some("SI001")
    else None
  }

  /** Different defect types get different codes. */
  lemma {:induction false} DefectCodeInjective(a: string, b: string)
    requires DefectCode(a).Some? && DefectCode(a) == DefectCode(b)
    ensures a == b
  {
  }

  /** The classification sent for a defect: its code and comment, or none
      for a type outside the table. */
  function DefectIssue(info: DefectInfo): (r: Option<IssueInfo>)
    ensures r.None? <==> DefectCode(info.defectType).None?
    ensures r.Some? ==> r.value == IssueInfo(DefectCode(info.defectType).value, info.comment)
  {
    match DefectCode(info.defectType)
    case Some(code) => Some(IssueInfo(code, info.comment))
    case None => None
  }

  /** `finish_test_item`: every item is finished as FAILED, with the
      classification of its defect type when the type is known. */
  function FinishTestItem(w: Writer, info: DefectInfo): (r: Result<Writer>)
    ensures r.Failure? <==> !IsTestStarted(w)
    ensures r.Success? ==> r.value == w.(calls := w.calls + [FinishItem("FAILED", DefectIssue(info))])
  {
    if !w.service then Failure(AttributeError)
    else Success(w.(calls := w.calls + [FinishItem("FAILED", DefectIssue(info))]))
  }

  /** The started flag across a launch: set by `start_test`, kept by the
      item calls and cleared by `finish_test`. */
  lemma {:induction false} Lifecycle(w: Writer, issue: string, description: string, tags: seq<string>, params: Dict,
                  message: string, level: string, info: DefectInfo)
    ensures var s := StartTest(w);
      IsTestStarted(StartTestItem(s, issue, description, tags, params).value)
      && IsTestStarted(TestItemMessage(s, message, level, None).value)
      && IsTestStarted(FinishTestItem(s, info).value)
      && !IsTestStarted(FinishTest(s).value)
      && FinishTest(FinishTest(s).value).Failure?
  {
  }
}

=== FILE: semver.dfy ===
/** Semantic versions as the dependency canonicaliser compares them
    (`semver.compare` in sast_controller/converters/SnykReport.py), restricted
    to plain `MAJOR.MINOR.PATCH` strings. */
module Semver {
  import opened Wrappers
  import opened Strings

  datatype Version = Version(major: nat, minor: nat, patch: nat)

  function Components(v: Version): seq<string> {
    [NatToString(v.major), NatToString(v.minor), NatToString(v.patch)]
  }

  /** `MAJOR.MINOR.PATCH`. */
  function Format(v: Version): (s: string)
    ensures IsNumeral(NatToString(v.major)) && IsPrefix(NatToString(v.major), s)
  {
    Join(Components(v), ".")
  }

  /** Strict parsing: exactly three dot-separated decimal numerals;
      anything else raises ValueError as `semver.parse` does. */
  function Parse(s: string): (r: Result<Version>)
    ensures r.Success? ==> |Split(s, ".")| == 3 && Join(Split(s, "."), ".") == s
    ensures r.Failure? ==> r.error.ValueError?
  {
    var parts := Split(s, ".");
    if |parts| == 3 && IsNumeral(parts[0]) && IsNumeral(parts[1]) && IsNumeral(parts[2]) then
      Success(Version(ParseNat(parts[0]), ParseNat(parts[1]), ParseNat(parts[2])))
    else
      Failure(ValueError(s + " is not valid SemVer string"))
  }

  /** Parsing a formatted version gives the version back. */
  lemma {:induction false} ParseFormat(v: Version)
    ensures Parse(Format(v)) == Success(v)
  {
    var cs := Components(v);
    forall i | 0 <= i < |cs|
      ensures Lacks(cs[i], '.')
    {
    }
    SplitJoin(cs, '.');
    ParseNatToString(v.major);
    ParseNatToString(v.minor);
    ParseNatToString(v.patch);
  }

  /** The components in order of significance. */
  function Key(v: Version): seq<nat> {
    [v.major, v.minor, v.patch]
  }

  /** Lexicographic order on the numeric components: `a` is below `b` when
      they agree up to some component and `a`'s is smaller there. */
  predicate Lt(a: Version, b: Version) {
    exists k | 0 <= k < 3 :: Key(a)[..k] == Key(b)[..k] && Key(a)[k] < Key(b)[k]
  }

  /** -1, 0 or 1 as `a` is below, equal to or above `b`, comparing major,
      then minor, then patch. */
  function Compare(a: Version, b: Version): (r: int)
    ensures -1 <= r <= 1
    ensures r == 0 <==> a == b
    ensures r == -1 <==> Lt(a, b)
    ensures r == 1 <==> Lt(b, a)
  {
    LtByComponents(a, b);
    LtByComponents(b, a);
    if a.major != b.major then (if a.major < b.major then -1 else 1)
    else if a.minor != b.minor then (if a.minor < b.minor then -1 else 1)
    else if a.patch != b.patch then (if a.patch < b.patch then -1 else 1)
    else 0
  }

  lemma LtByComponents(a: Version, b: Version)
    ensures Lt(a, b) <==>
      || a.major < b.major
      || (a.major == b.major && a.minor < b.minor)
      || (a.major == b.major && a.minor == b.minor && a.patch < b.patch)
  {
    var ka, kb := Key(a), Key(b);
    if a.major < b.major {
      assert ka[..0] == kb[..0];
    } else if a.major == b.major && a.minor < b.minor {
      assert ka[..1] == kb[..1];
    } else if a.major == b.major && a.minor == b.minor && a.patch < b.patch {
      assert ka[..2] == kb[..2];
    }
    if Lt(a, b) {
      var k :| 0 <= k < 3 && ka[..k] == kb[..k] && ka[k] < kb[k];
      if k >= 1 { assert ka[0] == ka[..k][0] == kb[..k][0] == kb[0]; }
      if k == 2 { assert ka[1] == ka[..k][1] == kb[..k][1] == kb[1]; }
    }
  }

  lemma {:induction false} CompareAntisymmetric(a: Version, b: Version)
    ensures Compare(a, b) == -Compare(b, a)
  {
  }

  lemma {:induction false} CompareTransitive(a: Version, b: Version, c: Version)
    requires Compare(a, b) <= 0 && Compare(b, c) <= 0
    ensures Compare(a, c) <= 0
    ensures Compare(a, b) == -1 || Compare(b, c) == -1 ==> Compare(a, c) == -1
  {
  }

  lemma {:induction false} CompareTotal(a: Version, b: Version)
    ensures Compare(a, b) <= 0 || Compare(b, a) <= 0
  {
  }

  /** `semver.compare(s1, s2)`: parses the first string, then the second. */
  function CompareStrings(s1: string, s2: string): (r: Result<int>)
    ensures r.Success? <==> Parse(s1).Success? && Parse(s2).Success?
    ensures r.Success? ==> r.value == Compare(Parse(s1).value, Parse(s2).value)
  {
    var a :- Parse(s1);
    var b :- Parse(s2);
    Success(Compare(a, b))
  }

  /** Versions compare numerically, not as text: 4.17.4 is below 4.17.11. */
  lemma {:induction false} CompareExamples()
    ensures CompareStrings(Format(Version(4, 17, 4)), Format(Version(4, 17, 11))) == Success(-1)
  {
    ParseFormat(Version(4, 17, 4));
    ParseFormat(Version(4, 17, 11));
  }

  /** A parsed version string holds only digits and dots. */
  lemma {:induction false} ParsedLacks(s: string, c: char)
    requires Parse(s).Success? && !IsDigit(c) && c != '.'
    ensures Lacks(s, c)
  {
    var parts := Split(s, ".");
    assert Join(parts[1..], ".") == parts[1] + "." + Join(parts[2..], ".");
    assert s == parts[0] + "." + (parts[1] + "." + parts[2]);
    LacksConcat(parts[1] + ".", parts[2], c);
    LacksConcat(parts[0] + ".", parts[1] + "." + parts[2], c);
  }
}

=== FILE: snyk_report.dfy ===
/** The dependency-scanner canonicaliser (sast_controller/converters/SnykReport.py):
    raw vulnerabilities become canonical records, are grouped by top-level
    module and recommendation, get their recommendation rewritten from the
    highest available upgrade, and lose the paths that run through exactly
    pinned manifest dependencies. */
module SnykReport {
  import opened Wrappers
  import opened Strings
  import opened Assoc
  import opened Tables
  import opened BaseReport
  import Semver

  const ToolName: string := "Snyk"
  const VulnerableSoftware: string := "Vulnerable Software"

  const ReinstallText: string :=
    ReinstallPart1 + ReinstallPart2 + ReinstallPart3 + ReinstallPart4 + ReinstallPart5
  const ReinstallPart1: string := "Your dependencies are out of date. "
  const ReinstallPart2: string := "Please remove your `node_modules` directory "
  const ReinstallPart3: string := "and lock file, run `npm install` and commit "
  const ReinstallPart4: string := "new lock file to your repo. Note, this will "
  const ReinstallPart5: string := "likely make a lot of changes to lock file."

  function DotnetText(moduleName: string): string {
    "Upgrade `" + moduleName + "` to the latest compatible version."
  }

  function UpgradeText(moduleName: string, version: string): string {
    "Upgrade `" + moduleName + "` to version " + version + " or higher"
  }

  /** `semver.vulnerable` is either one range or a list of ranges. */
  datatype VulnerableVersions = OneRange(range: string) | Ranges(ranges: seq<string>)

  /** One entry of the scanner's `vulnerabilities` list. An absent
      `upgradePath` is the empty list, an upgrade entry `false` is None, an
      absent `language` is "", and `cweIds` is `identifiers.CWE`. */
  datatype RawVuln = RawVuln(
    vulnerable: VulnerableVersions,
    severity: string,
    description: string,
    packageName: string,
    version: string,
    title: string,
    fromPath: seq<string>,
    upgradePath: seq<Option<string>>,
    language: string,
    cweIds: seq<string>)

  /** A converted vulnerability while it is grouped and rewritten: the record,
      its dependency paths (a set, in first-seen order), and the fields the
      later stages read. */
  datatype Vuln = Vuln(
    issue: Issue,
    paths: seq<string>,
    fromPath: seq<string>,
    upgrades: seq<Option<string>>,
    language: string,
    topLevelModule: string)

  /** The grouping key `(top_level_module, Recommendations)`. */
  function KeyOf(v: Vuln): (string, string) {
    (v.topLevelModule, v.issue.recommendations)
  }

  function VulnerableText(vv: VulnerableVersions): string {
    match vv
    case OneRange(r) => r
    case Ranges(rs) => Join(rs, ", ")
  }

  /** The parts of `parts` that contain `word`, in order. */
  function PartsWith(parts: seq<string>, word: string): (r: seq<string>)
    ensures forall i :: 0 <= i < |r| ==> Contains(r[i], word) && r[i] in parts
    ensures forall p :: p in parts && Contains(p, word) ==> p in r
  {
    if |parts| == 0 then []
    else
      assert parts == [parts[0]] + parts[1..];
      (if Contains(parts[0], word) then [parts[0]] else []) + PartsWith(parts[1..], word)
  }

  /** The record description: package, versions, the Remediation and
      Overview sections, with `##` and `**Example:**` removed. */
  function DescriptionOf(raw: RawVuln): string {
    var parts := Split(raw.description, "##");
    var remediation := Replace(Join(PartsWith(parts, "Remediation"), " "), "Remediation", "*Remediation:*");
    var overview := Join(PartsWith(parts, "Overview"), " ");
    var text := "*Vulnerable Package:* " + raw.packageName
      + "\n*Current Version:* " + raw.version
      + "\n*Vulnerable Version(s):* " + VulnerableText(raw.vulnerable)
      + "\n \n" + remediation + "\n " + overview + "\n ";
    Replace(Replace(text, "##", ""), "**Example:**", "")
  }

  /** Recommendations and References cut out of a description that has a
      Remediation section: the text between the first and second
      "Remediation", split at "References"; a missing "References" raises
      IndexError. Without a Remediation section the recommendation names
      the top-level dependency and there are no references. */
  function Sections(description: string, topLevel: string): (r: Result<(string, string)>)
    ensures !Contains(description, "Remediation") ==>
      r == Success(("Package " + topLevel + " contains known vulnerabilities", ""))
    ensures r.Failure? ==> r.error == IndexError
    ensures Contains(description, "Remediation") ==>
      var segment := Before(After(description, "Remediation"), "Remediation");
      (r.Failure? <==> !Contains(segment, "References"))
      && (r.Success? ==>
            r.value.0 == Strip(Replace(Before(segment, "References"), "#", ""))
            && r.value.1 == Before(After(segment, "References"), "References"))
  {
    if !Contains(description, "Remediation") then
      Success(("Package " + topLevel + " contains known vulnerabilities", ""))
    else
      SplitParts(description, "Remediation");
      SplitParts(Split(description, "Remediation")[1], "References");
      var sections := Split(Split(description, "Remediation")[1], "References");
      if |sections| < 2 then Failure(IndexError)
      else Success((Strip(Replace(sections[0], "#", "")), sections[1]))
  }

  /** The `Instances` text: the top-level module, and the branch when one
      is set. */
  function InstancesText(moduleName: string, branch: string): (r: string)
    ensures IsPrefix(moduleName, r)
    ensures branch == "" <==> r == moduleName
    ensures branch != "" ==> r == moduleName + "\nBranch: " + branch
  {
    if branch != "" then moduleName + "\nBranch: " + branch else moduleName
  }

  /** The `>`-joined dependency path, the project's version cut off. */
  function PathText(fromPath: seq<string>): string
    requires |fromPath| > 0
  {
    Join([BeforeLast(fromPath[0], '@')] + fromPath[1..], ">")
  }

  function PriorityOf(policy: PolicyTable): string {
    match Get(policy, VulnerableSoftware)
    case Some(entry) => entry.jiraPriority
    case None => "Major"
  }

  /** The record of a vulnerability whose recommendation and references are
      already cut out. */
  function Convert(policy: PolicyTable, branch: string, repo: string, raw: RawVuln, sections: (string, string)): (v: Vuln)
    requires |raw.fromPath| >= 2
    ensures v.topLevelModule == BeforeLast(raw.fromPath[1], '@')
    ensures v.issue.name == raw.title + "." + v.topLevelModule
    ensures v.issue.tags == StandardTags(ToolName)
    ensures v.issue.instances == InstancesText(v.topLevelModule, branch)
    ensures v.paths == [PathText(raw.fromPath)]
    ensures |v.fromPath| == |raw.fromPath| && v.fromPath[1] == raw.fromPath[1]
    ensures v.upgrades == raw.upgradePath && v.language == raw.language
    ensures v.issue.recommendations == sections.0
  {
    var moduleName := BeforeLast(raw.fromPath[1], '@');
    var issue := DefaultIssue(repo).(
      name := raw.title + "." + moduleName,
      priority := PriorityOf(policy),
      severity := Title(raw.severity),
      confidence := "Certain",
      cwe := if |raw.cweIds| > 0 then raw.cweIds[0] else "",
      description := DescriptionOf(raw),
      recommendations := sections.0,
      references := sections.1,
      errorString := moduleName,
      instances := InstancesText(moduleName, branch),
      tags := StandardTags(ToolName),
      jiraName := VulnerableSoftware);
    Vuln(issue, [PathText(raw.fromPath)], [BeforeLast(raw.fromPath[0], '@')] + raw.fromPath[1..],
      raw.upgradePath, raw.language, moduleName)
  }

  /** `get_item`: the canonical record of one raw vulnerability. The policy
      table is None when it could not be read (iterating it raises
      TypeError); `from` must name the project and a top-level dependency,
      or indexing it raises IndexError. */
  function GetItem(policy: Option<PolicyTable>, branch: string, repo: string, raw: RawVuln): (r: Result<Vuln>)
    ensures policy.None? ==> r == Failure(TypeError)
    ensures policy.Some? && |raw.fromPath| < 2 ==> r == Failure(IndexError)
    ensures policy.Some? && |raw.fromPath| >= 2 && !Contains(raw.description, "Remediation") ==> r.Success?
    ensures r.Success? ==>
      && |raw.fromPath| >= 2
      && r.value.topLevelModule == BeforeLast(raw.fromPath[1], '@')
      && r.value.issue.name == raw.title + "." + r.value.topLevelModule
      && r.value.issue.tags == StandardTags(ToolName)
      && r.value.issue.instances == InstancesText(r.value.topLevelModule, branch)
      && r.value.paths == [PathText(raw.fromPath)]
  {
    if policy.None? then Failure(TypeError)
    else if |raw.fromPath| < 2 then Failure(IndexError)
    else
      var sections :- Sections(raw.description, raw.fromPath[1]);
      Success(Convert(policy.value, branch, repo, raw, sections))
  }

  /** The top-level module of `name@version` is `name`. */
  lemma {:induction false} TopLevelModuleOfDependency(name: string, version: string)
    requires Lacks(version, '@')
    ensures BeforeLast(name + "@" + version, '@') == name
  {
    BeforeLastOfJoin(name, '@', version);
  }

  /** Whether grouping drops the vulnerability: no upgrade outside dotnet, or
      an upgrade that leaves the top-level dependency as it is outside js. */
  function Skipped(v: Vuln): (r: Result<bool>)
    ensures |v.upgrades| == 0 ==> r == Success(v.language != "dotnet")
    ensures |v.upgrades| == 1 || (|v.upgrades| >= 2 && |v.fromPath| < 2) ==> r == Failure(IndexError)
    ensures |v.upgrades| >= 2 && |v.fromPath| >= 2 ==>
      r == Success(v.upgrades[1] == Some(v.fromPath[1]) && v.language != "js")
  {
    if |v.upgrades| == 0 then Success(v.language != "dotnet")
    else if |v.upgrades| < 2 || |v.fromPath| < 2 then Failure(IndexError)
    else Success(v.upgrades[1] == Some(v.fromPath[1]) && v.language != "js")
  }

  /** `max_severity`: the severity of strictly higher rank, the second one on
      a tie; an unknown severity makes the comparison raise TypeError. */
  function MaxSeverity(first: string, second: string): (r: Result<string>)
    ensures r.Success? <==> first in SeverityMapping && second in SeverityMapping
    ensures r.Failure? ==> r.error == TypeError
    ensures r.Success? ==> r.value == first || r.value == second
    ensures r.Success? ==> SeverityMapping[r.value] >= SeverityMapping[first]
    ensures r.Success? ==> SeverityMapping[r.value] >= SeverityMapping[second]
    ensures r.Success? && SeverityMapping[first] == SeverityMapping[second] ==> r.value == second
  {
    match (Rank(first), Rank(second))
    case (Some(a), Some(b)) => if a > b then Success(first) else Success(second)
    case _ => Failure(TypeError)
  }

  type Groups = seq<((string, string), Vuln)>

  /** A group is stored under its own key and carries the defect type of its
      severity. */
  predicate GroupOk(k: (string, string), g: Vuln) {
    && KeyOf(g) == k
    && g.issue.severity in SeverityMappingType
    && g.issue.defectType == Some(SeverityMappingType[g.issue.severity])
  }

  predicate GroupsOk(groups: Groups) {
    forall i :: 0 <= i < |groups| ==> GroupOk(groups[i].0, groups[i].1)
  }

  lemma {:induction false} GroupsOkGet(groups: Groups, k: (string, string))
    requires GroupsOk(groups) && Get(groups, k).Some?
    ensures GroupOk(k, Get(groups, k).value)
  {
    var i :| 0 <= i < |groups| && groups[i] == (k, Get(groups, k).value);
    assert GroupOk(groups[i].0, groups[i].1);
  }

  lemma {:induction false} GroupsOkPut(groups: Groups, k: (string, string), g: Vuln)
    requires GroupsOk(groups) && GroupOk(k, g)
    ensures GroupsOk(Put(groups, k, g))
    decreases |groups|
  {
    if |groups| > 0 {
      var r := Put(groups, k, g);
      if groups[0].0 == k {
        assert r == [(k, g)] + groups[1..];
      } else {
        GroupsOkPut(groups[1..], k, g);
        assert r == [groups[0]] + Put(groups[1..], k, g);
      }
    }
  }

  /** A kept key belongs to some kept vulnerability. */
  lemma {:induction false} KeptKeysMember(items: seq<Result<Vuln>>, k: (string, string))
    requires k in KeptKeys(items)
    ensures exists i :: 0 <= i < |items| && Member(items[i], k)
    decreases |items|
  {
    var n := |items| - 1;
    if k in KeptKeys(items[..n]) {
      KeptKeysMember(items[..n], k);
      var i :| 0 <= i < n && Member(items[..n][i], k);
      assert items[..n][i] == items[i];
    } else {
      assert Member(items[n], k);
    }
  }

  /** The first vulnerability with a new key opens its group with the defect
      type of its severity. */
  function Open(groups: Groups, v: Vuln): (r: Result<Groups>)
    requires GroupsOk(groups) && Get(groups, KeyOf(v)).None?
    ensures r.Success? <==> v.issue.severity in SeverityMapping
    ensures r.Failure? ==> r.error == KeyError(v.issue.severity)
    ensures r.Success? ==> GroupsOk(r.value) && Keys(r.value) == Keys(groups) + [KeyOf(v)]
    ensures r.Success? ==> forall k :: k != KeyOf(v) ==> Get(r.value, k) == Get(groups, k)
    ensures r.Success? ==> Get(r.value, KeyOf(v)) == Some(v.(issue := v.issue.(defectType := Some(SeverityMappingType[v.issue.severity]))))
  {
    DefectTypeFollowsRank(v.issue.severity);
    if v.issue.severity in SeverityMappingType then
      var g := v.(issue := v.issue.(defectType := Some(SeverityMappingType[v.issue.severity])));
      GroupsOkPut(groups, KeyOf(v), g);
      Success(Put(groups, KeyOf(v), g))
    else
      Failure(KeyError(v.issue.severity))
  }

  /** A later vulnerability with the same key joins the group: the paths are
      united and the severity is the higher of the two. */
  function JoinGroup(groups: Groups, v: Vuln): (r: Result<Groups>)
    requires GroupsOk(groups) && Get(groups, KeyOf(v)).Some?
    ensures r.Success? <==> v.issue.severity in SeverityMapping
    ensures r.Failure? ==> r.error == TypeError
    ensures r.Success? ==> GroupsOk(r.value) && Keys(r.value) == Keys(groups)
    ensures r.Success? ==> forall k :: k != KeyOf(v) ==> Get(r.value, k) == Get(groups, k)
    ensures r.Success? ==>
      var before := Get(groups, KeyOf(v)).value;
      var after := Get(r.value, KeyOf(v)).value;
      && after.paths == AddAll(before.paths, v.paths)
      && MaxSeverity(before.issue.severity, v.issue.severity) == Success(after.issue.severity)
  {
    var before := Get(groups, KeyOf(v)).value;
    GroupsOkGet(groups, KeyOf(v));
    DefectTypeFollowsRank(before.issue.severity);
    var severity :- MaxSeverity(before.issue.severity, v.issue.severity);
    DefectTypeFollowsRank(severity);
    var g := before.(
      paths := AddAll(before.paths, v.paths),
      issue := before.issue.(severity := severity, defectType := Some(SeverityMappingType[severity])));
    GroupsOkPut(groups, KeyOf(v), g);
    Success(Put(groups, KeyOf(v), g))
  }

  /** Adds one kept vulnerability to the groups. */
  function Merge(groups: Groups, v: Vuln): (r: Result<Groups>)
    requires GroupsOk(groups)
    ensures r.Success? ==> GroupsOk(r.value)
    ensures r.Success? ==> Keys(r.value) == if KeyOf(v) in Keys(groups) then Keys(groups) else Keys(groups) + [KeyOf(v)]
    ensures r.Success? ==> forall k :: k != KeyOf(v) ==> Get(r.value, k) == Get(groups, k)
  {
    if Get(groups, KeyOf(v)).Some? then JoinGroup(groups, v) else Open(groups, v)
  }

  /** Whether a converted vulnerability is kept by grouping under key `k`. */
  predicate Member(item: Result<Vuln>, k: (string, string)) {
    item.Success? && Skipped(item.value) == Success(false) && KeyOf(item.value) == k
  }

  /** The keys of the kept vulnerabilities, in input order. */
  function KeptKeys(items: seq<Result<Vuln>>): seq<(string, string)> {
    if |items| == 0 then []
    else
      var n := |items| - 1;
      KeptKeys(items[..n])
        + if items[n].Success? && Skipped(items[n].value) == Success(false) then [KeyOf(items[n].value)] else []
  }

  /** The grouping loop over the converted vulnerabilities; the first
      conversion, skip test or merge that raises ends it. */
  function GroupItems(items: seq<Result<Vuln>>): (r: Result<Groups>)
    ensures r.Success? ==> GroupsOk(r.value)
    ensures r.Success? ==> Keys(r.value) == Dedup(KeptKeys(items))
    decreases |items|
  {
    if |items| == 0 then Success([])
    else
      var n := |items| - 1;
      var groups :- GroupItems(items[..n]);
      var v :- items[n];
      var skip :- Skipped(v);
      var ks := KeptKeys(items);
      assert items[..n] == items[..|items| - 1];
      if skip then
        assert ks == KeptKeys(items[..n]);
        Success(groups)
      else
        assert ks == KeptKeys(items[..n]) + [KeyOf(v)];
        assert ks[..|ks| - 1] == KeptKeys(items[..n]);
        Merge(groups, v)
  }

  /** `group_vulnerabilities`: one group per distinct key of the kept
      vulnerabilities, in first-seen order. */
  function Group(policy: Option<PolicyTable>, branch: string, repo: string, raws: seq<RawVuln>): (r: Result<Groups>)
    ensures r.Success? ==> GroupsOk(r.value) && Distinct(Keys(r.value))
    ensures r.Success? ==> Keys(r.value) == Dedup(KeptKeys(Converted(policy, branch, repo, raws)))
  {
    GroupItems(Converted(policy, branch, repo, raws))
  }

  function Converted(policy: Option<PolicyTable>, branch: string, repo: string, raws: seq<RawVuln>): (items: seq<Result<Vuln>>)
    ensures |items| == |raws|
    ensures forall i :: 0 <= i < |raws| ==> items[i] == GetItem(policy, branch, repo, raws[i])
  {
    seq(|raws|, i requires 0 <= i < |raws| => GetItem(policy, branch, repo, raws[i]))
  }

  /** One more converted vulnerability: the loop either skips it or merges
      it into the groups of the ones before. */
  lemma {:induction false} GroupItemsStep(items: seq<Result<Vuln>>)
    requires |items| > 0 && GroupItems(items).Success?
    ensures GroupItems(items[..|items| - 1]).Success?
    ensures items[|items| - 1].Success? && Skipped(items[|items| - 1].value).Success?
    ensures GroupItems(items) ==
      if Skipped(items[|items| - 1].value).value then GroupItems(items[..|items| - 1])
      else Merge(GroupItems(items[..|items| - 1]).value, items[|items| - 1].value)
  {
  }

  /** `w` has a group under its key holding all of its paths at a severity
      at least as high as its own. */
  predicate Covers(groups: Groups, w: Vuln) {
    var g := Get(groups, KeyOf(w));
    && g.Some?
    && (forall p :: p in w.paths ==> p in g.value.paths)
    && w.issue.severity in SeverityMapping
    && g.value.issue.severity in SeverityMapping
    && SeverityMapping[w.issue.severity] <= SeverityMapping[g.value.issue.severity]
  }

  /** Every vulnerability of a successful grouping converted and passed the
      skip test; every kept one has a group under its key holding all of its
      paths at a severity at least as high as its own. */
  lemma {:induction false} GroupCovers(items: seq<Result<Vuln>>)
    requires GroupItems(items).Success?
    ensures forall i :: 0 <= i < |items| ==> items[i].Success? && Skipped(items[i].value).Success?
    ensures forall i :: 0 <= i < |items| && Member(items[i], KeyOf(items[i].value)) ==>
      Covers(GroupItems(items).value, items[i].value)
    decreases |items|
  {
    if |items| > 0 {
      var n := |items| - 1;
      var prefix := items[..n];
      GroupItemsStep(items);
      GroupCovers(prefix);
      var groups := GroupItems(prefix).value;
      var after := GroupItems(items).value;
      var v := items[n].value;
      forall i | 0 <= i < |items|
        ensures items[i].Success? && Skipped(items[i].value).Success?
      {
        if i < n {
          assert prefix[i] == items[i];
        }
      }
      forall i | 0 <= i < |items| && Member(items[i], KeyOf(items[i].value))
        ensures Covers(after, items[i].value)
      {
        var w := items[i].value;
        if i < n {
          assert prefix[i] == items[i];
          assert Covers(groups, w);
          if !Skipped(v).value {
            MergeKeepsCover(groups, v, w);
          }
        } else {
          MergeHolds(groups, v);
        }
      }
    }
  }

  lemma {:induction false} MergeKeepsCover(groups: Groups, v: Vuln, w: Vuln)
    requires GroupsOk(groups) && Merge(groups, v).Success? && Covers(groups, w)
    ensures Covers(Merge(groups, v).value, w)
  {
    var k := KeyOf(w);
    MergeGrows(groups, v, k);
    var before := Get(groups, k).value;
    var after := Get(Merge(groups, v).value, k).value;
    forall p | p in w.paths
      ensures p in after.paths
    {
      assert p in before.paths;
    }
  }

  /** A merge never shrinks a group: its paths stay and its severity does not
      drop. */
  lemma {:induction false} MergeGrows(groups: Groups, v: Vuln, k: (string, string))
    requires GroupsOk(groups) && Merge(groups, v).Success? && Get(groups, k).Some?
    ensures
      var before := Get(groups, k).value;
      var after := Get(Merge(groups, v).value, k);
      && after.Some?
      && (forall p :: p in before.paths ==> p in after.value.paths)
      && before.issue.severity in SeverityMapping && after.value.issue.severity in SeverityMapping
      && SeverityMapping[before.issue.severity] <= SeverityMapping[after.value.issue.severity]
  {
    GroupsOkGet(groups, k);
    DefectTypeFollowsRank(Get(groups, k).value.issue.severity);
    GroupsOkGet(Merge(groups, v).value, k);
    DefectTypeFollowsRank(Get(Merge(groups, v).value, k).value.issue.severity);
  }

  /** After a merge the vulnerability's group holds its paths at a severity
      at least its own. */
  lemma {:induction false} MergeHolds(groups: Groups, v: Vuln)
    requires GroupsOk(groups) && Merge(groups, v).Success?
    ensures
      var after := Get(Merge(groups, v).value, KeyOf(v));
      && after.Some?
      && (forall p :: p in v.paths ==> p in after.value.paths)
      && v.issue.severity in SeverityMapping
      && SeverityMapping[v.issue.severity] <= SeverityMapping[after.value.issue.severity]
  {
    GroupsOkGet(Merge(groups, v).value, KeyOf(v));
    DefectTypeFollowsRank(Get(Merge(groups, v).value, KeyOf(v)).value.issue.severity);
  }

  /** `p` is a path of some kept vulnerability with key `k`. */
  ghost predicate PathFrom(items: seq<Result<Vuln>>, k: (string, string), p: string) {
    exists i :: 0 <= i < |items| && Member(items[i], k) && p in items[i].value.paths
  }

  /** `s` is the severity of some kept vulnerability with key `k`. */
  ghost predicate SeverityFrom(items: seq<Result<Vuln>>, k: (string, string), s: string) {
    exists i :: 0 <= i < |items| && Member(items[i], k) && items[i].value.issue.severity == s
  }

  lemma {:induction false} FromExtend(items: seq<Result<Vuln>>, k: (string, string), p: string, s: string)
    requires |items| > 0
    ensures PathFrom(items[..|items| - 1], k, p) ==> PathFrom(items, k, p)
    ensures SeverityFrom(items[..|items| - 1], k, s) ==> SeverityFrom(items, k, s)
  {
    var prefix := items[..|items| - 1];
    if PathFrom(prefix, k, p) {
      var i :| 0 <= i < |prefix| && Member(prefix[i], k) && p in prefix[i].value.paths;
      assert items[i] == prefix[i];
    }
    if SeverityFrom(prefix, k, s) {
      var i :| 0 <= i < |prefix| && Member(prefix[i], k) && prefix[i].value.issue.severity == s;
      assert items[i] == prefix[i];
    }
  }

  lemma {:induction false} FromLast(items: seq<Result<Vuln>>, k: (string, string), p: string)
    requires |items| > 0 && Member(items[|items| - 1], k)
    ensures p in items[|items| - 1].value.paths ==> PathFrom(items, k, p)
    ensures SeverityFrom(items, k, items[|items| - 1].value.issue.severity)
  {
  }

  /** After a merge, the vulnerability's group has only paths of the
      vulnerability or of the group before, and the severity of one of
      them. */
  lemma {:induction false} MergeSource(groups: Groups, v: Vuln)
    requires GroupsOk(groups) && Merge(groups, v).Success?
    ensures
      var after := Get(Merge(groups, v).value, KeyOf(v));
      var before := Get(groups, KeyOf(v));
      && after.Some?
      && (forall p :: p in after.value.paths ==> p in v.paths || (before.Some? && p in before.value.paths))
      && (after.value.issue.severity == v.issue.severity
          || (before.Some? && after.value.issue.severity == before.value.issue.severity))
  {
  }

  /** Every path and the severity of every group come from kept
      vulnerabilities with that group's key. */
  lemma {:induction false} GroupSound(items: seq<Result<Vuln>>, k: (string, string))
    requires GroupItems(items).Success? && Get(GroupItems(items).value, k).Some?
    ensures
      var g := Get(GroupItems(items).value, k).value;
      && (forall p :: p in g.paths ==> PathFrom(items, k, p))
      && SeverityFrom(items, k, g.issue.severity)
    decreases |items|
  {
    var n := |items| - 1;
    var prefix := items[..n];
    var x := items[n];
    GroupItemsStep(items);
    var groups := GroupItems(prefix).value;
    var g := Get(GroupItems(items).value, k).value;
    var before := Get(groups, k);
    if before.Some? {
      GroupSound(prefix, k);
    }
    if !Skipped(x.value).value && KeyOf(x.value) == k {
      MergeSource(groups, x.value);
      assert Member(x, k);
      forall p | p in g.paths
        ensures PathFrom(items, k, p)
      {
        FromLast(items, k, p);
        FromExtend(items, k, p, "");
      }
      FromLast(items, k, "");
      if before.Some? {
        FromExtend(items, k, "", before.value.issue.severity);
      }
    } else {
      assert Get(GroupItems(items).value, k) == before;
      forall p | p in g.paths
        ensures PathFrom(items, k, p)
      {
        FromExtend(items, k, p, "");
      }
      FromExtend(items, k, "", g.issue.severity);
    }
  }

  // ---- update_recommendations ----

  /** The highest upgrade seen so far for each top-level dependency
      (`from[1]`); an upgrade entry `false` is None. */
  type RecTable = seq<(string, Option<string>)>

  /** `u.split('@')[-1]`: the version part; `false` has no `split`. */
  function VersionText(u: Option<string>): (r: Result<string>)
    ensures r.Success? <==> u.Some?
    ensures r.Success? ==> r.value == AfterLast(u.value, '@')
    ensures r.Failure? ==> r.error == AttributeError
  {
    if u.None? then Failure(AttributeError) else Success(AfterLast(u.value, '@'))
  }

  function Tail(u: Option<string>): Option<string> {
    if u.None? then None else Some(AfterLast(u.value, '@'))
  }

  /** A vulnerability with an upgrade path and a top-level dependency. */
  predicate Upgradable(v: Vuln) {
    |v.upgrades| >= 2 && |v.fromPath| >= 2
  }

  /** The parsed version of the vulnerability's first upgrade. */
  function UpgradeVersion(v: Vuln): Result<Semver.Version>
    requires |v.upgrades| >= 2
  {
    var t :- VersionText(v.upgrades[1]);
    Semver.Parse(t)
  }

  /** One step of the first loop: the first upgrade of a dependency is
      recorded as it is, later ones replace it when their version is not
      lower. */
  function RecordUpgrade(recs: RecTable, v: Vuln): (r: Result<RecTable>)
    ensures r.Success? && |v.upgrades| == 0 ==> r.value == recs
    ensures r.Success? && |v.upgrades| > 0 ==> Upgradable(v) && v.fromPath[1] in Keys(r.value)
    ensures r.Success? ==> forall k :: k in Keys(recs) ==> k in Keys(r.value)
  {
    if |v.upgrades| == 0 then Success(recs)
    else if |v.upgrades| < 2 || |v.fromPath| < 2 then Failure(IndexError)
    else
      var k := v.fromPath[1];
      var up := v.upgrades[1];
      match Get(recs, k)
      case None => Success(Put(recs, k, up))
      case Some(cur) =>
        if up.None? then Failure(AttributeError)
        else
          var upVer := AfterLast(up.value, '@');
          var curVer :- VersionText(cur);
          var c :- Semver.CompareStrings(upVer, curVer);
          var maxVer := if c == -1 then curVer else upVer;
          Success(Put(recs, k, Some(BeforeLast(up.value, '@') + "@" + maxVer)))
  }

  /** The first loop of `update_recommendations` over `vs`. */
  function RecordAll(vs: seq<Vuln>): (r: Result<RecTable>)
    decreases |vs|
  {
    if |vs| == 0 then Success([])
    else
      var recs :- RecordAll(vs[..|vs| - 1]);
      RecordUpgrade(recs, vs[|vs| - 1])
  }

  /** The recorded entry for `k` stands for the highest upgrade among the
      vulnerabilities of `vs` with top-level dependency `k`: it is one of
      their upgrades, and none of them is above it. */
  ghost predicate RecordedMax(vs: seq<Vuln>, k: string, rec: Option<string>) {
    && (exists j :: 0 <= j < |vs| && Upgradable(vs[j]) && vs[j].fromPath[1] == k && Tail(vs[j].upgrades[1]) == Tail(rec))
    && (rec.Some? && Semver.Parse(AfterLast(rec.value, '@')).Success? ==>
          forall j :: 0 <= j < |vs| && Upgradable(vs[j]) && vs[j].fromPath[1] == k ==>
            && UpgradeVersion(vs[j]).Success?
            && Semver.Compare(UpgradeVersion(vs[j]).value, Semver.Parse(AfterLast(rec.value, '@')).value) <= 0)
  }

  /** What the first loop knows after `vs`. */
  ghost predicate RecordsOk(vs: seq<Vuln>, recs: RecTable) {
    && (forall j :: 0 <= j < |vs| && |vs[j].upgrades| > 0 ==> Upgradable(vs[j]))
    && (forall j :: 0 <= j < |vs| && |vs[j].upgrades| > 0 ==> Get(recs, vs[j].fromPath[1]).Some?)
    && (forall k :: Get(recs, k).Some? ==> RecordedMax(vs, k, Get(recs, k).value))
  }

  lemma {:induction false} RecordedMaxExtend(vs: seq<Vuln>, v: Vuln, k: string, rec: Option<string>)
    requires RecordedMax(vs, k, rec)
    requires !(Upgradable(v) && v.fromPath[1] == k)
    ensures RecordedMax(vs + [v], k, rec)
  {
    var all := vs + [v];
    var j :| 0 <= j < |vs| && Upgradable(vs[j]) && vs[j].fromPath[1] == k && Tail(vs[j].upgrades[1]) == Tail(rec);
    assert all[j] == vs[j];
    if rec.Some? && Semver.Parse(AfterLast(rec.value, '@')).Success? {
      var m := Semver.Parse(AfterLast(rec.value, '@')).value;
      forall i | 0 <= i < |all| && Upgradable(all[i]) && all[i].fromPath[1] == k
        ensures UpgradeVersion(all[i]).Success? && Semver.Compare(UpgradeVersion(all[i]).value, m) <= 0
      {
        assert i < |vs| && all[i] == vs[i];
      }
    }
  }

  /** The first recorded upgrade of a dependency is its own maximum. */
  lemma {:induction false} RecordedMaxFirst(vs: seq<Vuln>, v: Vuln)
    requires Upgradable(v)
    requires forall j :: 0 <= j < |vs| && Upgradable(vs[j]) ==> vs[j].fromPath[1] != v.fromPath[1]
    ensures RecordedMax(vs + [v], v.fromPath[1], v.upgrades[1])
  {
    var all := vs + [v];
    assert all[|vs|] == v;
    var rec := v.upgrades[1];
    if rec.Some? && Semver.Parse(AfterLast(rec.value, '@')).Success? {
      assert forall j :: 0 <= j < |vs| ==> all[j] == vs[j];
      forall j | 0 <= j < |all| && Upgradable(all[j]) && all[j].fromPath[1] == v.fromPath[1]
        ensures UpgradeVersion(all[j]).Success?
        ensures Semver.Compare(UpgradeVersion(all[j]).value, Semver.Parse(AfterLast(rec.value, '@')).value) <= 0
      {
        assert j == |vs|;
      }
    }
  }

  /** A later upgrade of a recorded dependency keeps the recorded entry the
      maximum. */
  lemma {:induction false} RecordedMaxMerge(vs: seq<Vuln>, v: Vuln, cur: Option<string>, next: Option<string>)
    requires Upgradable(v) && RecordedMax(vs, v.fromPath[1], cur)
    requires v.upgrades[1].Some? && cur.Some?
    requires
      var upVer := AfterLast(v.upgrades[1].value, '@');
      var curVer := AfterLast(cur.value, '@');
      && Semver.CompareStrings(upVer, curVer).Success?
      && next == Some(BeforeLast(v.upgrades[1].value, '@') + "@"
           + if Semver.CompareStrings(upVer, curVer).value == -1 then curVer else upVer)
    ensures RecordedMax(vs + [v], v.fromPath[1], next)
  {
    var k := v.fromPath[1];
    var all := vs + [v];
    assert all[|vs|] == v;
    var upVer := AfterLast(v.upgrades[1].value, '@');
    var curVer := AfterLast(cur.value, '@');
    var c := Semver.CompareStrings(upVer, curVer).value;
    var maxVer := if c == -1 then curVer else upVer;
    AfterLastOfJoin(BeforeLast(v.upgrades[1].value, '@'), '@', maxVer);
    assert Tail(next) == Some(maxVer);
    var b := Semver.Parse(curVer).value;
    var m := Semver.Parse(maxVer).value;
    MaxVersion(upVer, curVer);
    if c == -1 {
      var j :| 0 <= j < |vs| && Upgradable(vs[j]) && vs[j].fromPath[1] == k && Tail(vs[j].upgrades[1]) == Tail(cur);
      assert all[j] == vs[j];
    } else {
      assert Tail(all[|vs|].upgrades[1]) == Tail(next);
    }
    assert UpgradeVersion(v) == Semver.Parse(upVer);
    BoundExtend(vs, v, k, b, m);
  }

  /** A bound on the upgrades of `vs` for `k`, raised to `m`, and an
      upgrade of `v` within `m`, bound the upgrades of `vs + [v]`. */
  lemma {:induction false} BoundExtend(vs: seq<Vuln>, v: Vuln, k: string, b: Semver.Version, m: Semver.Version)
    requires forall j :: 0 <= j < |vs| && Upgradable(vs[j]) && vs[j].fromPath[1] == k ==>
      UpgradeVersion(vs[j]).Success? && Semver.Compare(UpgradeVersion(vs[j]).value, b) <= 0
    requires Semver.Compare(b, m) <= 0
    requires Upgradable(v) && v.fromPath[1] == k ==> UpgradeVersion(v).Success? && Semver.Compare(UpgradeVersion(v).value, m) <= 0
    ensures forall j :: 0 <= j < |vs + [v]| && Upgradable((vs + [v])[j]) && (vs + [v])[j].fromPath[1] == k ==>
      UpgradeVersion((vs + [v])[j]).Success? && Semver.Compare(UpgradeVersion((vs + [v])[j]).value, m) <= 0
  {
    var all := vs + [v];
    forall j | 0 <= j < |all| && Upgradable(all[j]) && all[j].fromPath[1] == k
      ensures UpgradeVersion(all[j]).Success? && Semver.Compare(UpgradeVersion(all[j]).value, m) <= 0
    {
      if j < |vs| {
        assert all[j] == vs[j];
        Semver.CompareTransitive(UpgradeVersion(vs[j]).value, b, m);
      } else {
        assert all[j] == v;
      }
    }
  }

  /** The version the merge keeps is the higher of the two. */
  lemma {:induction false} MaxVersion(upVer: string, curVer: string)
    requires Semver.CompareStrings(upVer, curVer).Success?
    ensures
      var maxVer := if Semver.CompareStrings(upVer, curVer).value == -1 then curVer else upVer;
      && Semver.Parse(maxVer).Success?
      && Semver.Compare(Semver.Parse(upVer).value, Semver.Parse(maxVer).value) <= 0
      && Semver.Compare(Semver.Parse(curVer).value, Semver.Parse(maxVer).value) <= 0
  {
    Semver.CompareTotal(Semver.Parse(upVer).value, Semver.Parse(curVer).value);
    Semver.CompareAntisymmetric(Semver.Parse(upVer).value, Semver.Parse(curVer).value);
  }

  lemma {:induction false} RecordUpgradeShape(vs: seq<Vuln>, recs: RecTable, v: Vuln)
    requires RecordsOk(vs, recs) && RecordUpgrade(recs, v).Success?
    ensures forall j :: 0 <= j < |vs + [v]| && |(vs + [v])[j].upgrades| > 0 ==>
      Upgradable((vs + [v])[j]) && Get(RecordUpgrade(recs, v).value, (vs + [v])[j].fromPath[1]).Some?
  {
    var all := vs + [v];
    var r := RecordUpgrade(recs, v).value;
    forall j | 0 <= j < |all| && |all[j].upgrades| > 0
      ensures Upgradable(all[j]) && Get(r, all[j].fromPath[1]).Some?
    {
      if j < |vs| {
        assert all[j] == vs[j];
        assert vs[j].fromPath[1] in Keys(recs);
      } else {
        assert all[j] == v;
      }
    }
  }

  lemma {:induction false} RecordUpgradeMax(vs: seq<Vuln>, recs: RecTable, v: Vuln, k: string)
    requires RecordsOk(vs, recs) && RecordUpgrade(recs, v).Success?
    requires Get(RecordUpgrade(recs, v).value, k).Some?
    ensures RecordedMax(vs + [v], k, Get(RecordUpgrade(recs, v).value, k).value)
  {
    var r := RecordUpgrade(recs, v).value;
    if |v.upgrades| > 0 && k == v.fromPath[1] {
      match Get(recs, k)
      case None =>
        forall j | 0 <= j < |vs| && Upgradable(vs[j])
          ensures vs[j].fromPath[1] != v.fromPath[1]
        {
        }
        RecordedMaxFirst(vs, v);
      case Some(cur) =>
        RecordedMaxMerge(vs, v, cur, Get(r, k).value);
    } else {
      RecordedMaxExtend(vs, v, k, Get(r, k).value);
    }
  }

  lemma {:induction false} RecordUpgradeOk(vs: seq<Vuln>, recs: RecTable, v: Vuln)
    requires RecordsOk(vs, recs) && RecordUpgrade(recs, v).Success?
    ensures RecordsOk(vs + [v], RecordUpgrade(recs, v).value)
  {
    RecordUpgradeShape(vs, recs, v);
    forall k | Get(RecordUpgrade(recs, v).value, k).Some?
      ensures RecordedMax(vs + [v], k, Get(RecordUpgrade(recs, v).value, k).value)
    {
      RecordUpgradeMax(vs, recs, v, k);
    }
  }

  lemma {:induction false} RecordAllOk(vs: seq<Vuln>)
    requires RecordAll(vs).Success?
    ensures RecordsOk(vs, RecordAll(vs).value)
    decreases |vs|
  {
    if |vs| > 0 {
      var n := |vs| - 1;
      RecordAllOk(vs[..n]);
      RecordUpgradeOk(vs[..n], RecordAll(vs[..n]).value, vs[n]);
      SplitLast(vs);
    }
  }

  /** The second loop's text for one vulnerability. */
  function RecommendationFor(v: Vuln, recs: RecTable): (r: Result<string>)
    ensures v.language == "dotnet" ==> r == Success(DotnetText(v.topLevelModule))
    ensures v.language != "dotnet" && |v.fromPath| >= 2 && Get(recs, v.fromPath[1]).None? ==> r == Failure(KeyError(v.fromPath[1]))
    ensures r.Success? && v.language != "dotnet" ==>
      && |v.fromPath| >= 2
      && Get(recs, v.fromPath[1]).Some? && Get(recs, v.fromPath[1]).value.Some?
      && var ms := AfterLast(Get(recs, v.fromPath[1]).value.value, '@');
      && Semver.Parse(ms).Success? && Semver.Parse(AfterLast(v.fromPath[1], '@')).Success?
      && r.value == if Semver.Compare(Semver.Parse(AfterLast(v.fromPath[1], '@')).value, Semver.Parse(ms).value) == -1
           then UpgradeText(v.topLevelModule, ms)
           else ReinstallText
  {
    if v.language == "dotnet" then Success(DotnetText(v.topLevelModule))
    else if |v.fromPath| < 2 then Failure(IndexError)
    else
      match Get(recs, v.fromPath[1])
      case None => Failure(KeyError(v.fromPath[1]))
      case Some(rec) =>
        var recVer :- VersionText(rec);
        var c :- Semver.CompareStrings(AfterLast(v.fromPath[1], '@'), recVer);
        if c == -1 then Success(UpgradeText(v.topLevelModule, recVer))
        else Success(ReinstallText)
  }

  /** The second loop over `vs`: every record's recommendation is replaced,
      nothing else changes. */
  function Rewrite(vs: seq<Vuln>, recs: RecTable): (r: Result<seq<Vuln>>)
    ensures r.Success? ==> |r.value| == |vs|
    ensures r.Success? ==> forall i :: 0 <= i < |vs| ==>
      && RecommendationFor(vs[i], recs).Success?
      && r.value[i] == vs[i].(issue := vs[i].issue.(recommendations := RecommendationFor(vs[i], recs).value))
  {
    if |vs| == 0 then Success([])
    else
      var text :- RecommendationFor(vs[0], recs);
      var rest :- Rewrite(vs[1..], recs);
      var r := [vs[0].(issue := vs[0].issue.(recommendations := text))] + rest;
      assert forall i :: 1 <= i < |vs| ==> vs[i] == vs[1..][i - 1] && r[i] == rest[i - 1];
      Success(r)
  }

  /** `update_recommendations`. */
  function UpdateRecommendations(vs: seq<Vuln>): (r: Result<seq<Vuln>>)
    ensures r.Success? ==> |r.value| == |vs|
    ensures r.Success? ==> forall i :: 0 <= i < |vs| ==>
      r.value[i] == vs[i].(issue := vs[i].issue.(recommendations := r.value[i].issue.recommendations))
  {
    var recs :- RecordAll(vs);
    Rewrite(vs, recs)
  }

  /** The version a dependency is advised to reach: one of the upgrades
      offered for it in `vs`, and none of those is above it. */
  ghost predicate IsMaxUpgrade(vs: seq<Vuln>, k: string, ms: string) {
    && Semver.Parse(ms).Success?
    && (exists j :: 0 <= j < |vs| && Upgradable(vs[j]) && vs[j].fromPath[1] == k && Tail(vs[j].upgrades[1]) == Some(ms))
    && (forall j :: 0 <= j < |vs| && Upgradable(vs[j]) && vs[j].fromPath[1] == k ==>
          UpgradeVersion(vs[j]).Success? && Semver.Compare(UpgradeVersion(vs[j]).value, Semver.Parse(ms).value) <= 0)
  }

  /** After a successful update every dotnet record says "latest compatible
      version", and every other record names the highest upgrade offered
      for its top-level dependency exactly when its current version is below
      it, and asks for a reinstall otherwise. */
  lemma {:induction false} UpdateChoosesMaximum(vs: seq<Vuln>)
    requires UpdateRecommendations(vs).Success?
    ensures forall i :: 0 <= i < |vs| && vs[i].language == "dotnet" ==>
      UpdateRecommendations(vs).value[i].issue.recommendations == DotnetText(vs[i].topLevelModule)
    ensures forall i :: 0 <= i < |vs| && vs[i].language != "dotnet" ==>
      && |vs[i].fromPath| >= 2
      && Semver.Parse(AfterLast(vs[i].fromPath[1], '@')).Success?
      && exists ms :: IsMaxUpgrade(vs, vs[i].fromPath[1], ms)
           && UpdateRecommendations(vs).value[i].issue.recommendations ==
                if Semver.Compare(Semver.Parse(AfterLast(vs[i].fromPath[1], '@')).value, Semver.Parse(ms).value) == -1
                then UpgradeText(vs[i].topLevelModule, ms)
                else ReinstallText
  {
    var recs := RecordAll(vs).value;
    RecordAllOk(vs);
    var ws := UpdateRecommendations(vs).value;
    forall i | 0 <= i < |vs| && vs[i].language != "dotnet"
      ensures
        && |vs[i].fromPath| >= 2
        && Semver.Parse(AfterLast(vs[i].fromPath[1], '@')).Success?
        && exists ms :: IsMaxUpgrade(vs, vs[i].fromPath[1], ms)
             && ws[i].issue.recommendations ==
                  if Semver.Compare(Semver.Parse(AfterLast(vs[i].fromPath[1], '@')).value, Semver.Parse(ms).value) == -1
                  then UpgradeText(vs[i].topLevelModule, ms)
                  else ReinstallText
    {
      var k := vs[i].fromPath[1];
      var rec := Get(recs, k).value;
      var ms := AfterLast(rec.value, '@');
      assert RecordedMax(vs, k, rec);
      assert IsMaxUpgrade(vs, k, ms);
    }
  }

  // ---- filter_vulnerable_paths ----

  /** A manifest version without any of `^ ~ > <`: an exact pin. */
  predicate Pinned(version: string) {
    forall i :: 0 <= i < |version| ==> version[i] != '^' && version[i] != '~' && version[i] != '>' && version[i] != '<'
  }

  /** `name@version` for every exactly pinned dependency, in manifest order. */
  function PinnedDeps(deps: seq<(string, string)>): (r: seq<string>)
    ensures |r| <= |deps|
    ensures forall x :: x in r <==> exists i :: 0 <= i < |deps| && Pinned(deps[i].1) && x == deps[i].0 + "@" + deps[i].1
  {
    if |deps| == 0 then []
    else
      var rest := PinnedDeps(deps[1..]);
      assert forall i :: 1 <= i < |deps| ==> deps[i] == deps[1..][i - 1];
      if Pinned(deps[0].1) then [deps[0].0 + "@" + deps[0].1] + rest else rest
  }

  /** `get_exact_top_deps` on the manifest's `dependencies` (None when there
      is no manifest file). */
  function ExactTopDeps(manifest: Option<seq<(string, string)>>): (r: seq<string>)
    ensures manifest.None? ==> r == []
    ensures manifest.Some? ==> forall x :: x in r <==>
      exists i :: 0 <= i < |manifest.value| && Pinned(manifest.value[i].1)
        && x == manifest.value[i].0 + "@" + manifest.value[i].1
  {
    if manifest.None? then [] else PinnedDeps(manifest.value)
  }

  /** The path runs through a pinned dependency below the top level: some
      `>`-segment at index 2 or later is one of them. */
  predicate ThroughPinned(fixed: seq<string>, path: string) {
    var segments := Split(path, ">");
    exists j :: 2 <= j < |segments| && segments[j] in fixed
  }

  /** The paths that survive: a path goes only when it runs through a pinned
      dependency and the recommendation asks for a reinstall. */
  function KeepPaths(fixed: seq<string>, recommendation: string, paths: seq<string>): (r: seq<string>)
    ensures forall p :: p in r <==> p in paths && !(ThroughPinned(fixed, p) && Contains(recommendation, "Re-install"))
    ensures !Contains(recommendation, "Re-install") ==> r == paths
  {
    if |paths| == 0 then []
    else
      var rest := KeepPaths(fixed, recommendation, paths[1..]);
      assert paths == [paths[0]] + paths[1..];
      if ThroughPinned(fixed, paths[0]) && Contains(recommendation, "Re-install") then rest
      else [paths[0]] + rest
  }

  /** Each entry keeps its surviving paths; entries left without paths
      are dropped, order kept. */
  function FilterEach(fixed: seq<string>, vs: seq<Vuln>): (r: seq<Vuln>)
    ensures |r| <= |vs|
    ensures forall w :: w in r ==> |w.paths| > 0
  {
    if |vs| == 0 then []
    else
      var v := vs[0];
      var kept := KeepPaths(fixed, v.issue.recommendations, v.paths);
      var rest := FilterEach(fixed, vs[1..]);
      if |kept| > 0 then [v.(paths := kept)] + rest else rest
  }

  /** One entry: kept with its surviving paths, or dropped when none survive. */
  lemma {:induction false} FilterEachSingle(fixed: seq<string>, v: Vuln)
    ensures var kept := KeepPaths(fixed, v.issue.recommendations, v.paths);
      FilterEach(fixed, [v]) == if |kept| > 0 then [v.(paths := kept)] else []
  {
    assert [v][1..] == [];
  }

  /** The filter treats entries independently: filtering a concatenation is
      concatenating the filtered parts. */
  lemma {:induction false} FilterEachAppend(fixed: seq<string>, a: seq<Vuln>, b: seq<Vuln>)
    ensures FilterEach(fixed, a + b) == FilterEach(fixed, a) + FilterEach(fixed, b)
    decreases |a|
  {
    if |a| == 0 {
      assert a + b == b;
    } else {
      assert (a + b)[0] == a[0];
      assert (a + b)[1..] == a[1..] + b;
      FilterEachAppend(fixed, a[1..], b);
    }
  }

  /** Every survivor is an input entry carrying only its surviving paths. */
  lemma {:induction false} FilterEachSource(fixed: seq<string>, vs: seq<Vuln>)
    ensures forall w :: w in FilterEach(fixed, vs) ==>
      exists i :: 0 <= i < |vs| && w == vs[i].(paths := KeepPaths(fixed, vs[i].issue.recommendations, vs[i].paths))
  {
    if |vs| > 0 {
      var rest := FilterEach(fixed, vs[1..]);
      FilterEachSource(fixed, vs[1..]);
      forall w | w in FilterEach(fixed, vs)
        ensures exists i :: 0 <= i < |vs| && w == vs[i].(paths := KeepPaths(fixed, vs[i].issue.recommendations, vs[i].paths))
      {
        if w in rest {
          var i :| 0 <= i < |vs[1..]| && w == vs[1..][i].(paths := KeepPaths(fixed, vs[1..][i].issue.recommendations, vs[1..][i].paths));
          assert vs[i + 1] == vs[1..][i];
        } else {
          assert w == vs[0].(paths := KeepPaths(fixed, vs[0].issue.recommendations, vs[0].paths));
        }
      }
    }
  }

  /** Nothing changes when every entry has a path and no recommendation
      asks for a reinstall. */
  lemma {:induction false} FilterEachKeepsAll(fixed: seq<string>, vs: seq<Vuln>)
    requires forall i :: 0 <= i < |vs| ==> |vs[i].paths| > 0 && !Contains(vs[i].issue.recommendations, "Re-install")
    ensures FilterEach(fixed, vs) == vs
  {
    if |vs| > 0 {
      assert forall i :: 0 <= i < |vs[1..]| ==> vs[1..][i] == vs[i + 1];
      FilterEachKeepsAll(fixed, vs[1..]);
      assert vs == [vs[0]] + vs[1..];
    }
  }

  /** `filter_vulnerable_paths`: without pinned dependencies the input comes
      back as it is; otherwise each entry keeps its surviving paths and
      entries left without paths are dropped, order kept. */
  function FilterVulnerablePaths(fixed: seq<string>, vs: seq<Vuln>): (r: seq<Vuln>)
    ensures |fixed| == 0 ==> r == vs
    ensures |fixed| > 0 ==> r == FilterEach(fixed, vs)
  {
    if |fixed| == 0 then vs else FilterEach(fixed, vs)
  }

  /** None of the texts the update writes asks for a reinstall, as long as
      the top-level module names have no capital R (npm package names are
      lower case): so after the update the filter never removes a path. */
  lemma {:induction false} UpdateNeverReinstall(vs: seq<Vuln>)
    requires UpdateRecommendations(vs).Success?
    requires forall i :: 0 <= i < |vs| ==> Lacks(vs[i].topLevelModule, 'R')
    ensures forall i :: 0 <= i < |vs| ==>
      !Contains(UpdateRecommendations(vs).value[i].issue.recommendations, "Re-install")
  {
    UpdateChoosesMaximum(vs);
    forall i | 0 <= i < |vs|
      ensures !Contains(UpdateRecommendations(vs).value[i].issue.recommendations, "Re-install")
    {
      var text := UpdateRecommendations(vs).value[i].issue.recommendations;
      var m := vs[i].topLevelModule;
      if vs[i].language == "dotnet" {
        DotnetTextLacksR(m);
      } else {
        var ms :| IsMaxUpgrade(vs, vs[i].fromPath[1], ms)
          && text == if Semver.Compare(Semver.Parse(AfterLast(vs[i].fromPath[1], '@')).value, Semver.Parse(ms).value) == -1
                     then UpgradeText(m, ms)
                     else ReinstallText;
        Semver.ParsedLacks(ms, 'R');
        UpgradeTextLacksR(m, ms);
        ReinstallLacksR();
      }
      LacksNotContains(text, 'R', "Re-install");
    }
  }

  lemma {:induction false} DotnetTextLacksR(m: string)
    requires Lacks(m, 'R')
    ensures Lacks(DotnetText(m), 'R')
  {
    assert 'R' !in "Upgrade `";
    assert 'R' !in "` to the latest compatible version.";
  }

  lemma {:induction false} UpgradeTextLacksR(m: string, version: string)
    requires Lacks(m, 'R') && Lacks(version, 'R')
    ensures Lacks(UpgradeText(m, version), 'R')
  {
    assert 'R' !in "Upgrade `";
    assert 'R' !in "` to version ";
    assert 'R' !in " or higher";
  }

  lemma {:induction false} ReinstallLacksR()
    ensures Lacks(ReinstallText, 'R')
  {
    Part1LacksR();
    Part2LacksR();
    Part3LacksR();
    Part4LacksR();
    Part5LacksR();
    assert 'R' !in ReinstallText;
  }

  lemma {:induction false} Part1LacksR() ensures 'R' !in ReinstallPart1 {}
  lemma {:induction false} Part2LacksR() ensures 'R' !in ReinstallPart2 {}
  lemma {:induction false} Part3LacksR() ensures 'R' !in ReinstallPart3 {}
  lemma {:induction false} Part4LacksR() ensures 'R' !in ReinstallPart4 {}
  lemma {:induction false} Part5LacksR() ensures 'R' !in ReinstallPart5 {}

  // ---- _canonify ----

  /** The raw report: one project's object, or a list of project objects
      (a missing `vulnerabilities` key is an empty list). */
  datatype SnykInput = OneProject(vulns: seq<RawVuln>) | ManyProjects(projects: seq<seq<RawVuln>>)

  function Concat<T>(xss: seq<seq<T>>): (r: seq<T>)
    ensures forall xs, x :: xs in xss && x in xs ==> x in r
  {
    if |xss| == 0 then [] else xss[0] + Concat(xss[1..])
  }

  /** The project lists are laid end to end in order: concatenating two runs
      of lists is concatenating their results. */
  lemma {:induction false} ConcatAppend<T>(a: seq<seq<T>>, b: seq<seq<T>>)
    ensures Concat(a + b) == Concat(a) + Concat(b)
    decreases |a|
  {
    if |a| == 0 {
      assert a + b == b;
    } else {
      assert (a + b)[0] == a[0];
      assert (a + b)[1..] == a[1..] + b;
      ConcatAppend(a[1..], b);
    }
  }

  /** A single project's list comes through unchanged. */
  lemma {:induction false} ConcatSingle<T>(xs: seq<T>)
    ensures Concat([xs]) == xs
  {
    assert [xs][1..] == [];
  }

  function AllVulns(input: SnykInput): seq<RawVuln> {
    match input
    case OneProject(vs) => vs
    case ManyProjects(ps) => Concat(ps)
  }

  /** The final record: paths joined with blank lines, `from` gone, the
      dependency fields kept. */
  function Finish(v: Vuln): (r: Issue)
    ensures TopLevelModule(r) == Some(v.topLevelModule)
    ensures r.paths == Join(v.paths, "\n\n")
    ensures r == v.issue.(paths := r.paths, extras := r.extras)
  {
    v.issue.(paths := Join(v.paths, "\n\n"), extras := SnykFields(ToolName, v.topLevelModule, v.upgrades, v.language))
  }

  /** `_canonify`: group, rewrite the recommendations, filter, finish. */
  function Canonify(policy: Option<PolicyTable>, branch: string, repo: string,
                    manifest: Option<seq<(string, string)>>, input: SnykInput): (r: Result<seq<Issue>>)
    ensures r.Success? ==> Group(policy, branch, repo, AllVulns(input)).Success?
    ensures r.Success? ==> |r.value| <= |Dedup(KeptKeys(Converted(policy, branch, repo, AllVulns(input))))|
    ensures r.Success? ==>
      var groups := Group(policy, branch, repo, AllVulns(input)).value;
      && UpdateRecommendations(Values(groups)).Success?
      && var kept := FilterVulnerablePaths(ExactTopDeps(manifest), UpdateRecommendations(Values(groups)).value);
         |r.value| == |kept| && forall i :: 0 <= i < |kept| ==> r.value[i] == Finish(kept[i])
  {
    var groups :- Group(policy, branch, repo, AllVulns(input));
    var updated :- UpdateRecommendations(Values(groups));
    var kept := FilterVulnerablePaths(ExactTopDeps(manifest), updated);
    Success(seq(|kept|, i requires 0 <= i < |kept| => Finish(kept[i])))
  }

  /** With npm-style lower-case package names, every group survives to the
      output: one record per distinct (top-level module, recommendation)
      key of the kept vulnerabilities. */
  lemma {:induction false} CanonifyKeepsEveryGroup(policy: Option<PolicyTable>, branch: string, repo: string,
                                manifest: Option<seq<(string, string)>>, input: SnykInput)
    requires Canonify(policy, branch, repo, manifest, input).Success?
    requires forall i :: 0 <= i < |AllVulns(input)| && |AllVulns(input)[i].fromPath| >= 2 ==>
      Lacks(AllVulns(input)[i].fromPath[1], 'R')
    ensures |Canonify(policy, branch, repo, manifest, input).value|
      == |Dedup(KeptKeys(Converted(policy, branch, repo, AllVulns(input))))|
  {
    var raws := AllVulns(input);
    var items := Converted(policy, branch, repo, raws);
    forall i | 0 <= i < |items| && items[i].Success?
      ensures Lacks(items[i].value.topLevelModule, 'R') && |items[i].value.paths| > 0
    {
      GroupMemberFacts(policy, branch, repo, raws, i);
    }
    var groups := GroupItems(items).value;
    GroupsFromItems(items);
    var vs := Values(groups);
    assert Group(policy, branch, repo, raws) == Success(groups);
    assert UpdateRecommendations(vs).Success?;
    UpdateKeepsAll(ExactTopDeps(manifest), vs);
  }

  /** With npm-style lower-case package names, the i-th record is the i-th
      group (groups in first-seen key order), finished with its rewritten
      recommendation; every group sits under its own key and carries the
      defect type of its severity. */
  lemma {:induction false} CanonifyRecords(policy: Option<PolicyTable>, branch: string, repo: string,
                                           manifest: Option<seq<(string, string)>>, input: SnykInput)
    requires Canonify(policy, branch, repo, manifest, input).Success?
    requires forall i :: 0 <= i < |AllVulns(input)| && |AllVulns(input)[i].fromPath| >= 2 ==>
      Lacks(AllVulns(input)[i].fromPath[1], 'R')
    ensures Group(policy, branch, repo, AllVulns(input)).Success?
    ensures var groups := Group(policy, branch, repo, AllVulns(input)).value;
      var out := Canonify(policy, branch, repo, manifest, input).value;
      && Keys(groups) == Dedup(KeptKeys(Converted(policy, branch, repo, AllVulns(input))))
      && |out| == |groups|
      && forall i :: 0 <= i < |groups| ==>
           GroupOk(groups[i].0, groups[i].1)
           && out[i] == Finish(groups[i].1.(issue := groups[i].1.issue.(recommendations := out[i].recommendations)))
  {
    var raws := AllVulns(input);
    var items := Converted(policy, branch, repo, raws);
    forall i | 0 <= i < |items| && items[i].Success?
      ensures Lacks(items[i].value.topLevelModule, 'R') && |items[i].value.paths| > 0
    {
      GroupMemberFacts(policy, branch, repo, raws, i);
    }
    var groups := GroupItems(items).value;
    GroupsFromItems(items);
    var vs := Values(groups);
    assert Group(policy, branch, repo, raws) == Success(groups);
    var updated := UpdateRecommendations(vs).value;
    UpdateKeepsAll(ExactTopDeps(manifest), vs);
    var out := Canonify(policy, branch, repo, manifest, input).value;
    forall i | 0 <= i < |groups|
      ensures out[i] == Finish(groups[i].1.(issue := groups[i].1.issue.(recommendations := out[i].recommendations)))
    {
      assert out[i] == Finish(updated[i]);
      assert updated[i] == vs[i].(issue := vs[i].issue.(recommendations := updated[i].issue.recommendations));
    }
  }

  /** Every record's severity is the highest among the kept vulnerabilities
      of its group, and is the severity of one of them. */
  lemma {:induction false} CanonifySeverity(policy: Option<PolicyTable>, branch: string, repo: string,
                                            manifest: Option<seq<(string, string)>>, input: SnykInput, i: nat)
    requires Canonify(policy, branch, repo, manifest, input).Success?
    requires forall i :: 0 <= i < |AllVulns(input)| && |AllVulns(input)[i].fromPath| >= 2 ==>
      Lacks(AllVulns(input)[i].fromPath[1], 'R')
    requires i < |Canonify(policy, branch, repo, manifest, input).value|
    ensures Group(policy, branch, repo, AllVulns(input)).Success?
    ensures var groups := Group(policy, branch, repo, AllVulns(input)).value;
      i < |groups|
      && HighestOf(Converted(policy, branch, repo, AllVulns(input)), groups[i].0,
                   Canonify(policy, branch, repo, manifest, input).value[i].severity)
  {
    CanonifyRecords(policy, branch, repo, manifest, input);
    var items := Converted(policy, branch, repo, AllVulns(input));
    var groups := Group(policy, branch, repo, AllVulns(input)).value;
    assert groups == GroupItems(items).value;
    var out := Canonify(policy, branch, repo, manifest, input).value;
    var g := groups[i].1;
    assert out[i] == Finish(g.(issue := g.issue.(recommendations := out[i].recommendations)));
    assert out[i].severity == g.issue.severity;
    GroupMax(items, i);
  }

  /** `s` is the severity of some kept vulnerability with key `k`, and none
      of them ranks higher. */
  ghost predicate HighestOf(items: seq<Result<Vuln>>, k: (string, string), s: string) {
    && s in SeverityMapping
    && SeverityFrom(items, k, s)
    && forall j :: 0 <= j < |items| && Member(items[j], k) ==>
         items[j].value.issue.severity in SeverityMapping
         && SeverityMapping[items[j].value.issue.severity] <= SeverityMapping[s]
  }

  /** The i-th group's severity is the highest among the kept
      vulnerabilities with its key, and is the severity of one of them. */
  lemma {:induction false} GroupMax(items: seq<Result<Vuln>>, i: nat)
    requires GroupItems(items).Success? && i < |GroupItems(items).value|
    ensures HighestOf(items, GroupItems(items).value[i].0, GroupItems(items).value[i].1.issue.severity)
  {
    var groups := GroupItems(items).value;
    var k := groups[i].0;
    GetAt(groups, i);
    assert GroupOk(groups[i].0, groups[i].1);
    DefectTypeFollowsRank(groups[i].1.issue.severity);
    GroupSound(items, k);
    GroupCovers(items);
    forall j | 0 <= j < |items| && Member(items[j], k)
      ensures items[j].value.issue.severity in SeverityMapping
        && SeverityMapping[items[j].value.issue.severity] <= SeverityMapping[groups[i].1.issue.severity]
    {
      assert Covers(groups, items[j].value);
    }
  }

  /** After the update, the filter keeps every group that has a path. */
  lemma {:induction false} UpdateKeepsAll(fixed: seq<string>, vs: seq<Vuln>)
    requires UpdateRecommendations(vs).Success?
    requires forall i :: 0 <= i < |vs| ==> Lacks(vs[i].topLevelModule, 'R') && |vs[i].paths| > 0
    ensures FilterVulnerablePaths(fixed, UpdateRecommendations(vs).value) == UpdateRecommendations(vs).value
  {
    var updated := UpdateRecommendations(vs).value;
    UpdateNeverReinstall(vs);
    assert forall j :: 0 <= j < |updated| ==> updated[j].paths == vs[j].paths;
    if |fixed| > 0 {
      FilterEachKeepsAll(fixed, updated);
    }
  }

  /** Every group has a path and a top-level module taken from one of its
      members. */
  lemma {:induction false} GroupsFromItems(items: seq<Result<Vuln>>)
    requires GroupItems(items).Success?
    requires forall i :: 0 <= i < |items| && items[i].Success? ==>
      Lacks(items[i].value.topLevelModule, 'R') && |items[i].value.paths| > 0
    ensures forall j :: 0 <= j < |Values(GroupItems(items).value)| ==>
      Lacks(Values(GroupItems(items).value)[j].topLevelModule, 'R')
      && |Values(GroupItems(items).value)[j].paths| > 0
  {
    var groups := GroupItems(items).value;
    var vs := Values(groups);
    GroupCovers(items);
    forall j | 0 <= j < |vs|
      ensures Lacks(vs[j].topLevelModule, 'R') && |vs[j].paths| > 0
    {
      var k := groups[j].0;
      assert GroupOk(groups[j].0, groups[j].1);
      assert k == Keys(groups)[j];
      KeptKeysMember(items, k);
      var i :| 0 <= i < |items| && Member(items[i], k);
      GetAt(groups, j);
      assert items[i].value.paths[0] in groups[j].1.paths;
    }
  }

  lemma {:induction false} GroupMemberFacts(policy: Option<PolicyTable>, branch: string, repo: string, raws: seq<RawVuln>, i: nat)
    requires i < |raws| && GetItem(policy, branch, repo, raws[i]).Success?
    requires |raws[i].fromPath| >= 2 ==> Lacks(raws[i].fromPath[1], 'R')
    ensures Lacks(GetItem(policy, branch, repo, raws[i]).value.topLevelModule, 'R')
    ensures |GetItem(policy, branch, repo, raws[i]).value.paths| > 0
  {
    PrefixLacks(BeforeLast(raws[i].fromPath[1], '@'), raws[i].fromPath[1], 'R');
  }

  lemma {:induction false} PrefixLacks(p: string, s: string, c: char)
    requires IsPrefix(p, s) && Lacks(s, c)
    ensures Lacks(p, c)
  {
    assert forall i :: 0 <= i < |p| ==> p[i] == s[i];
  }
}

=== FILE: sorting.dfy ===
/** Python's `sorted()` over strings: code-point lexicographic order. */
module Sorting {

  /** `a <= b` on Python strings. */
  predicate LexLe(a: string, b: string)
    decreases |a|
  {
    |a| == 0 || (|b| > 0 && (a[0] < b[0] || (a[0] == b[0] && LexLe(a[1..], b[1..]))))
  }

  lemma {:induction false} LexLeTotal(a: string, b: string)
    ensures LexLe(a, b) || LexLe(b, a)
    decreases |a|
  {
    if |a| > 0 && |b| > 0 && a[0] == b[0] {
      LexLeTotal(a[1..], b[1..]);
    }
  }

  lemma {:induction false} LexLeTransitive(a: string, b: string, c: string)
    requires LexLe(a, b) && LexLe(b, c)
    ensures LexLe(a, c)
    decreases |a|
  {
    if |a| > 0 && a[0] == b[0] && b[0] == c[0] {
      LexLeTransitive(a[1..], b[1..], c[1..]);
    }
  }

  lemma {:induction false} LexLeAntisymmetric(a: string, b: string)
    requires LexLe(a, b) && LexLe(b, a)
    ensures a == b
    decreases |a|
  {
    if |a| > 0 {
      LexLeAntisymmetric(a[1..], b[1..]);
      assert a == [a[0]] + a[1..];
      assert b == [b[0]] + b[1..];
    }
  }

  predicate Sorted(s: seq<string>) {
    forall i, j :: 0 <= i < j < |s| ==> LexLe(s[i], s[j])
  }

  function Insert(x: string, s: seq<string>): (r: seq<string>)
    requires Sorted(s)
    ensures Sorted(r)
    ensures multiset(r) == multiset(s) + multiset{x}
  {
    if |s| == 0 then [x]
    else if LexLe(x, s[0]) then
      InsertFront(x, s);
      [x] + s
    else
      var tail := Insert(x, s[1..]);
      LexLeTotal(x, s[0]);
      assert s == [s[0]] + s[1..];
      InsertBehind(s[0], x, s[1..], tail);
      [s[0]] + tail
  }

  lemma {:induction false} InsertFront(x: string, s: seq<string>)
    requires Sorted(s) && |s| > 0 && LexLe(x, s[0])
    ensures Sorted([x] + s)
  {
    forall j | 0 <= j < |s|
      ensures LexLe(x, s[j])
    {
      if j > 0 {
        LexLeTransitive(x, s[0], s[j]);
      }
    }
    var r := [x] + s;
    forall i, j | 0 <= i < j < |r|
      ensures LexLe(r[i], r[j])
    {
      assert r[j] == s[j - 1];
      if i > 0 {
        assert r[i] == s[i - 1];
      }
    }
  }

  lemma {:induction false} InsertBehind(h: string, x: string, rest: seq<string>, tail: seq<string>)
    requires Sorted([h] + rest) && LexLe(h, x)
    requires Sorted(tail) && multiset(tail) == multiset(rest) + multiset{x}
    ensures Sorted([h] + tail)
  {
    forall j | 0 <= j < |tail|
      ensures LexLe(h, tail[j])
    {
      assert tail[j] in multiset(tail);
      if tail[j] != x {
        assert tail[j] in multiset(rest);
        var k :| 0 <= k < |rest| && rest[k] == tail[j];
        assert ([h] + rest)[0] == h;
        assert ([h] + rest)[k + 1] == rest[k];
      }
    }
  }

  /** `sorted(s)`: an ordered permutation of `s`. */
  function Sort(s: seq<string>): (r: seq<string>)
    ensures Sorted(r)
    ensures multiset(r) == multiset(s)
  {
    if |s| == 0 then []
    else
      assert s == s[..|s| - 1] + [s[|s| - 1]];
      Insert(s[|s| - 1], Sort(s[..|s| - 1]))
  }

  /** The head of a sorted sequence is below every element. */
  lemma {:induction false} HeadIsLeast(a: seq<string>, y: string)
    requires Sorted(a) && y in multiset(a)
    ensures LexLe(a[0], y)
  {
    var i :| 0 <= i < |a| && a[i] == y;
    if i == 0 {
      LexLeTotal(y, y);
    }
  }

  lemma {:induction false} DropHead(a: seq<string>)
    requires |a| > 0
    ensures multiset(a[1..]) == multiset(a) - multiset{a[0]}
  {
    assert a == [a[0]] + a[1..];
  }

  /** Two ordered permutations of the same strings are the same sequence, so
      `sorted` output depends only on the multiset of its input. */
  lemma {:induction false} SortedUnique(a: seq<string>, b: seq<string>)
    requires Sorted(a) && Sorted(b) && multiset(a) == multiset(b)
    ensures a == b
    decreases |a|
  {
    if |a| == 0 {
      assert |multiset(b)| == 0;
    } else {
      assert |multiset(b)| == |a|;
      assert a[0] in multiset(b);
      assert b[0] in multiset(a);
      HeadIsLeast(a, b[0]);
      HeadIsLeast(b, a[0]);
      LexLeAntisymmetric(a[0], b[0]);
      DropHead(a);
      DropHead(b);
      SortedTail(a);
      SortedTail(b);
      SortedUnique(a[1..], b[1..]);
      assert a == [a[0]] + a[1..];
      assert b == [b[0]] + b[1..];
    }
  }

  lemma {:induction false} SortedTail(a: seq<string>)
    requires Sorted(a) && |a| > 0
    ensures Sorted(a[1..])
  {
  }

  /** The order of the input does not matter to `sorted`. */
  lemma {:induction false} SortPermutationInvariant(s: seq<string>, t: seq<string>)
    requires multiset(s) == multiset(t)
    ensures Sort(s) == Sort(t)
  {
    SortedUnique(Sort(s), Sort(t));
  }
}

=== FILE: strings.dfy ===
/** The Python `str` operations the pipeline relies on, over `seq<char>`. */
module Strings {
  import opened Wrappers

  predicate IsPrefix(p: string, s: string) {
    |p| <= |s| && s[..|p|] == p
  }

  predicate IsSuffix(p: string, s: string) {
    |p| <= |s| && s[|s| - |p|..] == p
  }

  /** Python's `sub in s`. */
  predicate Contains(s: string, sub: string) {
    exists i | 0 <= i <= |s| :: IsPrefix(sub, s[i..])
  }

  lemma {:induction false} ContainsItself(s: string)
    ensures Contains(s, s)
  {
    assert IsPrefix(s, s[0..]);
  }

  lemma {:induction false} ContainsPrefix(s: string, t: string, sub: string)
    requires Contains(s, sub)
    ensures Contains(s + t, sub)
  {
    var i :| 0 <= i <= |s| && IsPrefix(sub, s[i..]);
    assert (s + t)[i..][..|sub|] == s[i..][..|sub|];
    assert IsPrefix(sub, (s + t)[i..]);
  }

  lemma {:induction false} ContainsSuffix(s: string, t: string, sub: string)
    requires Contains(t, sub)
    ensures Contains(s + t, sub)
  {
    var i :| 0 <= i <= |t| && IsPrefix(sub, t[i..]);
    assert (s + t)[|s| + i..] == t[i..];
    assert IsPrefix(sub, (s + t)[|s| + i..]);
  }

  lemma {:induction false} ContainsNotEmpty(s: string, sub: string)
    requires Contains(s, sub) && |sub| > 0
    ensures |s| > 0
  {
  }

  /** The characters Python's `str.isspace` accepts. */
  predicate IsSpace(c: char) {
    c == ' ' || c == '\t' || c == '\n' || c == '\r' || c == '\U{b}' || c == '\U{c}'
    || ('\U{1c}' <= c <= '\U{1f}')
    || c == '\U{85}' || c == '\U{a0}' || c == '\U{1680}'
    || ('\U{2000}' <= c <= '\U{200a}')
    || c == '\U{2028}' || c == '\U{2029}' || c == '\U{202f}' || c == '\U{205f}' || c == '\U{3000}'
  }

  function TrimStart(s: string): (r: string)
    ensures IsSuffix(r, s)
    ensures |r| > 0 ==> !IsSpace(r[0])
    ensures forall i :: 0 <= i < |s| - |r| ==> IsSpace(s[i])
  {
    if |s| > 0 && IsSpace(s[0]) then TrimStart(s[1..]) else s
  }

  function TrimEnd(s: string): (r: string)
    ensures IsPrefix(r, s)
    ensures |r| > 0 ==> !IsSpace(r[|r| - 1])
    ensures forall i :: |r| <= i < |s| ==> IsSpace(s[i])
  {
    if |s| > 0 && IsSpace(s[|s| - 1]) then TrimEnd(s[..|s| - 1]) else s
  }

  /** Python's `s.strip()`: the slice between the leading and trailing whitespace. */
  function Strip(s: string): (r: string)
    ensures exists i, j :: 0 <= i <= j <= |s| && r == s[i..j]
    ensures |r| > 0 ==> !IsSpace(r[0]) && !IsSpace(r[|r| - 1])
  {
    var t := TrimStart(s);
    var r := TrimEnd(t);
    assert r == s[|s| - |t|..|s| - |t| + |r|];
    r
  }

  function LowerChar(c: char): char {
    if 'A' <= c <= 'Z' then (c as int + 32) as char else c
  }

  function UpperChar(c: char): char {
    if 'a' <= c <= 'z' then (c as int - 32) as char else c
  }

  predicate IsCased(c: char) {
    ('a' <= c <= 'z') || ('A' <= c <= 'Z')
  }

  /** Python's `s.lower()` restricted to ASCII letters. */
  function Lower(s: string): (r: string)
    ensures |r| == |s|
    ensures forall i :: 0 <= i < |s| ==> r[i] == LowerChar(s[i])
  {
    seq(|s|, i requires 0 <= i < |s| => LowerChar(s[i]))
  }

  function TitleFrom(s: string, afterCased: bool): (r: string)
    ensures |r| == |s|
  {
    if |s| == 0 then ""
    else [if afterCased then LowerChar(s[0]) else UpperChar(s[0])] + TitleFrom(s[1..], IsCased(s[0]))
  }

  /** Python's `s.title()` restricted to ASCII letters: a letter is upper-cased
      when the character before it is not a letter, lower-cased otherwise. */
  function Title(s: string): string {
    TitleFrom(s, false)
  }

  /** The first index where `sub` occurs in `s` (Python's `s.find(sub)`). */
  function IndexOf(s: string, sub: string): (r: Option<nat>)
    ensures r.Some? ==> r.value + |sub| <= |s| && IsPrefix(sub, s[r.value..])
    ensures r.Some? ==> forall j :: 0 <= j < r.value ==> !IsPrefix(sub, s[j..])
    ensures r.None? <==> !Contains(s, sub)
    decreases |s|
  {
    if IsPrefix(sub, s) then
      assert IsPrefix(sub, s[0..]);
      Some(0)
    else if |s| == 0 then None
    else
      var rest := IndexOf(s[1..], sub);
      ShiftedSuffixes(s);
      if rest.Some? then Some(rest.value + 1) else None
  }

  lemma {:induction false} ShiftedSuffixes(s: string)
    requires |s| > 0
    ensures forall j :: 1 <= j <= |s| ==> s[1..][j - 1..] == s[j..]
  {
  }

  /** A prefix of `s[..k]` starting at `j` is a prefix of `s` starting at `j`. */
  lemma {:induction false} PrefixOfCut(s: string, k: nat, j: nat, sub: string)
    requires j <= k <= |s|
    requires IsPrefix(sub, s[..k][j..])
    ensures IsPrefix(sub, s[j..])
  {
    assert s[..k][j..][..|sub|] == s[j..][..|sub|];
  }

  /** Python's `sep.join(parts)`. */
  function Join(parts: seq<string>, sep: string): string {
    if |parts| == 0 then ""
    else if |parts| == 1 then parts[0]
    else parts[0] + sep + Join(parts[1..], sep)
  }

  /** Python's `s.split(sep)` for a non-empty separator (an empty one raises
      ValueError): the pieces between the left-to-right occurrences of `sep`. */
  function Split(s: string, sep: string): (parts: seq<string>)
    requires |sep| > 0
    ensures |parts| >= 1
    ensures forall i :: 0 <= i < |parts| ==> !Contains(parts[i], sep)
    ensures Join(parts, sep) == s
    decreases |s|
  {
    match IndexOf(s, sep)
    case None => [s]
    case Some(i) =>
      var head := s[..i];
      var tail := Split(s[i + |sep|..], sep);
      var r := [head] + tail;
      NoEarlierOccurrence(s, i, sep);
      NoSeparatorInParts(head, tail, sep);
      assert Join(r, sep) == s by {
        JoinCons(head, tail, sep);
        assert s == head + sep + s[i + |sep|..] by {
          assert s[i..][..|sep|] == sep;
        }
      }
      r
  }

  lemma {:induction false} NoSeparatorInParts(head: string, tail: seq<string>, sep: string)
    requires !Contains(head, sep)
    requires forall k :: 0 <= k < |tail| ==> !Contains(tail[k], sep)
    ensures forall k :: 0 <= k < |[head] + tail| ==> !Contains(([head] + tail)[k], sep)
  {
    forall k | 0 <= k < |[head] + tail|
      ensures !Contains(([head] + tail)[k], sep)
    {
      if k > 0 {
        assert ([head] + tail)[k] == tail[k - 1];
      }
    }
  }

  lemma {:induction false} JoinCons(head: string, tail: seq<string>, sep: string)
    requires |tail| >= 1
    ensures Join([head] + tail, sep) == head + sep + Join(tail, sep)
  {
    assert ([head] + tail)[1..] == tail;
  }

  lemma {:induction false} NoEarlierOccurrence(s: string, i: nat, sep: string)
    requires |sep| > 0 && i <= |s|
    requires forall j :: 0 <= j < i ==> !IsPrefix(sep, s[j..])
    ensures !Contains(s[..i], sep)
  {
    forall j | 0 <= j <= i
      ensures !IsPrefix(sep, s[..i][j..])
    {
      if j < i && |sep| <= i - j {
        assert s[..i][j..][..|sep|] == s[j..][..|sep|];
      }
    }
  }

  lemma {:induction false} SplitWith(s: string, sep: string)
    requires |sep| > 0 && Contains(s, sep)
    ensures |Split(s, sep)| >= 2
  {
    assert IndexOf(s, sep).Some?;
  }

  lemma {:induction false} SplitWithout(s: string, sep: string)
    requires |sep| > 0 && !Contains(s, sep)
    ensures Split(s, sep) == [s]
  {
  }

  /** Python's `s.replace(pattern, replacement)` for a non-empty pattern, which is
      `replacement.join(s.split(pattern))`. */
  function Replace(s: string, pattern: string, replacement: string): (r: string)
    requires |pattern| > 0
    ensures !Contains(s, pattern) ==> r == s
  {
    Join(Split(s, pattern), replacement)
  }

  /** The last index of `c` in `s` (Python's `s.rfind(c)`). */
  function RFind(s: string, c: char): (r: Option<nat>)
    ensures r.Some? ==> r.value < |s| && s[r.value] == c
    ensures r.Some? ==> forall j :: r.value < j < |s| ==> s[j] != c
    ensures r.None? ==> forall j :: 0 <= j < |s| ==> s[j] != c
  {
    if |s| == 0 then None
    else if s[|s| - 1] == c then Some(|s| - 1)
    else RFind(s[..|s| - 1], c)
  }

  /** Python's `s[:s.rfind(c)]`: the text before the last `c`; when there is
      no `c`, rfind gives -1 and the slice drops the last character. */
  function BeforeLast(s: string, c: char): (r: string)
    ensures IsPrefix(r, s)
    ensures (exists j :: 0 <= j < |s| && s[j] == c) ==> |s| > |r| && s[|r|] == c
  {
    match RFind(s, c)
    case Some(i) => s[..i]
    case None => if |s| == 0 then "" else s[..|s| - 1]
  }

  /** Python's `s.split(c)[-1]`: the text after the last `c`, or all of `s`. */
  function AfterLast(s: string, c: char): (r: string)
    ensures IsSuffix(r, s)
    ensures forall j :: 0 <= j < |r| ==> r[j] != c
  {
    match RFind(s, c)
    case Some(i) => s[i + 1..]
    case None => s
  }

  lemma {:induction false} AfterLastOfJoin(m: string, c: char, v: string)
    requires forall j :: 0 <= j < |v| ==> v[j] != c
    ensures AfterLast(m + [c] + v, c) == v
  {
    var s := m + [c] + v;
    assert s[|m|] == c;
    assert forall j :: |m| < j < |s| ==> s[j] == v[j - |m| - 1];
    assert RFind(s, c) == Some(|m|);
    assert s[|m| + 1..] == v;
  }

  lemma {:induction false} BeforeLastOfJoin(m: string, c: char, v: string)
    requires forall j :: 0 <= j < |v| ==> v[j] != c
    ensures BeforeLast(m + [c] + v, c) == m
  {
    var s := m + [c] + v;
    assert s[|m|] == c;
    assert forall j :: |m| < j < |s| ==> s[j] == v[j - |m| - 1];
    assert RFind(s, c) == Some(|m|);
    assert s[..|m|] == m;
  }

  /** `'x' * n` in Python. */
  function Repeat(c: char, n: nat): (r: string)
    ensures |r| == n
    ensures forall i :: 0 <= i < n ==> r[i] == c
  {
    if n == 0 then "" else [c] + Repeat(c, n - 1)
  }

  predicate IsDigit(c: char) {
    '0' <= c <= '9'
  }

  /** A non-empty run of decimal digits. */
  predicate IsNumeral(s: string) {
    |s| > 0 && forall i :: 0 <= i < |s| ==> IsDigit(s[i])
  }

  function DigitChar(d: nat): (c: char)
    requires d < 10
    ensures IsDigit(c)
  {
    ('0' as int + d) as char
  }

  function DigitValue(c: char): (d: nat)
    requires IsDigit(c)
    ensures d < 10 && DigitChar(d) == c
  {
    c as int - '0' as int
  }

  /** The decimal digits of a natural number (Python's `str(n)`). */
  function NatToString(n: nat): (r: string)
    ensures IsNumeral(r)
    decreases n
  {
    if n < 10 then [DigitChar(n)] else NatToString(n / 10) + [DigitChar(n % 10)]
  }

  /** Python's `int(s)` on a string of decimal digits. */
  function ParseNat(s: string): nat
    requires forall i :: 0 <= i < |s| ==> IsDigit(s[i])
  {
    if |s| == 0 then 0 else ParseNat(s[..|s| - 1]) * 10 + DigitValue(s[|s| - 1])
  }

  /** Reading back the digits of `n` gives `n`. */
  lemma {:induction false} ParseNatToString(n: nat)
    ensures ParseNat(NatToString(n)) == n
    decreases n
  {
    var r := NatToString(n);
    if n >= 10 {
      ParseNatToString(n / 10);
      assert r[..|r| - 1] == NatToString(n / 10);
      assert DigitValue(r[|r| - 1]) == n % 10;
    }
  }

  predicate Lacks(s: string, c: char) {
    forall i :: 0 <= i < |s| ==> s[i] != c
  }

  /** A string without the character `c` contains no text starting with `c`. */
  lemma {:induction false} LacksNotContains(s: string, c: char, sub: string)
    requires Lacks(s, c) && |sub| > 0 && sub[0] == c
    ensures !Contains(s, sub)
  {
    forall i | 0 <= i <= |s|
      ensures !IsPrefix(sub, s[i..])
    {
      if i < |s| && |sub| <= |s| - i {
        assert s[i..][..|sub|][0] == s[i];
      }
    }
  }

  lemma {:induction false} LacksConcat(a: string, b: string, c: char)
    requires Lacks(a, c) && Lacks(b, c)
    ensures Lacks(a + b, c)
  {
  }

  /** Splitting on a one-character separator undoes joining with it, as long
      as no part holds the separator. */
  lemma {:induction false} SplitJoin(parts: seq<string>, c: char)
    requires |parts| >= 1
    requires forall i :: 0 <= i < |parts| ==> Lacks(parts[i], c)
    ensures Split(Join(parts, [c]), [c]) == parts
    decreases |parts|
  {
    var s := Join(parts, [c]);
    if |parts| == 1 {
      LacksNotContains(parts[0], c, [c]);
      SplitWithout(s, [c]);
    } else {
      var p := parts[0];
      var rest := Join(parts[1..], [c]);
      assert s == p + [c] + rest;
      FirstSeparator(p, c, rest);
      SplitAt(s, [c], |p|);
      assert s[..|p|] == p;
      assert s[|p| + 1..] == rest;
      SplitJoin(parts[1..], c);
      assert parts == [p] + parts[1..];
    }
  }

  /** The first `c` of `p + [c] + rest` is the one after `p` when `p` has none. */
  lemma {:induction false} FirstSeparator(p: string, c: char, rest: string)
    requires Lacks(p, c)
    ensures IndexOf(p + [c] + rest, [c]) == Some(|p|)
  {
    var s := p + [c] + rest;
    forall j | 0 <= j < |p|
      ensures !IsPrefix([c], s[j..])
    {
      assert s[j..][..1][0] == p[j];
    }
    assert s[|p|..][..1] == [c];
  }

  /** The text before the first occurrence of `sep`, or all of `s`. */
  function Before(s: string, sep: string): (r: string)
    requires |sep| > 0
    ensures IsPrefix(r, s) && !Contains(r, sep)
    ensures !Contains(s, sep) ==> r == s
  {
    match IndexOf(s, sep)
    case None => s
    case Some(i) =>
      NoEarlierOccurrence(s, i, sep);
      s[..i]
  }

  /** The text after the first occurrence of `sep`. */
  function After(s: string, sep: string): (r: string)
    requires |sep| > 0 && Contains(s, sep)
    ensures Before(s, sep) + sep + r == s
  {
    var i := IndexOf(s, sep).value;
    assert s[i..][..|sep|] == sep;
    assert s == s[..i] + sep + s[i + |sep|..];
    s[i + |sep|..]
  }

  /** The first part of a split is the text before the first separator. */
  lemma {:induction false} SplitHead(s: string, sep: string)
    requires |sep| > 0
    ensures Split(s, sep)[0] == Before(s, sep)
  {
    match IndexOf(s, sep)
    case None =>
    case Some(i) => SplitAt(s, sep, i);
  }

  /** `s.split(sep)[0]` and, when `sep` occurs, `s.split(sep)[1]`: the text
      before the first separator and the text between the first two. */
  lemma {:induction false} SplitParts(s: string, sep: string)
    requires |sep| > 0
    ensures Split(s, sep)[0] == Before(s, sep)
    ensures |Split(s, sep)| >= 2 <==> Contains(s, sep)
    ensures Contains(s, sep) ==> Split(s, sep)[1] == Before(After(s, sep), sep)
  {
    SplitHead(s, sep);
    match IndexOf(s, sep)
    case None =>
      SplitWithout(s, sep);
    case Some(i) =>
      SplitAt(s, sep, i);
      SplitHead(s[i + |sep|..], sep);
  }

  /** Splitting at the first occurrence of the separator. */
  lemma {:induction false} SplitAt(s: string, sep: string, i: nat)
    requires |sep| > 0 && IndexOf(s, sep) == Some(i)
    ensures Split(s, sep) == [s[..i]] + Split(s[i + |sep|..], sep)
  {
  }
}

=== FILE: tables.dfy ===
/** The lookup tables shared by the canonicalisers and the aggregator
    (sast_controller/converters/__init__.py). */
module Tables {
  import opened Wrappers

  /** Severity name to rank. */
  const SeverityMapping: map<string, nat> := map[
    "Critical" := 4,
    "High" := 3,
    "Medium" := 2,
    "Moderate" := 2,
    "Low" := 1,
    "Information" := 0,
    "Info" := 0
  ]

  /** Severity name to dashboard defect type. */
  const SeverityMappingType: map<string, string> := map[
    "Critical" := "Product Bug",
    "High" := "Product Bug",
    "Medium" := "No Defect",
    "Moderate" := "No Defect",
    "Low" := "No Defect",
    "Information" := "No Defect",
    "Info" := "No Defect"
  ]

  /** Severity name to ticket priority; there is deliberately no "Info" key. */
  const PriorityMapping: map<string, string> := map[
    "Critical" := "Blocker",
    "High" := "Critical",
    "Medium" := "Major",
    "Moderate" := "Major",
    "Low" := "Minor",
    "Information" := "Trivial"
  ]

  /** Defect type to precedence: the lower number wins a conflict. */
  const RpDefectTypePriority: map<string, nat> := map[
    "Product Bug" := 0,
    "System Issue" := 1,
    "To Investigate" := 2,
    "No Defect" := 3
  ]

  predicate KnownSeverity(s: string) {
    s in SeverityMapping
  }

  /** `SEVERITY_MAPPING.get(s)`. */
  function Rank(s: string): Option<nat> {
    if s in SeverityMapping then Some(SeverityMapping[s]) else None
  }

  lemma {:induction false} SeverityOrder()
    ensures SeverityMapping["Critical"] > SeverityMapping["High"] > SeverityMapping["Medium"]
    ensures SeverityMapping["Medium"] == SeverityMapping["Moderate"]
    ensures SeverityMapping["Moderate"] > SeverityMapping["Low"] > SeverityMapping["Information"]
    ensures SeverityMapping["Information"] == SeverityMapping["Info"] == 0
  {
  }

  /** The defect type of a severity is Product Bug exactly for ranks 3 and 4,
      and both tables know the same severities. */
  lemma {:induction false} DefectTypeFollowsRank(s: string)
    ensures s in SeverityMappingType <==> s in SeverityMapping
    ensures s in SeverityMapping ==>
      SeverityMappingType[s] == (if SeverityMapping[s] >= 3 then "Product Bug" else "No Defect")
  {
  }

  /** Every severity ranked above zero has a ticket priority; "Info" has none,
      and Medium and Moderate share one. */
  lemma {:induction false} PriorityMappingCoverage(s: string)
    ensures s in SeverityMapping && SeverityMapping[s] > 0 ==> s in PriorityMapping
    ensures s in PriorityMapping ==> s in SeverityMapping
    ensures "Info" !in PriorityMapping
    ensures PriorityMapping["Medium"] == PriorityMapping["Moderate"] == "Major"
  {
  }

  lemma {:induction false} DefectTypePrecedence()
    ensures RpDefectTypePriority["Product Bug"] < RpDefectTypePriority["System Issue"]
    ensures RpDefectTypePriority["System Issue"] < RpDefectTypePriority["To Investigate"]
    ensures RpDefectTypePriority["To Investigate"] < RpDefectTypePriority["No Defect"]
    ensures forall t :: t in SeverityMappingType.Values ==> t in RpDefectTypePriority
  {
  }
}

=== FILE: test_item.dfy ===
/** A dashboard test item (sast_controller/drivers/rp/TestItem.py): the
    aggregate's name, tags, parameters and log messages. Tags and parameters
    are insertion-ordered dictionaries. */
module TestItems {
  import opened Wrappers
  import opened Strings
  import opened Assoc
  import opened TestMessages
  import opened BaseReport

  /** An insertion-ordered dictionary: its keys are pairwise distinct. */
  type Dict = d: seq<(string, string)> | Distinct(Keys(d))

  /** The defect classification handed to the dashboard. */
  datatype DefectInfo = DefectInfo(defectType: string, comment: string)

  datatype TestItem = TestItem(
    issue: string,
    tool: string,
    severity: string,
    priority: string,
    confidence: string,
    description: string,
    attachments: seq<Attachment>,
    msgs: seq<TestMessage>,
    tags: Dict,
    params: Dict,
    defectTypeInfo: DefectInfo)

  /** The constructor's tag dictionary, in its literal's key order. */
  function InitialTags(tool: string, severity: string, confidence: string, priority: string): (d: Dict)
    ensures Keys(d) == ["Tool", "Severity", "Confidence", "Priority"]
  {
    var d := [("Tool", tool), ("Severity", severity), ("Confidence", confidence), ("Priority", priority)];
    assert Keys(d) == ["Tool", "Severity", "Confidence", "Priority"];
    assert "Tool"[0] != "Severity"[0] && "Tool"[0] != "Confidence"[0] && "Tool"[0] != "Priority"[0];
    assert "Severity"[0] != "Confidence"[0] && "Severity"[0] != "Priority"[0] && "Confidence"[0] != "Priority"[0];
    d
  }

  lemma {:induction false} InitialTagValues(tool: string, severity: string, confidence: string, priority: string)
    ensures var d := InitialTags(tool, severity, confidence, priority);
      Get(d, "Tool") == Some(tool) && Get(d, "Severity") == Some(severity)
      && Get(d, "Confidence") == Some(confidence) && Get(d, "Priority") == Some(priority)
  {
    var d := InitialTags(tool, severity, confidence, priority);
    assert d[0].0 == "Tool" && d[1].0 == "Severity" && d[2].0 == "Confidence" && d[3].0 == "Priority";
    GetAt(d, 0);
    GetAt(d, 1);
    GetAt(d, 2);
    GetAt(d, 3);
  }

  /** The constructor: four tags and a single parameter, no messages. */
  function NewItem(issue: string, severity: string, confidence: string, description: string, tool: string,
                   priority: string, attachments: seq<Attachment>, defect: DefectInfo): (t: TestItem)
    ensures Keys(t.tags) == ["Tool", "Severity", "Confidence", "Priority"]
    ensures Get(t.tags, "Tool") == Some(tool) && Get(t.tags, "Severity") == Some(severity)
    ensures Get(t.tags, "Confidence") == Some(confidence) && Get(t.tags, "Priority") == Some(priority)
    ensures Keys(t.params) == ["Tool"] && Get(t.params, "Tool") == Some(tool)
    ensures t.msgs == []
  {
    InitialTagValues(tool, severity, confidence, priority);
    TestItem(issue, tool, severity, priority, confidence, description, attachments, [],
             InitialTags(tool, severity, confidence, priority), [("Tool", tool)], defect)
  }

  /** `add_message`: appended only when no equal message is present, so the
      messages stay pairwise distinct. */
  function AddMessage(t: TestItem, msg: TestMessage): (r: TestItem)
    ensures msg in r.msgs
    ensures msg in t.msgs ==> r == t
    ensures msg !in t.msgs ==> r == t.(msgs := t.msgs + [msg])
    ensures Distinct(t.msgs) ==> Distinct(r.msgs)
  {
    if Count(t.msgs, msg) == 0 then t.(msgs := t.msgs + [msg]) else t
  }

  /** `add_tag`: sets one key and leaves every other tag alone. */
  function AddTag(t: TestItem, key: string, value: string): (r: TestItem)
    ensures Get(r.tags, key) == Some(value)
    ensures forall k :: k != key ==> Get(r.tags, k) == Get(t.tags, k)
    ensures r == t.(tags := r.tags)
  {
    PutKeepsDistinct(t.tags, key, value);
    t.(tags := Put(t.tags, key, value))
  }

  /** `add_param`: sets one key and leaves every other parameter alone. */
  function AddParam(t: TestItem, key: string, value: string): (r: TestItem)
    ensures Get(r.params, key) == Some(value)
    ensures forall k :: k != key ==> Get(r.params, k) == Get(t.params, k)
    ensures r == t.(params := r.params)
  {
    PutKeepsDistinct(t.params, key, value);
    t.(params := Put(t.params, key, value))
  }

  /** `get_tags`: one "key: value" string per tag, in insertion order. */
  function GetTags(t: TestItem): (r: seq<string>)
    ensures |r| == |t.tags|
    ensures forall i :: 0 <= i < |r| ==> r[i] == t.tags[i].0 + ": " + t.tags[i].1
  {
    seq(|t.tags|, i requires 0 <= i < |t.tags| => t.tags[i].0 + ": " + t.tags[i].1)
  }

  /** `for k, v in src.items(): dst[k] = v`. */
  function PutAll(dst: Dict, src: Dict): (r: Dict)
    ensures forall k :: Get(r, k) == if k in Keys(src) then Get(src, k) else Get(dst, k)
    decreases |src|
  {
    if |src| == 0 then dst
    else
      PutKeepsDistinct(dst, src[0].0, src[0].1);
      DistinctTail(src);
      var r := PutAll(Put(dst, src[0].0, src[0].1), src[1..]);
      PutAllStep(dst, src, r);
      r
  }

  /** One step of `PutAll`: storing the first entry, then the rest. */
  lemma {:induction false} PutAllStep(dst: seq<(string, string)>, src: seq<(string, string)>, r: seq<(string, string)>)
    requires |src| > 0 && src[0].0 !in Keys(src[1..])
    requires forall k :: Get(r, k) == if k in Keys(src[1..]) then Get(src[1..], k) else Get(Put(dst, src[0].0, src[0].1), k)
    ensures forall k :: Get(r, k) == if k in Keys(src) then Get(src, k) else Get(dst, k)
  {
    assert Keys(src) == [src[0].0] + Keys(src[1..]);
    assert src == [src[0]] + src[1..];
    GetCons(src[0], src[1..]);
  }

  /** `get_params`: Severity and Confidence, overridden by the stored
      parameters. */
  function GetParams(t: TestItem): (r: Dict)
    ensures "Severity" !in Keys(t.params) ==> Get(r, "Severity") == Some(t.severity)
    ensures "Confidence" !in Keys(t.params) ==> Get(r, "Confidence") == Some(t.confidence)
    ensures forall k :: k in Keys(t.params) ==> Get(r, k) == Get(t.params, k)
    ensures forall k :: k !in Keys(t.params) && k != "Severity" && k != "Confidence" ==> Get(r, k) == None
  {
    PutAll(Defaults(t.severity, t.confidence), t.params)
  }

  function Defaults(severity: string, confidence: string): (d: Dict)
    ensures Get(d, "Severity") == Some(severity) && Get(d, "Confidence") == Some(confidence)
    ensures forall k :: k != "Severity" && k != "Confidence" ==> Get(d, k) == None
  {
    var d := [("Severity", severity), ("Confidence", confidence)];
    assert Keys(d) == ["Severity", "Confidence"];
    assert "Severity" != "Confidence";
    d
  }

  /** The parameter dictionaries hold the same pairs (Python's dict `==`). */
  predicate SameDict(a: Dict, b: Dict) {
    (forall i :: 0 <= i < |a| ==> Get(b, a[i].0) == Get(a, a[i].0))
    && (forall j :: 0 <= j < |b| ==> Get(a, b[j].0) == Get(b, b[j].0))
  }

  /** `params.get("Links")` is a non-empty string. */
  predicate HasLinks(t: TestItem) {
    Get(t.params, "Links").Some? && Get(t.params, "Links").value != ""
  }

  /** `__eq__`: same issue and confidence, or names that contain one another
      together with equal parameters or links that contain one another. */
  predicate Equals(a: TestItem, b: TestItem) {
    var sameName := Contains(a.issue, b.issue) || Contains(b.issue, a.issue);
    var sameLink := SameDict(a.params, b.params)
      || (HasLinks(a) && HasLinks(b)
          && (Contains(Get(a.params, "Links").value, Get(b.params, "Links").value)
              || Contains(Get(b.params, "Links").value, Get(a.params, "Links").value)));
    (a.issue == b.issue && a.confidence == b.confidence) || (sameName && sameLink)
  }

  lemma {:induction false} EqualsReflexiveSymmetric(a: TestItem, b: TestItem)
    ensures Equals(a, a)
    ensures Equals(a, b) ==> Equals(b, a)
  {
  }

  /** Containment of names makes the relation non-transitive: "ab" and "bc"
      both lie inside "abc" but not inside one another. */
  lemma {:induction false} EqualsNotTransitive(t: TestItem)
    ensures var a := t.(issue := "ab", confidence := "Certain");
      var b := t.(issue := "abc", confidence := "Firm");
      var c := t.(issue := "bc", confidence := "Certain");
      Equals(a, b) && Equals(b, c) && !Equals(a, c)
  {
    assert IsPrefix("ab", "abc"[0..]);
    assert IsPrefix("bc", "abc"[1..]);
    assert !Contains("ab", "bc") by {
      assert "ab"[0] != "bc"[0];
    }
    assert !Contains("bc", "ab") by {
      assert "bc"[0] != "ab"[0];
    }
  }
}

=== FILE: test_message.dfy ===
/** One log message of a dashboard test item
    (sast_controller/drivers/rp/TestMessage.py). */
module TestMessages {

  /** The text and its status, which callers set to "INFO" or "ERROR". */
  datatype TestMessage = TestMessage(message: string, status: string)

  /** What `==` can be handed: another message or a value of some other class. */
  datatype Operand = Message(m: TestMessage) | OtherValue

  /** `__eq__`: equal to another message with the same text and status, and
      never equal to a value of another class. */
  predicate Equals(a: TestMessage, b: Operand) {
    b.Message? && a.message == b.m.message && a.status == b.m.status
  }

  /** Message equality is value equality of the record. */
  lemma {:induction false} EqualsIsIdentity(a: TestMessage, b: Operand)
    ensures Equals(a, b) <==> b == Message(a)
    ensures !Equals(a, OtherValue)
  {
  }

  lemma {:induction false} EqualsIsEquivalence(a: TestMessage, b: TestMessage, c: TestMessage)
    ensures Equals(a, Message(a))
    ensures Equals(a, Message(b)) ==> Equals(b, Message(a))
    ensures Equals(a, Message(b)) && Equals(b, Message(c)) ==> Equals(a, Message(c))
  {
  }

  /** `msgs.count(msg)`: how many elements equal `msg`. */
  function Count(msgs: seq<TestMessage>, msg: TestMessage): (n: nat)
    ensures n == 0 <==> msg !in msgs
    ensures n <= |msgs|
  {
    if |msgs| == 0 then 0
    else (if Equals(msg, Message(msgs[0])) then 1 else 0) + Count(msgs[1..], msg)
  }
}

=== FILE: wrappers.dfy ===
/** Failure-compatible datatypes shared by every module of the model.
    A Python exception that escapes an operation becomes a `Failure` carrying
    the exception's kind. */
module Wrappers {

  datatype Option<+T> = None | Some(value: T) {
    function GetOr(default: T): T {
      match this
      case Some(v) => v
      case None => default
    }
  }

  /** The Python exceptions the modelled code can raise. */
  datatype Error =
    | KeyError(key: string)
    | IndexError
    | TypeError
    | AttributeError
    | ValueError(message: string)
    | Raised(message: string)

  datatype Result<+T> = Success(value: T) | Failure(error: Error) {
    predicate IsFailure() {
      Failure?
    }

    function PropagateFailure<U>(): Result<U>
      requires Failure?
    {
      Failure(error)
    }

    function Extract(): T
      requires Success?
    {
      value
    }
  }
}
